=== FILE: README.md ===
# Blog helper scripts, modelled in Dafny

This project models the text-processing helpers of a Hugo blog.

- **`Automatic-Updates/update_frontmatter.py`** walks the posts. It uses a hash table saved between runs to skip posts that have not changed. For every other post, `update_frontmatter`:
  - splits the post at its `---` front-matter delimiters;
  - fills in a missing title (from the file name) and a missing date (from the clock);
  - cleans the `categories` list, falling back to the scalar `"Uncategorized"`;
  - writes the post back when anything changed.

  `load_hashes` and `save_hashes` keep the table in a `path<TAB>hash` text file.
- **`Automatic-Updates/images.py`**:
  - finds Obsidian embeds `[[name.png]]` (and jpg/jpeg/gif/bmp, any case) with a regular expression;
  - replaces each one everywhere with a Markdown link `[Image Description](/images/name)`, writing spaces as `%20`;
  - copies the images it can find;
  - writes back the posts that contained embeds.
- **`CS-Topics/images.py`** is the older variant of the same rewriter. It has a looser, case-sensitive `.png`-only pattern and produces image embeds `![Image Description](...)`. It writes every post back.

Modules, one per file:

- `Options`: the `Option` type.
- `Strings`: Python's `strip`, `rstrip`, `split`, `split(sep, n)`, `replace` and `join`.
- `ImageRefs`: the `[[name]]` embed and the `%20` encoding, shared by both rewriters.
- `ImageLinks`: `Automatic-Updates/images.py`.
- `LegacyImageLinks`: `CS-Topics/images.py`.
- `Frontmatter`: `update_frontmatter`.
- `HashTable`: `load_hashes` and `save_hashes`.
- `HashRun`: the loop of `main`.

Everything the scripts get from the outside is a parameter of the model:

- file contents (`None` when a read fails);
- whether a write succeeds;
- which images exist;
- the YAML codec, as `load` and `dump` functions;
- the clock reading;
- `os.path.abspath`;
- the hashes of the walked files and what `update_frontmatter` did to each.

The model proves several properties.

- **Newer rewriter.** Its `findall` reports exactly the embeds of valid names. The loop of `replace` calls is the same as one left-to-right scan that turns each embed into its link and copies all other text. The rewrite leaves no embed behind, so a second run does nothing. The slash check can never fire.
- **Older rewriter.** When no name its pattern matches holds `[`, the loop of `replace` calls is the same as one left-to-right scan that turns each matched embed into its image embed and copies all other text. On `[[a.png]] [[[[a.png]]` (a matched name `[[a.png`) the two differ. Its `findall` is not complete: in `[[[[a.png]]b.png]]` it misses the embed of `a.png`. Two runs differ from one. On `[[[[a.png]]b.png]]`, the first run's output holds a new embed `[[a.png)b.png]]`, which the second run rewrites again.
- **Normaliser.**
  - It reports "no change" exactly on front matter with a truthy title and date and a non-empty list of non-blank string categories.
  - Its own `"Uncategorized"` fallback is not such a front matter. Take a post it wrote with that fallback and a truthy title and date, whose dump holds no `---` and loads back to the same mapping. Every later call of `update_frontmatter` on that post writes it again with the same text. A post given a non-empty category list is normal afterwards and is not written again.
- **Hash file.** Saving then loading gives back the same table.
- **`main`.** After a completed run, the next run skips exactly the posts whose hash is the one this run recorded. The hash table is thus what stops the rewrites.

## Model

| member | source | states |
|---|---|---|
| Strings.RStrip | Automatic-Updates/update_frontmatter.py:141 | `rstrip()` returns a prefix of its input that does not end in whitespace, and everything it cut is whitespace |
| Strings.StripEmptyIff | Automatic-Updates/update_frontmatter.py:106 | `cat.strip()` is empty exactly when the category is made only of whitespace |
| Strings.SplitN | Automatic-Updates/update_frontmatter.py:66 | `split("---", 2)` gives at most three pieces that join back to the input; every piece but the last has no `---`, and the last has none either when fewer cuts were made; each cut is at the leftmost `---` of the text that remains |
| Strings.SplitAll | Automatic-Updates/update_frontmatter.py:32 | `split("\t")` gives pieces that join back to the input and hold no tab, each cut at the leftmost tab of the text that remains |
| Strings.ReplaceAll | Automatic-Updates/images.py:69 | `str.replace`: a left-to-right scan that replaces each occurrence and resumes after it; its meaning is stated by `ReplaceAllFirst`, `ReplaceAllAbsent`, `ReplaceAllCleanPrefix` and `ReplaceAllIsJoinOfSplit` |
| Strings.ReplaceAllFirst | Automatic-Updates/images.py:69 | `replace` keeps the text before the first occurrence verbatim, puts the replacement in its place, and goes on after it |
| Strings.ReplaceAllAbsent | Automatic-Updates/images.py:69 | `replace` returns its input when the pattern does not occur |
| Strings.ReplaceAllCleanPrefix | Automatic-Updates/images.py:69 | text in front of which no occurrence starts is copied verbatim, and `replace` goes on with the rest |
| Strings.ReplaceAllIsJoinOfSplit | CS-Topics/images.py:24 | `replace(pat, rep)` equals cutting at every occurrence of `pat` and joining with `rep` |
| ImageRefs.EncodeSpaces | Automatic-Updates/images.py:68 | the link target has no space, is made of the name's characters and `%20`, and equals the name when it has no space |
| ImageRefs.SpacesDecodeBack | CS-Topics/images.py:23 | for a name without `%`, turning `%20` back into spaces recovers the name: the encoding loses nothing |
| ImageLinks.MatchAtStart | Automatic-Updates/images.py:24 | a match is `[[` + a name of word characters, whitespace, `.` and `-` ending in an image extension + `]]` |
| ImageLinks.MatchAtStartComplete | Automatic-Updates/images.py:24 | wherever such an embed starts, the pattern matches it, with exactly that name |
| ImageLinks.FindAll | Automatic-Updates/images.py:53 | every name `findall` returns is a valid image name whose embed occurs in the post |
| ImageLinks.FindAllComplete | Automatic-Updates/images.py:53 | every valid embed in the post is returned by `findall`: no embed hides inside another match |
| ImageLinks.FindAllEmptyIff | Automatic-Updates/images.py:53-57 | a post is skipped as having no images exactly when it holds no valid embed |
| ImageLinks.FindAllMembership | Automatic-Updates/images.py:53 | a name is found exactly when it is a valid image name whose embed occurs, and no found name has a slash |
| ImageLinks.SlashCheckUnreachable | Automatic-Updates/images.py:63-65 | a matched name never contains `/` or `\`, so the suspicious-name branch cannot be taken |
| ImageLinks.Link | Automatic-Updates/images.py:68 | the replacement for a name: `[Image Description](/images/` + the name with spaces as `%20` + `)`; its shape is stated by `LinkShape` and `NoRefInLink` |
| ImageLinks.LinkShape | Automatic-Updates/images.py:67-68 | the replacement starts `[Image Description](`, holds no other `[`, and ends in `)`: a plain link, not the `![` image embed the comment announces |
| ImageLinks.NoRefInLink | Automatic-Updates/images.py:68 | a replacement link contains no embed |
| ImageLinks.RefAfterReplace | Automatic-Updates/images.py:69 | replacing the embeds of one name creates no embed: any embed left afterwards was there before and is not of that name |
| ImageLinks.Replace | Automatic-Updates/images.py:63-69 | one pass of the loop body: the slash check, then `replace` of the name's embed by its link; stated by `RefAfterReplace`, `ReplaceStep` and `RewriteAllFirst` |
| ImageLinks.RewriteAll | Automatic-Updates/images.py:60-69 | the loop over the found names in order; `RewriteAllRemoves`, `RewriteLeavesNoRef` and `RewriteIsLinkEmbeds` say what it produces |
| ImageLinks.RewriteAllFirst | Automatic-Updates/images.py:61-69 | for an image name the slash check passes, so the first pass of the loop is the plain `replace` |
| ImageLinks.RewriteAllRemoves | Automatic-Updates/images.py:61-69 | after the loop over the found names, an embed that remains was in the post and is of no name in the list |
| ImageLinks.RewriteLeavesNoRef | Automatic-Updates/images.py:53-69 | after rewriting all found names, the post holds no valid embed at all |
| ImageLinks.ReplaceStep | Automatic-Updates/images.py:69 | on text where some names' embeds already became links, `replace` of one more name's embed is the same left-to-right scan with that name added: no embed is found across a link or a copied `[` |
| ImageLinks.RewriteAllLinkSome | Automatic-Updates/images.py:61-69 | the loop over a list of names is the scan that links the embeds of exactly those names |
| ImageLinks.LinkSomeNone | Automatic-Updates/images.py:60 | with no name handled yet, the text is unchanged |
| ImageLinks.LinkSomeAll | Automatic-Updates/images.py:53-69 | once every occurring name is handled, the scan links every embed it meets |
| ImageLinks.RewriteIsLinkEmbeds | Automatic-Updates/images.py:53-69 | the loop over the names `findall` returned writes the post with every embed, scanned left to right, turned into its link and all other text copied |
| ImageLinks.LinkEmbedsPlain | Automatic-Updates/images.py:53-69 | text holding no `[` is written as it was, and the rewrite goes on after it |
| ImageLinks.LinkEmbedsAtEmbed | Automatic-Updates/images.py:53-69 | an embed of an image name is written as its link, and the rewrite goes on after it |
| ImageLinks.LinkEmbedsNoEmbed | Automatic-Updates/images.py:53-57 | text where `findall` finds nothing is written as it was |
| ImageLinks.Copies | Automatic-Updates/images.py:71-86 | an image is copied exactly when it was found, passes the slash check, exists (line 73), is readable (line 77) and its `copy2` (lines 82-86) succeeds |
| ImageLinks.ProcessPost | Automatic-Updates/images.py:44-98 | an unreadable post is left alone; a post is written exactly when it holds an embed, the W_OK check of line 89 passes and the write of lines 93-98 succeeds; the written text is the post with every embed turned into its link and nothing else changed, and holds no embed; the copied images are exactly the embedded ones that exist, are readable and copy without error |
| ImageLinks.ProcessSingleEmbed | Automatic-Updates/images.py:44-98 | a post `x` + embed of `n` + `y` that passes the write check and is written without error,, with no `[` in `x` and no embed in `y`, is written as `x` + the link of `n` + `y` |
| ImageLinks.SecondRunIsNoOp | Automatic-Updates/images.py:53-57 | running the script on its own output writes and copies nothing |
| ImageLinks.RewriteIgnoresAvailability | Automatic-Updates/images.py:68-79 | the rewritten text does not depend on which images exist or are readable |
| LegacyImageLinks.MatchAtStart | CS-Topics/images.py:19 | a match is `[[` + a name with no `]` ending in `.png` (lower case) + `]]` |
| LegacyImageLinks.MatchAtStartComplete | CS-Topics/images.py:19 | wherever such an embed starts, the pattern matches it, with exactly that name |
| LegacyImageLinks.FindAll | CS-Topics/images.py:19 | every returned name has no `]`, ends in `.png`, and its embed occurs in the post |
| LegacyImageLinks.FindAllFindsSome | CS-Topics/images.py:19 | if any embed of such a name occurs, `findall` returns something |
| LegacyImageLinks.FindAllEmptyIff | CS-Topics/images.py:19 | `findall` returns nothing exactly when no embed of such a name occurs |
| LegacyImageLinks.FindAllSkipsPlainText | CS-Topics/images.py:19 | text in which no `[[` starts adds no match in front of what follows |
| LegacyImageLinks.Link | CS-Topics/images.py:23 | the replacement for a name: `![Image Description](/images/` + the name with spaces as `%20` + `)`; stated by `LinkIsImageEmbed` |
| LegacyImageLinks.LinkIsImageEmbed | CS-Topics/images.py:23 | the replacement is a Markdown image embed `![...](...)` |
| LegacyImageLinks.RewriteAll | CS-Topics/images.py:21-24 | the loop over the found names in order, each `replace`d everywhere by its image embed; what it writes is stated by `RewriteIsLinkEmbeds`, `ProcessSingleEmbed`, `FirstRunOnNestedEmbed` and `LoopDiffersFromScan` |
| LegacyImageLinks.Copies | CS-Topics/images.py:26-32 | an image is copied exactly when it was found and exists |
| LegacyImageLinks.ProcessPost | CS-Topics/images.py:12-36 | a post with no embed is written back unchanged; an image is copied exactly when `findall` returned it and it exists, and every copied image was embedded; when no matched name holds `[`, the text written is the post with every matched embed, scanned left to right, turned into its image embed and all other text copied |
| LegacyImageLinks.ReplaceStep | CS-Topics/images.py:24 | on text where some names' embeds already became image embeds, `replace` of one more name's embed is the same left-to-right scan with that name added, when no matched name holds `[`: no embed is found inside an image embed or across a copied `[` |
| LegacyImageLinks.MatchInRunLifts | CS-Topics/images.py:19 | a match that starts before the first `]` after a `[[` makes that `[[` match too, since `[^]]*` runs to the same `]` |
| LegacyImageLinks.CloseNeedsEmbed | CS-Topics/images.py:19-24 | after a `[[` the pattern does not match there, the scan's output does not go on with a name and `]]` |
| LegacyImageLinks.RewriteAllLinkSome | CS-Topics/images.py:21-24 | the loop over a list of names without `[` is the scan that turns the embeds of exactly those names into image embeds |
| LegacyImageLinks.LinkSomeNone | CS-Topics/images.py:19-21 | with no name handled yet, the text is unchanged |
| LegacyImageLinks.LinkSomeAll | CS-Topics/images.py:19-24 | once every found name is handled, the scan rewrites every match it meets |
| LegacyImageLinks.RewriteIsLinkEmbeds | CS-Topics/images.py:19-24 | when no name `findall` returned holds `[`, the loop writes the post with every matched embed, scanned left to right, turned into its image embed and all other text copied |
| LegacyImageLinks.LinkEmbedsPlain | CS-Topics/images.py:19-24 | text holding no `[` is written as it was |
| LegacyImageLinks.LinkEmbedsAtEmbed | CS-Topics/images.py:19-24 | an embed of a matching name is written as its image embed, and the rewrite goes on after it |
| LegacyImageLinks.LinkEmbedsNoEmbed | CS-Topics/images.py:19-24 | where no match starts, the character is written as it was |
| LegacyImageLinks.EmbedThenNestedFindAll | CS-Topics/images.py:19 | on `[[a]] [[[[a]]` `findall` returns `a`, then `[[a` |
| LegacyImageLinks.EmbedThenNestedLoop | CS-Topics/images.py:21-24 | replacing `[[a]]` first also rewrites the inside of `[[[[a]]`, so the loop writes the image embed of `a`, ` [[` and the image embed of `a` |
| LegacyImageLinks.EmbedThenNestedScan | CS-Topics/images.py:19-24 | the scan writes the image embed of `a`, a space and the image embed of `[[a` |
| LegacyImageLinks.LoopDiffersFromScan | CS-Topics/images.py:12-36 | without the condition on the names the statement fails: on `[[a]] [[[[a]]` the matched name `[[a` holds `[` and the text written is not the scan's |
| LegacyImageLinks.ProcessSingleEmbed | CS-Topics/images.py:12-36 | a post `x` + embed of `n` + `y`, with no `[` in `x` or `y`, is written as `x` + the image embed of `n` + `y`, and `n` is copied exactly when it exists |
| LegacyImageLinks.FindAllSingle | CS-Topics/images.py:19 | on such a post `findall` returns exactly `[n]` |
| LegacyImageLinks.RewriteIgnoresExistence | CS-Topics/images.py:21-32 | the rewritten text does not depend on which images exist |
| LegacyImageLinks.FirstRunOnNestedEmbed | CS-Topics/images.py:19-24 | on `[[[[a]]b]]` the pattern finds the name `[[a`, and the post becomes the link front followed by `[[a)b]]` |
| LegacyImageLinks.FindAllOnNestedEmbed | CS-Topics/images.py:19 | on `[[[[a]]b]]` `findall` returns the one name `[[a` |
| LegacyImageLinks.FindAllMissesInnerEmbed | CS-Topics/images.py:19 | in `[[[[a]]b]]` the embed of the valid name `a` occurs, yet `findall` does not return `a` |
| LegacyImageLinks.RewrittenNestedEmbedHoldsNewEmbed | CS-Topics/images.py:19 | that output holds a new embed, of the name `a)b` |
| LegacyImageLinks.SecondRunOnNestedEmbed | CS-Topics/images.py:19-24 | the second run rewrites that new embed into a link |
| LegacyImageLinks.SecondRunRewritesAgain | CS-Topics/images.py:11-36 | running the script twice differs from running it once, for every post `[[[[a]]b]]` with plain `.png` names `a` and `b` |
| LegacyImageLinks.SecondRunRewritesAgainExample | CS-Topics/images.py:11-36 | an instance: `[[[[y.png]]z.png]]` |
| Frontmatter.Basename | Automatic-Updates/update_frontmatter.py:89 | `os.path.basename` is the slash-free end of the path that follows its last `/` |
| Frontmatter.TitleFrom | Automatic-Updates/update_frontmatter.py:89 | `title()` keeps the length and, at each position, upper-cases a letter that follows a non-letter and lower-cases one that follows a letter |
| Frontmatter.TitleCaseIdempotent | Automatic-Updates/update_frontmatter.py:89 | `title()` applied twice gives the same as once |
| Frontmatter.Stem | Automatic-Updates/update_frontmatter.py:89 | the file name with `.md` removed and `_` read as a space holds no `_` and no `/` |
| Frontmatter.TitleCaseShape | Automatic-Updates/update_frontmatter.py:89 | `title()` keeps the length, agrees with its input up to case at every position, and makes a letter upper case exactly when it starts a word |
| Frontmatter.DefaultTitle | Automatic-Updates/update_frontmatter.py:89 | the default title is the stem of the file name, letter for letter up to case, with a letter upper case exactly when it starts a word; it has no `_` and no `/` and is already title-cased |
| Frontmatter.IsCategoryStrips | Automatic-Updates/update_frontmatter.py:106 | a kept category is a string whose `strip()` is non-empty |
| Frontmatter.FilterCategories | Automatic-Updates/update_frontmatter.py:106 | the filtered list holds exactly the non-blank strings of the original, and is no longer |
| Frontmatter.FilterCategoriesKeepsAll | Automatic-Updates/update_frontmatter.py:106-115 | the filter drops nothing exactly when every item is a non-blank string, and then returns the list itself (so no change is reported) |
| Frontmatter.FilterCategoriesConcat | Automatic-Updates/update_frontmatter.py:106 | the filter keeps the original order: filtering a concatenation concatenates the filtered parts |
| Frontmatter.FilterCategoriesIdempotent | Automatic-Updates/update_frontmatter.py:106 | filtering a filtered list changes nothing |
| Frontmatter.FillIn | Automatic-Updates/update_frontmatter.py:88-98 | a title or date is replaced, and a change reported, exactly when it is missing or falsy; no other key changes |
| Frontmatter.CleanCategories | Automatic-Updates/update_frontmatter.py:102-125 | `categories` is removed unless it is a list with a non-blank string category, and is then that list of kept categories; no other key changes |
| Frontmatter.Normalize | Automatic-Updates/update_frontmatter.py:85-131 | afterwards `title`, `date` and `categories` are present; other keys are untouched; a truthy title or date is kept and a missing or falsy one gets the default title or the clock reading; categories become the non-empty cleaned list, or else the scalar `"Uncategorized"` |
| Frontmatter.NormalizeUnchangedIff | Automatic-Updates/update_frontmatter.py:85-135 | no change is reported exactly when title and date are truthy and categories is a non-empty list of non-blank strings, and then the mapping is returned as it was |
| Frontmatter.NormalizeFixes | Automatic-Updates/update_frontmatter.py:85-131 | a mapping with a truthy date, a truthy or default title, and categories that are kept whole or the scalar fallback is left as it is |
| Frontmatter.KeptAfterNormalize | Automatic-Updates/update_frontmatter.py:102-131 | a second pass keeps the same categories as the first |
| Frontmatter.NormalizeDataIdempotent | Automatic-Updates/update_frontmatter.py:85-131 | with a non-empty clock reading, normalising twice gives the same front matter as normalising once |
| Frontmatter.ScalarCategoryIsRewritten | Automatic-Updates/update_frontmatter.py:121-131 | a front matter whose categories is the scalar `"Uncategorized"` is always reported as modified, and with a truthy title and date nothing actually changes |
| Frontmatter.SecondPassModifiedIff | Automatic-Updates/update_frontmatter.py:85-135 | with a non-empty clock reading, a second pass reports a change exactly when the first found no category to keep (so the scalar fallback is in place), or when the title was missing and the file name gives an empty default title |
| Frontmatter.FallbackIsScalarCategory | Automatic-Updates/update_frontmatter.py:127-131 | when no category survives, the clock reading is non-empty and a title is present or derivable, the result has the scalar category and a truthy title and date |
| Frontmatter.SplitPost | Automatic-Updates/update_frontmatter.py:61-72 | a post splits exactly when it starts with `---` and has another `---` later; it is then `---` + front matter + `---` + body, cut at the first `---` after the opening one, so the front matter holds no `---` |
| Frontmatter.SplitAtFront | Automatic-Updates/update_frontmatter.py:66-69 | for a post that starts with `---`, the split gives three parts exactly when a closing `---` follows |
| Frontmatter.RebuiltBody | Automatic-Updates/update_frontmatter.py:147-150 | the body is written after a line break: verbatim when it already starts with one, otherwise with exactly one line break put in front |
| Frontmatter.Rebuild | Automatic-Updates/update_frontmatter.py:146-150 | the written post: `---`, a line break, the dumped front matter, a line break, `---`, then the body; its shape is stated by `RebuildShape` and `SplitRebuild` |
| Frontmatter.RebuildShape | Automatic-Updates/update_frontmatter.py:147-150 | the rebuilt post is `---` + line break + front matter + line break + `---` + the body starting with a line break |
| Frontmatter.SplitRebuild | Automatic-Updates/update_frontmatter.py:66-150 | a rebuilt post splits back into its front matter (between line breaks) and its body |
| Frontmatter.UpdateSplit | Automatic-Updates/update_frontmatter.py:74-160 | after the split: a YAML error keeps the post; a non-mapping document raises; an already normal front matter is kept unchanged; otherwise the post is written exactly when the dump and the write succeed, as the rebuilt text around the stripped dump |
| Frontmatter.Update | Automatic-Updates/update_frontmatter.py:52-160 | an unreadable post, one without leading `---` and one without a closing `---` are kept with that reason; a post is only written or raises after a successful split |
| Frontmatter.WrittenKeepsBody | Automatic-Updates/update_frontmatter.py:137-160 | the written post splits back to its body, with a line break put in front when the body did not start with one, provided the dump holds no `---` |
| Frontmatter.UpdateOnRebuilt | Automatic-Updates/update_frontmatter.py:61-72 | updating a rebuilt post works on the front matter and body it was built from |
| Frontmatter.ScalarPostWritten | Automatic-Updates/update_frontmatter.py:121-160 | a front matter with the scalar category, a truthy title and date is dumped and written again as it is |
| Frontmatter.RewrittenOnEveryRun | Automatic-Updates/update_frontmatter.py:52-160 | a post the normaliser wrote with the scalar category, a truthy title and date, whose dump loads back to the same front matter, is written again with exactly the same text on any later call |
| HashTable.ParseLine | Automatic-Updates/update_frontmatter.py:32-36 | a line is accepted only as two tab-free fields that make up the stripped line |
| HashTable.ParseLineFields | Automatic-Updates/update_frontmatter.py:32-36 | a stripped line of two tab-free fields is accepted with exactly those fields |
| HashTable.PutAll | Automatic-Updates/update_frontmatter.py:38 | assigning entries into a dictionary gives the old keys plus the entries' keys |
| HashTable.PutAllLast | Automatic-Updates/update_frontmatter.py:31-38 | a key ends up with the value of its last assignment, and keeps its old value when never assigned |
| HashTable.Save | Automatic-Updates/update_frontmatter.py:43-50 | `save_hashes`: one `path<TAB>hash` line per entry, in order; stated by `SaveLines`, `SaveHasNoCarriageReturn` and `LoadSave` |
| HashTable.SaveHasNoCarriageReturn | Automatic-Updates/update_frontmatter.py:47-48 | the saved file holds no carriage return, so universal newlines leave it alone |
| HashTable.SaveLines | Automatic-Updates/update_frontmatter.py:47-48 | the saved file is one `path<TAB>hash` line per entry, in order, ending with a line break |
| HashTable.ParseSavedLine | Automatic-Updates/update_frontmatter.py:32-38 | every saved line parses back into its entry |
| HashTable.ApplyLines | Automatic-Updates/update_frontmatter.py:31-38 | the loop over the lines: a malformed line is skipped, a well-formed one assigns its hash to the absolute path; stated by `ParseSavedLine` and `LoadSave` |
| HashTable.Load | Automatic-Updates/update_frontmatter.py:26-41 | `load_hashes`: an empty table when the file is missing, else the lines applied in order; stated by `LoadSave` |
| HashTable.LoadSave | Automatic-Updates/update_frontmatter.py:26-50 | loading a saved table gives back the same dictionary, for absolute paths and hashes without tabs, line breaks or surrounding whitespace |
| HashRun.Put | Automatic-Updates/update_frontmatter.py:189-197 | assigning into `updated_hashes` keeps keys distinct, overwrites an existing key in place and appends a new one at the end |
| HashRun.PutLookup | Automatic-Updates/update_frontmatter.py:189-197 | after `updated_hashes[path] = h`, the table gives `h` for that path and is unchanged for every other path |
| HashRun.Step | Automatic-Updates/update_frontmatter.py:172-197 | one file of the walk: it stops the walk exactly when the file is processed and its update raises; keys stay distinct; the path is added to `modified_files` exactly when the update rewrote it |
| HashRun.Recorded | Automatic-Updates/update_frontmatter.py:173-197 | the hash the walk records for one file, if any; stated by `StepRecords`, `WalkRecords` and `MainRecords` |
| HashRun.StepRecords | Automatic-Updates/update_frontmatter.py:172-197 | after one file, its path holds the hash recorded for it, or its earlier value when nothing was recorded; every other path is unchanged |
| HashRun.Walk | Automatic-Updates/update_frontmatter.py:171-197 | the walk stops exactly when a processed post's update raises; keys stay distinct; a path is in `modified_files` exactly when it was already there or a processed post with it was rewritten |
| HashRun.Main | Automatic-Updates/update_frontmatter.py:162-199 | the run aborts before saving exactly when a processed post's update raises; otherwise the new table has distinct keys and the modified files are exactly the processed, rewritten posts |
| HashRun.WalkRecords | Automatic-Updates/update_frontmatter.py:171-197 | after the walk, each walked path holds what its file recorded, or its earlier value when it recorded nothing; paths not walked keep their earlier value |
| HashRun.MainRecords | Automatic-Updates/update_frontmatter.py:171-197 | the new table has no entry for a non-post or an unhashable file; it keeps the recorded hash of an unchanged post and the current hash of a post left alone; it holds the new hash of a rewritten post when that is non-empty, and none otherwise; files no longer walked are dropped |
| HashRun.SavedTableDecides | Automatic-Updates/update_frontmatter.py:179-181 | with a saved table, the next run skips a post exactly when its hash is the one recorded for it |
| HashRun.NextRun | Automatic-Updates/update_frontmatter.py:162-199 | after a completed run, the next run processes a post exactly when its hash differs from what this run recorded for it, or this run recorded nothing |

## Left out

- File-system work is not modelled, only its outcome: listing and walking directories, `os.access` checks, reading, writing, `shutil` copies, `os.makedirs`, `os.path.join` and the directory checks. What the scripts learn from it enters as parameters: the file's content (or `None`), whether it is writable or the write succeeds, and which images exist, are readable and copy without error.
- The environment variables, the hard-coded paths and the command line (`images.py` lines 9-21, `update_frontmatter.py` lines 209-220) are not modelled, since they only choose directories.
- YAML loading and dumping (ruamel) are parameters `load` and `dump`. Front matter is an unordered map of values reduced to their kind and truthiness. Key order, quoting styles (`DoubleQuotedScalarString`) and comments are not modelled. In particular, the deleted and re-added `categories` key moving to the end is not represented.
- `datetime.now().isoformat()` is a parameter `now`.
- SHA-256 (`calculate_hash`) is not modelled: each walked file comes with its hash before and after the update, or `None` when hashing failed.
- `os.path.abspath` is a parameter. `generate_hashes.py` and the shell deployment scripts are not part of this model.
- Logging and printed messages are left out.
- ImageLinks.IsWordChar: `\w` is taken over ASCII only; Python's Unicode-aware `\w` also accepts non-ASCII letters and digits. `re.IGNORECASE` is likewise applied to ASCII letters only.
- Frontmatter.TitleFrom: `str.title()` is modelled over ASCII letters only.
- Frontmatter.Value: YAML values other than null, booleans, integers, strings and lists (floats, dates, mappings) are reduced to their truthiness.
- Frontmatter.DefaultTitle: the contract does not claim that no `.md` is left. `replace` does not rescan its output, so a name like `x.m.mdd` keeps `.md`, which is what the script does too.
- Frontmatter.Update: a non-mapping front matter (a list or a scalar) makes the script raise a `TypeError`. This is the `Raised` outcome, and `HashRun.Main` then aborts without saving the hash file. Other exceptions, such as a decoding error on read, are folded into the read failure.
- ImageLinks.ProcessPost: a post that is not valid UTF-8 makes the read of lines 45-47 raise `UnicodeDecodeError`. The `except OSError` of line 48 does not catch it, so the script stops there. The model treats such a post like an unreadable one (`None`) and goes on with the next post.
- ImageLinks.ProcessPost: the post content is the text after Python's universal-newline translation, because the script reads in text mode. A `\r\n` or lone `\r` in the file is already `\n` in the model, and every rewrite writes `\n`. So a post saved with CRLF line ends comes back with LF line ends, which the model does not show.
- LegacyImageLinks.ProcessPost: the content is likewise the newline-translated text, so CRLF line ends become LF on every write.
- Frontmatter.Update: the content is likewise the newline-translated text, so CRLF line ends become LF when the post is written.
- LegacyImageLinks.ProcessPost: a read or write failure in `CS-Topics/images.py` would stop the script. The model assumes every post can be read and written.
- LegacyImageLinks.ProcessPost: `shutil.copy` on line 30 has no `try`. An image that exists but cannot be copied stops the script before this post is written (lines 35-36) and before every later post. The model assumes every existing image copies.
- LegacyImageLinks.ProcessPost: the text written is stated as the left-to-right scan only for posts where no name `findall` returns holds `[`. For other posts the loop can rewrite the inside of a later match first, and `LoopDiffersFromScan` shows the two differ on `[[a.png]] [[[[a.png]]`. There the model states only what `RewriteAll` computes.
- LegacyImageLinks.RewriteAll: its result is tied to the scan (`RewriteIsLinkEmbeds`) under the same condition, for the reason given in the line above.
- LegacyImageLinks.FindAll: the contract does not claim completeness, because the pattern's matches can hide embeds (see `FindAllMissesInnerEmbed` and `SecondRunRewritesAgain`). It promises that something is found whenever an embed occurs.
- HashTable.LoadSave: holds for the entries the format can carry. These are absolute paths and hashes without tab, line break or surrounding whitespace, which is what `main` records. Other entries are not round-tripped by the script either.
- HashRun.MainRecords: assumes the walk meets every path once, as `os.walk` does.
- HashTable.Load: lines 29-30 open the hash file outside any `try`. A hash file that exists but cannot be read, or is not UTF-8, stops `main` before the walk. The model knows only a missing file (`None`) and a readable one.
- HashRun.NextRun: `save_hashes` (lines 45-50) catches and prints a failed write, and the next run then loads the old table. `NextRun` assumes the save succeeded, so the hash file holds the table this run built.
- The comment on `images.py` line 67 announces an image embed `![...]`, but line 68 builds a plain link `[...]`. The model follows the code, and `ImageLinks.LinkShape` states it.

=== FILE: frontmatter.dfy ===
/**
 `update_frontmatter` of `Automatic-Updates/update_frontmatter.py`: split a
 Markdown post into its `---` front matter and body, fill in a missing title
 and date, clean up the category list, and write the post back when anything
 changed. The YAML codec, the clock and the file system are parameters.
 */
module Frontmatter {
  import opened Options
  import opened Strings

  /** A YAML value as the normaliser sees it: only its kind, and its truthiness where that is all it asks. */
  datatype Value =
    | Null
    | Bool(b: bool)
    | Int(i: int)
    | Str(s: string)
    | List(items: seq<Value>)
    | Other(truthy: bool)

  /** Python truthiness. */
  predicate Truthy(v: Value) {
    match v
    case Null => false
    case Bool(b) => b
    case Int(i) => i != 0
    case Str(s) => |s| > 0
    case List(items) => |items| > 0
    case Other(t) => t
  }

  /** A front-matter mapping. Key order is the codec's business and is not modelled. */
  type Data = map<string, Value>

  /** The keys the normaliser manages; every other key passes through untouched. */
  const ManagedKeys: set<string> := {"title", "date", "categories"}

  /** `key in data and data[key]`. */
  predicate HasTruthy(d: Data, key: string) {
    key in d && Truthy(d[key])
  }

  // ---------------------------------------------------------------------------
  // Default title (line 89)
  // ---------------------------------------------------------------------------

  /** `os.path.basename`: what follows the last `/`. */
  function Basename(path: string): (r: string)
    ensures '/' !in r
    ensures EndsWith(path, r)
    ensures |r| < |path| ==> path[|path| - |r| - 1] == '/'
    decreases |path|
  {
    if |path| == 0 then []
    else if path[|path| - 1] == '/' then []
    else
      var r := Basename(path[..|path| - 1]) + [path[|path| - 1]];
      assert path[..|path| - 1][|path| - 1 - (|r| - 1)..] + [path[|path| - 1]] == path[|path| - |r|..];
      r
  }

  /** Letters are the cased characters (ASCII). */
  predicate IsCased(c: char) {
    ('a' <= c <= 'z') || ('A' <= c <= 'Z')
  }

  /** Position `i` of `s` starts a word: it is first, or follows a non-letter. */
  predicate StartsWord(s: string, i: int)
    requires 0 <= i < |s|
  {
    i == 0 || !IsCased(s[i - 1])
  }

  /** `str.title()` on one character: upper case after an uncased character, lower case after a cased one. */
  function TitleChar(c: char, afterCased: bool): char {
    if !IsCased(c) then c else if afterCased then ToLower(c) else ToUpper(c)
  }

  /** Is the character before position `i` cased (`prevCased` stands for what precedes `s`)? */
  predicate CasedBefore(s: string, i: int, prevCased: bool)
    requires 0 <= i <= |s|
  {
    if i == 0 then prevCased else IsCased(s[i - 1])
  }

  /** `str.title()`, scanning left to right and remembering whether the last character was cased. */
  function TitleFrom(s: string, prevCased: bool): (r: string)
    ensures |r| == |s|
    ensures forall i :: 0 <= i < |s| ==> r[i] == TitleChar(s[i], CasedBefore(s, i, prevCased))
    decreases |s|
  {
    if |s| == 0 then []
    else
      var rest := TitleFrom(s[1..], IsCased(s[0]));
      assert forall i :: 1 <= i < |s| ==> CasedBefore(s[1..], i - 1, IsCased(s[0])) == CasedBefore(s, i, prevCased);
      [TitleChar(s[0], prevCased)] + rest
  }

  function TitleCase(s: string): string {
    TitleFrom(s, false)
  }

  lemma TitleCharCased(c: char, afterCased: bool)
    ensures IsCased(TitleChar(c, afterCased)) == IsCased(c)
    ensures TitleChar(TitleChar(c, afterCased), afterCased) == TitleChar(c, afterCased)
  {
  }

  /** Title-casing keeps which characters are cased, so doing it twice changes nothing. */
  lemma TitleCaseIdempotent(s: string)
    ensures TitleCase(TitleCase(s)) == TitleCase(s)
  {
    var t := TitleCase(s);
    var u := TitleCase(t);
    forall i | 0 <= i < |s| ensures u[i] == t[i] {
      var b := CasedBefore(s, i, false);
      TitleCharCased(s[i], b);
      if i > 0 {
        TitleCharCased(s[i - 1], CasedBefore(s, i - 1, false));
        assert IsCased(t[i - 1]) == IsCased(s[i - 1]);
      }
      assert CasedBefore(t, i, false) == b;
    }
  }

  /** Title-casing one character changes its case only, and a letter comes out upper case exactly when no letter precedes it. */
  lemma TitleCharLower(c: char, afterCased: bool)
    ensures ToLower(TitleChar(c, afterCased)) == ToLower(c)
    ensures IsCased(c) ==> ('A' <= TitleChar(c, afterCased) <= 'Z' <==> !afterCased)
  {
  }

  /**
   `title()` changes only the case of letters, and a letter of the result is
   upper case exactly when it starts a word: it is first, or follows a non-letter.
   */
  lemma TitleCaseShape(s: string)
    ensures |TitleCase(s)| == |s|
    ensures forall i :: 0 <= i < |s| ==> ToLower(TitleCase(s)[i]) == ToLower(s[i])
    ensures forall i :: 0 <= i < |s| && IsCased(s[i]) ==>
      ('A' <= TitleCase(s)[i] <= 'Z' <==> StartsWord(TitleCase(s), i))
  {
    var t := TitleCase(s);
    forall i | 0 <= i < |s|
      ensures ToLower(t[i]) == ToLower(s[i])
      ensures IsCased(s[i]) ==> ('A' <= t[i] <= 'Z' <==> StartsWord(t, i))
    {
      TitleCharLower(s[i], CasedBefore(s, i, false));
      if i > 0 {
        TitleCharCased(s[i - 1], CasedBefore(s, i - 1, false));
      }
    }
  }

  /** The file name without `.md` and with `_` read as a space (line 89, before `title()`). */
  function Stem(path: string): (r: string)
    ensures '_' !in r && '/' !in r
  {
    SpacedStem(Basename(path));
    ReplaceAll(ReplaceAll(Basename(path), ".md", ""), "_", " ")
  }

  /**
   `basename.replace(".md", "").replace("_", " ").title()`: the stem with only
   the case of its letters changed, each word capitalised.
   */
  function DefaultTitle(path: string): (r: string)
    ensures |r| == |Stem(path)|
    ensures forall i :: 0 <= i < |r| ==> ToLower(r[i]) == ToLower(Stem(path)[i])
    ensures forall i :: 0 <= i < |r| && IsCased(r[i]) ==> ('A' <= r[i] <= 'Z' <==> StartsWord(r, i))
    ensures '_' !in r && '/' !in r
    ensures TitleCase(r) == r
  {
    var spaced := Stem(path);
    TitleCaseKeepsAbsent(spaced, '_');
    TitleCaseKeepsAbsent(spaced, '/');
    TitleCaseIdempotent(spaced);
    TitleCaseShape(spaced);
    CasedKept(spaced);
    TitleCase(spaced)
  }

  /** A character of the title is a letter exactly when the character it came from is. */
  lemma CasedKept(s: string)
    ensures forall i :: 0 <= i < |s| ==> IsCased(TitleCase(s)[i]) == IsCased(s[i])
  {
    forall i | 0 <= i < |s| ensures IsCased(TitleCase(s)[i]) == IsCased(s[i]) {
      TitleCharCased(s[i], CasedBefore(s, i, false));
    }
  }

  /** After the two replacements no `_` is left, and no `/` appears that was not there. */
  lemma SpacedStem(base: string)
    ensures '_' !in ReplaceAll(ReplaceAll(base, ".md", ""), "_", " ")
    ensures '/' !in base ==> '/' !in ReplaceAll(ReplaceAll(base, ".md", ""), "_", " ")
  {
    var stem := ReplaceAll(base, ".md", "");
    ReplaceAllChars(base, ".md", "");
    ReplaceCharIsMapChar(stem, '_', " ");
    ReplaceAllChars(stem, "_", " ");
  }

  /** Title-casing introduces no uncased character. */
  lemma TitleCaseKeepsAbsent(s: string, c: char)
    requires !IsCased(c) && c !in s
    ensures c !in TitleCase(s)
  {
    var t := TitleCase(s);
    forall i | 0 <= i < |t| ensures t[i] != c {
      assert s[i] in s;
      TitleCharCased(s[i], CasedBefore(s, i, false));
    }
  }

  // ---------------------------------------------------------------------------
  // Categories (lines 102-131)
  // ---------------------------------------------------------------------------

  /** Only whitespace (or nothing at all). */
  predicate Blank(s: string) {
    forall i :: 0 <= i < |s| ==> IsSpace(s[i])
  }

  /** `isinstance(cat, str) and cat.strip()`, with the strip test read as "not blank". */
  predicate IsCategory(v: Value) {
    v.Str? && !Blank(v.s)
  }

  lemma IsCategoryStrips(v: Value)
    ensures IsCategory(v) <==> v.Str? && Strip(v.s) != []
  {
    if v.Str? {
      StripEmptyIff(v.s);
    }
  }

  /** The list comprehension of line 106: the categories, in order, without the blank or non-string items. */
  function FilterCategories(items: seq<Value>): (r: seq<Value>)
    ensures |r| <= |items|
    ensures forall v :: v in r <==> v in items && IsCategory(v)
    decreases |items|
  {
    if |items| == 0 then []
    else
      var rest := FilterCategories(items[1..]);
      assert items == [items[0]] + items[1..];
      if IsCategory(items[0]) then [items[0]] + rest else rest
  }

  /** The filter drops something exactly when some item is not a category; otherwise it returns the list. */
  lemma {:induction false} FilterCategoriesKeepsAll(items: seq<Value>)
    ensures |FilterCategories(items)| == |items| <==> forall k :: 0 <= k < |items| ==> IsCategory(items[k])
    ensures |FilterCategories(items)| == |items| ==> FilterCategories(items) == items
    decreases |items|
  {
    if |items| > 0 {
      FilterCategoriesKeepsAll(items[1..]);
      assert forall k :: 1 <= k < |items| ==> items[k] == items[1..][k - 1];
      if !IsCategory(items[0]) {
        assert |FilterCategories(items)| <= |items| - 1;
      }
    }
  }

  /** Filtering distributes over concatenation: the kept categories stay in their order. */
  lemma {:induction false} FilterCategoriesConcat(a: seq<Value>, b: seq<Value>)
    ensures FilterCategories(a + b) == FilterCategories(a) + FilterCategories(b)
    decreases |a|
  {
    if |a| > 0 {
      assert (a + b)[1..] == a[1..] + b;
      FilterCategoriesConcat(a[1..], b);
    } else {
      assert a + b == b;
    }
  }

  /** Filtering a filtered list keeps it as it is. */
  lemma FilterCategoriesIdempotent(items: seq<Value>)
    ensures FilterCategories(FilterCategories(items)) == FilterCategories(items)
  {
    var r := FilterCategories(items);
    assert forall k :: 0 <= k < |r| ==> IsCategory(r[k]) by {
      forall k | 0 <= k < |r| ensures IsCategory(r[k]) {
        assert r[k] in r;
      }
    }
  }

  /** The categories a post keeps: the cleaned list when `categories` is a list, nothing otherwise. */
  function KeptCategories(d: Data): seq<Value> {
    if "categories" in d && d["categories"].List? then FilterCategories(d["categories"].items) else []
  }

  /** Lines 102-125: the mapping after the category clean-up, and whether it changed. */
  function CleanCategories(d: Data): (r: (Data, bool))
    ensures r.0.Keys == if KeptCategories(d) == [] then d.Keys - {"categories"} else d.Keys
    ensures forall k :: k in d && k != "categories" ==> r.0[k] == d[k]
    ensures KeptCategories(d) != [] ==> r.0["categories"] == List(KeptCategories(d))
  {
    if "categories" !in d then (d, false)
    else match d["categories"]
      case List(items) =>
        var kept := FilterCategories(items);
        if |kept| == 0 then (d - {"categories"}, true)
        else (d["categories" := List(kept)], kept != items)
      case _ => (d - {"categories"}, true)
  }

  // ---------------------------------------------------------------------------
  // The normaliser (lines 85-135)
  // ---------------------------------------------------------------------------

  datatype Normalized = Normalized(data: Data, modified: bool)

  /**
   A front matter the normaliser leaves alone: a truthy title, a truthy date,
   and a non-empty list of categories that are all non-blank strings.
   */
  predicate IsNormal(d: Data) {
    && HasTruthy(d, "title")
    && HasTruthy(d, "date")
    && "categories" in d && d["categories"].List?
    && |d["categories"].items| > 0
    && forall k :: 0 <= k < |d["categories"].items| ==> IsCategory(d["categories"].items[k])
  }

  /**
   Lines 85-135. `path` is the post's path (for the default title) and `now`
   the `datetime.now().isoformat()` text (for the default date).
   */
  function Normalize(d: Data, path: string, now: string): (r: Normalized)
    ensures forall k :: k in r.data <==> k in d || k in ManagedKeys
    ensures forall k :: k in d && k !in ManagedKeys ==> r.data[k] == d[k]
    ensures HasTruthy(d, "title") ==> r.data["title"] == d["title"]
    ensures !HasTruthy(d, "title") ==> r.data["title"] == Str(DefaultTitle(path))
    ensures HasTruthy(d, "date") ==> r.data["date"] == d["date"]
    ensures !HasTruthy(d, "date") ==> r.data["date"] == Str(now)
    ensures KeptCategories(d) != [] ==> r.data["categories"] == List(KeptCategories(d))
    ensures KeptCategories(d) == [] ==> r.data["categories"] == Str("Uncategorized")
  {
    var title := FillIn(d, "title", Str(DefaultTitle(path)));
    var date := FillIn(title.0, "date", Str(now));
    var cleaned := CleanCategories(date.0);
    var defaulted := "categories" !in cleaned.0;
    var d' := if defaulted then cleaned.0["categories" := Str("Uncategorized")] else cleaned.0;
    Normalized(d', title.1 || date.1 || cleaned.1 || defaulted)
  }

  /** Lines 88-91 and 95-98: give `key` the value `v` unless it already holds a truthy one, and say whether it did. */
  function FillIn(d: Data, key: string, v: Value): (r: (Data, bool))
    ensures r.1 <==> !HasTruthy(d, key)
    ensures r.0.Keys == d.Keys + {key}
    ensures forall k :: k in d && k != key ==> r.0[k] == d[k]
    ensures r.0[key] == if r.1 then v else d[key]
  {
    if HasTruthy(d, key) then (d, false) else (d[key := v], true)
  }

  /** The normaliser reports no change exactly on a normal front matter, and then returns it as it was. */
  lemma NormalizeUnchangedIff(d: Data, path: string, now: string)
    ensures !Normalize(d, path, now).modified <==> IsNormal(d)
    ensures !Normalize(d, path, now).modified ==> Normalize(d, path, now).data == d
  {
    if "categories" in d && d["categories"].List? {
      FilterCategoriesKeepsAll(d["categories"].items);
    }
  }

  /**
   With a non-empty `now`, normalising twice gives the same front matter as
   normalising once (whatever the second clock reading).
   */
  lemma NormalizeDataIdempotent(d: Data, path: string, now: string, later: string)
    requires |now| > 0
    ensures Normalize(Normalize(d, path, now).data, path, later).data == Normalize(d, path, now).data
  {
    var n := Normalize(d, path, now).data;
    KeptAfterNormalize(d, path, now);
    NormalizeFixes(n, path, later);
  }

  /**
   The mappings the normaliser's data part leaves as they are: a truthy date,
   a truthy or default title, and either categories that are all kept or the
   scalar fallback.
   */
  lemma NormalizeFixes(n: Data, path: string, now: string)
    requires HasTruthy(n, "date")
    requires "title" in n && (Truthy(n["title"]) || n["title"] == Str(DefaultTitle(path)))
    requires "categories" in n
    requires KeptCategories(n) != [] ==> n["categories"] == List(KeptCategories(n))
    requires KeptCategories(n) == [] ==> n["categories"] == Str("Uncategorized")
    ensures Normalize(n, path, now).data == n
  {
    var n2 := Normalize(n, path, now).data;
    assert forall k :: k in n2 <==> k in n;
    forall k | k in n ensures n2[k] == n[k] {
      if k in ManagedKeys {
        assert k == "title" || k == "date" || k == "categories";
      }
    }
  }

  /** A pass keeps the categories it kept: the cleaned list filters to itself, the scalar fallback to nothing. */
  lemma KeptAfterNormalize(d: Data, path: string, now: string)
    ensures KeptCategories(Normalize(d, path, now).data) == KeptCategories(d)
  {
    if KeptCategories(d) != [] {
      FilterCategoriesIdempotent(d["categories"].items);
    }
  }

  /**
   The category fallback is not a fixed point: a front matter whose
   categories are the scalar `"Uncategorized"` the normaliser itself writes is
   reported as modified again on every pass, with nothing actually changed.
   */
  lemma ScalarCategoryIsRewritten(d: Data, path: string, now: string)
    requires "categories" in d && d["categories"] == Str("Uncategorized")
    ensures Normalize(d, path, now).modified
    ensures HasTruthy(d, "title") && HasTruthy(d, "date") ==> Normalize(d, path, now).data == d
  {
    var r := Normalize(d, path, now);
    if HasTruthy(d, "title") && HasTruthy(d, "date") {
      assert r.data.Keys == d.Keys;
      forall k | k in d ensures r.data[k] == d[k] {
      }
    }
  }

  /** After a pass, the next pass reports a change exactly when categories fell back to the scalar, or the title is empty. */
  lemma SecondPassModifiedIff(d: Data, path: string, now: string, later: string)
    requires |now| > 0
    ensures Normalize(Normalize(d, path, now).data, path, later).modified
      <==> KeptCategories(d) == [] || (!HasTruthy(d, "title") && DefaultTitle(path) == [])
  {
    var n := Normalize(d, path, now).data;
    NormalizeUnchangedIff(n, path, later);
    var kept := KeptCategories(d);
    assert HasTruthy(n, "title") <==> HasTruthy(d, "title") || DefaultTitle(path) != [];
    assert HasTruthy(n, "date");
    if kept != [] {
      assert forall k :: 0 <= k < |kept| ==> IsCategory(kept[k]) by {
        forall k | 0 <= k < |kept| ensures IsCategory(kept[k]) {
          assert kept[k] in kept;
        }
      }
      assert n["categories"] == List(kept);
    } else {
      assert n["categories"] == Str("Uncategorized");
    }
    assert IsNormal(n) <==> kept != [] && (HasTruthy(d, "title") || DefaultTitle(path) != []);
  }

  // ---------------------------------------------------------------------------
  // Splitting and rebuilding the post (lines 61-72, 146-150)
  // ---------------------------------------------------------------------------

  /**
   Lines 61-72: `content.split("---", 2)` on a post that starts with `---`,
   giving the front-matter text and the body; `None` when the post does not
   start with `---` or has no closing `---`.
   */
  function SplitPost(content: string): (r: Option<(string, string)>)
    ensures r.Some? <==> StartsWith(content, "---") && Occurs("---", content[3..])
    ensures r.Some? ==> content == "---" + r.value.0 + "---" + r.value.1
    ensures r.Some? ==> !Occurs("---", r.value.0)
    ensures r.Some? ==> Find(content[3..], "---") == Some(|r.value.0|)
  {
    if !StartsWith(content, "---") then None
    else
      var parts := SplitN(content, "---", 2);
      SplitAtFront(content);
      if |parts| < 3 then None
      else
        SplitPostParts(content);
        Some((parts[1], parts[2]))
  }

  /** The two parts after the empty one: the post is put back together from them, and the first ends at the leftmost `---`. */
  lemma SplitPostParts(content: string)
    requires StartsWith(content, "---") && |SplitN(content, "---", 2)| == 3
    ensures var p := SplitN(content, "---", 2);
      && content == "---" + p[1] + "---" + p[2]
      && !Occurs("---", p[1])
      && Find(content[3..], "---") == Some(|p[1]|)
  {
    var p := SplitN(content, "---", 2);
    SplitAtFront(content);
    var tail := SplitN(content[3..], "---", 1);
    assert tail == p[1..];
    assert tail[0..] == tail;
    assert Join(p, "---") == content;
    assert Join(tail, "---") == p[1] + "---" + p[2];
  }

  /** The first cut of `split("---", 2)` on a post that starts with `---` is at index 0. */
  lemma SplitAtFront(content: string)
    requires StartsWith(content, "---")
    ensures SplitN(content, "---", 2) == [[]] + SplitN(content[3..], "---", 1)
    ensures |SplitN(content, "---", 2)| == 3 <==> Occurs("---", content[3..])
  {
    StartsWithOccurs(content, "---");
    FindLeast(content, "---", 0);
    var rest := content[3..];
    var tail := SplitN(rest, "---", 1);
    if |tail| == 2 {
      assert rest == tail[0] + "---" + tail[1];
      OccursConcat("---", tail[0], "---");
      OccursConcat("---", tail[0] + "---", tail[1]);
      assert Occurs("---", "---") by {
        assert At("---", 0, "---");
      }
    }
  }

  /** Lines 147-150: the post rebuilt from the dumped front matter and the body. */
  function Rebuild(frontmatter: string, body: string): string {
    if StartsWith(body, "\n") then "---\n" + frontmatter + "\n---" + body
    else "---\n" + frontmatter + "\n---\n" + body
  }

  /** The body after a rebuild: it always starts with a line break, and is the body itself behind at most one added line break. */
  function RebuiltBody(body: string): (r: string)
    ensures StartsWith(r, "\n")
    ensures r == body || r == "\n" + body
    ensures StartsWith(body, "\n") ==> r == body
  {
    if StartsWith(body, "\n") then body else "\n" + body
  }

  lemma RebuildShape(frontmatter: string, body: string)
    ensures Rebuild(frontmatter, body) == "---" + ("\n" + frontmatter + "\n") + "---" + RebuiltBody(body)
  {
  }

  /**
   A rebuilt post splits back into the front-matter text between the
   delimiters and the body, provided the dumped front matter holds no `---`.
   */
  lemma SplitRebuild(frontmatter: string, body: string)
    requires !Occurs("---", frontmatter)
    ensures SplitPost(Rebuild(frontmatter, body)) == Some(("\n" + frontmatter + "\n", RebuiltBody(body)))
  {
    var content := Rebuild(frontmatter, body);
    var head := "\n" + frontmatter + "\n";
    var b := RebuiltBody(body);
    RebuildShape(frontmatter, body);
    assert StartsWith(content, "---");
    var rest := content[3..];
    assert rest == head + "---" + b;
    assert !Occurs("---", "\n" + frontmatter) by {
      assert !Occurs("---", []) by {
        assert forall j :: !At([], j, "---");
      }
      NoOccursAroundForeignChar("---", [], '\n', frontmatter);
      assert [] + ['\n'] + frontmatter == "\n" + frontmatter;
    }
    assert !Occurs("---", head) by {
      assert !Occurs("---", []) by {
        assert forall j :: !At([], j, "---");
      }
      NoOccursAroundForeignChar("---", "\n" + frontmatter, '\n', []);
      assert ("\n" + frontmatter) + ['\n'] + [] == head;
    }
    FindAfterClean(head, "---", b);
    SplitAtFront(content);
    assert SplitN(rest, "---", 1) == [rest[..|head|]] + SplitN(rest[|head| + 3..], "---", 0);
    assert rest[..|head|] == head;
    assert rest[|head| + 3..] == b;
  }

  // ---------------------------------------------------------------------------
  // The whole update (lines 52-160)
  // ---------------------------------------------------------------------------

  /** What `yaml.load` made of the front-matter text. */
  datatype Loaded = ParseError | NullDoc | MappingDoc(data: Data) | NonMappingDoc

  /** Why a post was left as it was (`update_frontmatter` returned `False`). */
  datatype Skip = ReadFailed | NoFrontmatter | NoClosingDelimiter | YamlError | Unchanged | DumpFailed | WriteFailed

  /**
   The result of `update_frontmatter`: `Kept` is `return False`, `Written` is
   `return True` with the text written, and `Raised` is the `TypeError` a
   front matter that is not a mapping (a list or a scalar) leads to.
   */
  datatype Outcome = Kept(reason: Skip) | Written(text: string) | Raised

  /** Lines 82-83: an empty document is an empty mapping. */
  function Doc(l: Loaded): Data {
    if l.MappingDoc? then l.data else map[]
  }

  /**
   Lines 74-160, once the post is split: load the front matter, normalise it,
   and dump and write it back when something changed.
   */
  function UpdateSplit(path: string, frontmatter: string, body: string, load: string -> Loaded,
                       dump: Data -> Option<string>, now: string, writeOk: bool): (r: Outcome)
    ensures r.Raised? <==> load(frontmatter).NonMappingDoc?
    ensures r == Kept(YamlError) <==> load(frontmatter).ParseError?
    ensures r == Kept(Unchanged) <==>
      (load(frontmatter).MappingDoc? || load(frontmatter).NullDoc?) && IsNormal(Doc(load(frontmatter)))
    ensures r.Written? <==>
      && (load(frontmatter).MappingDoc? || load(frontmatter).NullDoc?)
      && !IsNormal(Doc(load(frontmatter)))
      && dump(Normalize(Doc(load(frontmatter)), path, now).data).Some?
      && writeOk
    ensures r.Written? ==>
      r.text == Rebuild(RStrip(dump(Normalize(Doc(load(frontmatter)), path, now).data).value), body)
  {
    NormalizeUnchangedIff(Doc(load(frontmatter)), path, now);
    match load(frontmatter)
    case ParseError => Kept(YamlError)
    case NonMappingDoc => Raised
    case _ =>
      var n := Normalize(Doc(load(frontmatter)), path, now);
      if !n.modified then Kept(Unchanged)
      else match dump(n.data)
        case None => Kept(DumpFailed)
        case Some(t) =>
          if writeOk then Written(Rebuild(RStrip(t), body)) else Kept(WriteFailed)
  }

  /**
   `update_frontmatter(path)`. `content` is the post (`None` if reading fails),
   `load` and `dump` the YAML codec (`dump` gives `None` on an error),
   `now` the clock reading, `writeOk` whether the write succeeds.
   */
  function Update(path: string, content: Option<string>, load: string -> Loaded,
                  dump: Data -> Option<string>, now: string, writeOk: bool): (r: Outcome)
    ensures content.None? ==> r == Kept(ReadFailed)
    ensures content.Some? && !StartsWith(content.value, "---") ==> r == Kept(NoFrontmatter)
    ensures content.Some? && StartsWith(content.value, "---") && SplitPost(content.value).None? ==>
      r == Kept(NoClosingDelimiter)
    ensures content.Some? && SplitPost(content.value).Some? ==>
      var (fm, body) := SplitPost(content.value).value;
      r == UpdateSplit(path, fm, body, load, dump, now, writeOk)
    ensures r.Written? || r.Raised? ==> content.Some? && SplitPost(content.value).Some?
  {
    match content
    case None => Kept(ReadFailed)
    case Some(text) =>
      if !StartsWith(text, "---") then Kept(NoFrontmatter)
      else match SplitPost(text)
        case None => Kept(NoClosingDelimiter)
        case Some((fm, body)) => UpdateSplit(path, fm, body, load, dump, now, writeOk)
  }

  /**
   A written post splits back into the dumped front matter and the same body
   (with a line break in front), provided the dump holds no `---`.
   */
  lemma WrittenKeepsBody(path: string, frontmatter: string, body: string, load: string -> Loaded,
                         dump: Data -> Option<string>, now: string, writeOk: bool)
    requires UpdateSplit(path, frontmatter, body, load, dump, now, writeOk).Written?
    requires !Occurs("---", RStrip(dump(Normalize(Doc(load(frontmatter)), path, now).data).value))
    ensures var text := UpdateSplit(path, frontmatter, body, load, dump, now, writeOk).text;
      && SplitPost(text).Some?
      && SplitPost(text).value.1 == RebuiltBody(body)
  {
    var t := dump(Normalize(Doc(load(frontmatter)), path, now).data).value;
    SplitRebuild(RStrip(t), body);
  }

  /**
   A rebuilt post whose front matter falls back to the scalar category is
   written again, with exactly the same text, on any later run: only the hash
   check of `main` stops the rewrites. `t` is the dump of the front matter,
   and the codec is assumed to load it back to the same mapping.
   */
  lemma RewrittenOnEveryRun(path: string, body: string, d: Data, load: string -> Loaded,
                            dump: Data -> Option<string>, later: string, t: string)
    requires "categories" in d && d["categories"] == Str("Uncategorized")
    requires HasTruthy(d, "title") && HasTruthy(d, "date")
    requires dump(d) == Some(t) && !Occurs("---", RStrip(t))
    requires load("\n" + RStrip(t) + "\n") == MappingDoc(d)
    ensures var text := Rebuild(RStrip(t), body);
      Update(path, Some(text), load, dump, later, true) == Written(text)
  {
    var fm := "\n" + RStrip(t) + "\n";
    UpdateOnRebuilt(path, RStrip(t), body, load, dump, later, true);
    ScalarPostWritten(path, fm, RebuiltBody(body), d, load, dump, later, t);
    RebuildRebuilt(RStrip(t), body);
  }

  /** Updating a rebuilt post works on the front matter and body it was rebuilt from. */
  lemma UpdateOnRebuilt(path: string, frontmatter: string, body: string, load: string -> Loaded,
                        dump: Data -> Option<string>, now: string, writeOk: bool)
    requires !Occurs("---", frontmatter)
    ensures Update(path, Some(Rebuild(frontmatter, body)), load, dump, now, writeOk)
      == UpdateSplit(path, "\n" + frontmatter + "\n", RebuiltBody(body), load, dump, now, writeOk)
  {
    SplitRebuild(frontmatter, body);
    RebuildShape(frontmatter, body);
    assert StartsWith(Rebuild(frontmatter, body), "---");
  }

  lemma RebuildRebuilt(frontmatter: string, body: string)
    ensures Rebuild(frontmatter, RebuiltBody(body)) == Rebuild(frontmatter, body)
  {
  }

  /** A loaded front matter with the scalar category is dumped and written again as it is. */
  lemma ScalarPostWritten(path: string, fm: string, body: string, d: Data, load: string -> Loaded,
                          dump: Data -> Option<string>, later: string, t: string)
    requires "categories" in d && d["categories"] == Str("Uncategorized")
    requires HasTruthy(d, "title") && HasTruthy(d, "date")
    requires dump(d) == Some(t) && load(fm) == MappingDoc(d)
    ensures UpdateSplit(path, fm, body, load, dump, later, true) == Written(Rebuild(RStrip(t), body))
  {
    ScalarCategoryIsRewritten(d, path, later);
    assert Doc(load(fm)) == d;
  }

  /**
   The first run's output is such a post: when the categories fall back to
   the scalar, the normalised front matter has a title, a date (for a
   non-empty clock reading) and the scalar category.
   */
  lemma FallbackIsScalarCategory(d: Data, path: string, now: string)
    requires KeptCategories(d) == [] && |now| > 0 && (HasTruthy(d, "title") || DefaultTitle(path) != [])
    ensures var n := Normalize(d, path, now).data;
      && n["categories"] == Str("Uncategorized")
      && HasTruthy(n, "title") && HasTruthy(n, "date")
  {
  }
}

=== FILE: hash_run.dfy ===
/**
 The walk of `main` in `Automatic-Updates/update_frontmatter.py`: every
 Markdown file whose hash differs from the one recorded by the previous run
 goes through `update_frontmatter`, and a fresh hash table is built for the
 next run.
 */
module HashRun {
  import opened Options
  import opened Strings
  import opened HashTable

  /** What the call to `update_frontmatter` did: returned its flag, or raised. */
  datatype UpdateCall = Returned(modified: bool) | Raised

  /**
   One file the walk meets: its absolute path, `calculate_hash` before the
   update (`None` when hashing fails), what the update did, and
   `calculate_hash` after it.
   */
  datatype WalkedFile = WalkedFile(path: string, hashBefore: Option<string>, update: UpdateCall, hashAfter: Option<string>)

  /** The walk's accumulators: `updated_hashes` in insertion order, and `modified_files`. */
  datatype State = State(hashes: seq<(string, string)>, modified: seq<string>)

  /** A finished run, or one that an exception out of `update_frontmatter` stopped before `save_hashes`. */
  datatype Run = Completed(hashes: seq<(string, string)>, modifiedFiles: seq<string>) | Aborted

  predicate DistinctKeys(h: seq<(string, string)>) {
    forall i, j :: 0 <= i < j < |h| ==> h[i].0 != h[j].0
  }

  predicate DistinctPaths(files: seq<WalkedFile>) {
    forall i, j :: 0 <= i < j < |files| ==> files[i].path != files[j].path
  }

  predicate HasKey(h: seq<(string, string)>, k: string) {
    exists j :: 0 <= j < |h| && h[j].0 == k
  }

  /** Dictionary assignment: an existing key keeps its place and takes the new value, a new key goes last. */
  function Put(h: seq<(string, string)>, k: string, v: string): (r: seq<(string, string)>)
    requires DistinctKeys(h)
    ensures DistinctKeys(r)
    ensures |r| == if HasKey(h, k) then |h| else |h| + 1
    ensures forall j :: 0 <= j < |h| ==> r[j] == (if h[j].0 == k then (k, v) else h[j])
    ensures !HasKey(h, k) ==> r[|h|] == (k, v)
  {
    if HasKey(h, k) then seq(|h|, j requires 0 <= j < |h| => if h[j].0 == k then (k, v) else h[j])
    else h + [(k, v)]
  }

  /** With distinct keys, the last assignment to a key is its only one. */
  lemma {:induction false} LastValueAt(h: seq<(string, string)>, j: nat)
    requires DistinctKeys(h) && j < |h|
    ensures LastValue(h, h[j].0) == Some(h[j].1)
    decreases |h|
  {
    var n := |h| - 1;
    if j < n {
      assert h[n].0 != h[j].0;
      assert h[..n][j] == h[j];
      LastValueAt(h[..n], j);
    }
  }

  lemma {:induction false} LastValueAbsent(h: seq<(string, string)>, k: string)
    requires forall j :: 0 <= j < |h| ==> h[j].0 != k
    ensures LastValue(h, k) == None
    decreases |h|
  {
    if |h| > 0 {
      LastValueAbsent(h[..|h| - 1], k);
    }
  }

  /** After `h[k] = v`, looking up `k` gives `v` and every other key is unaffected. */
  lemma PutLookup(h: seq<(string, string)>, k: string, v: string, p: string)
    requires DistinctKeys(h)
    ensures LastValue(Put(h, k, v), p) == if p == k then Some(v) else LastValue(h, p)
  {
    var r := Put(h, k, v);
    if HasKey(h, p) {
      var j :| 0 <= j < |h| && h[j].0 == p;
      LastValueAt(h, j);
      LastValueAt(r, j);
    } else if p == k {
      LastValueAt(r, |h|);
    } else {
      LastValueAbsent(h, p);
      LastValueAbsent(r, p);
    }
  }

  /** `file.endswith(".md")`: only Markdown files are looked at. */
  predicate IsPost(f: WalkedFile) {
    EndsWith(f.path, ".md")
  }

  /** Line 181: a post whose hash could be computed is updated when it differs from the recorded one, or none is recorded. */
  predicate Processed(prev: map<string, string>, f: WalkedFile) {
    && IsPost(f)
    && f.hashBefore.Some?
    && (f.path !in prev || prev[f.path] != f.hashBefore.value)
  }

  predicate Raises(prev: map<string, string>, f: WalkedFile) {
    Processed(prev, f) && f.update.Raised?
  }

  predicate Rewritten(prev: map<string, string>, f: WalkedFile) {
    Processed(prev, f) && f.update == Returned(true)
  }

  /** Lines 173-197 for one file. `None` is the exception escaping `main`. */
  function Step(prev: map<string, string>, st: State, f: WalkedFile): (r: Option<State>)
    requires DistinctKeys(st.hashes)
    ensures r.None? <==> Raises(prev, f)
    ensures r.Some? ==> DistinctKeys(r.value.hashes)
    ensures r.Some? ==> r.value.modified == if Rewritten(prev, f) then st.modified + [f.path] else st.modified
  {
    if !IsPost(f) || f.hashBefore.None? then Some(st)
    else if !Processed(prev, f) then Some(st.(hashes := Put(st.hashes, f.path, f.hashBefore.value)))
    else
      match f.update
      case Raised => None
      case Returned(modified) =>
        if modified then
          var st' := st.(modified := st.modified + [f.path]);
          if f.hashAfter.Some? && |f.hashAfter.value| > 0 then Some(st'.(hashes := Put(st.hashes, f.path, f.hashAfter.value)))
          else Some(st')
        else Some(st.(hashes := Put(st.hashes, f.path, f.hashBefore.value)))
  }

  /** The walk over the files in `os.walk` order, from the given accumulators. */
  function Walk(prev: map<string, string>, st: State, files: seq<WalkedFile>): (r: Option<State>)
    requires DistinctKeys(st.hashes)
    ensures r.None? <==> exists i :: 0 <= i < |files| && Raises(prev, files[i])
    ensures r.Some? ==> DistinctKeys(r.value.hashes)
    ensures r.Some? ==> forall p :: p in r.value.modified <==>
      (p in st.modified || exists i :: 0 <= i < |files| && Rewritten(prev, files[i]) && files[i].path == p)
    decreases |files|
  {
    if |files| == 0 then Some(st)
    else
      match Step(prev, st, files[0])
      case None => None
      case Some(st') =>
        var r := Walk(prev, st', files[1..]);
        assert forall i :: 1 <= i < |files| ==> files[1..][i - 1] == files[i];
        r
  }

  /**
   `main` after `load_hashes`: `prev` is the loaded table and `files` the
   walk. The run is aborted exactly when a processed post's update raises;
   otherwise the new table has one entry per key and the modified files are
   exactly the processed posts that were rewritten.
   */
  function Main(prev: map<string, string>, files: seq<WalkedFile>): (r: Run)
    ensures r.Aborted? <==> exists i :: 0 <= i < |files| && Raises(prev, files[i])
    ensures r.Completed? ==> DistinctKeys(r.hashes)
    ensures r.Completed? ==> forall p :: p in r.modifiedFiles <==>
      exists i :: 0 <= i < |files| && Rewritten(prev, files[i]) && files[i].path == p
  {
    match Walk(prev, State([], []), files)
    case None => Aborted
    case Some(st) => Completed(st.hashes, st.modified)
  }

  /** The hash the new table holds for a walked file, `None` for no entry. */
  function Recorded(prev: map<string, string>, f: WalkedFile): Option<string> {
    if !IsPost(f) || f.hashBefore.None? then None
    else if !Processed(prev, f) || f.update == Returned(false) then f.hashBefore
    else if f.update == Returned(true) && f.hashAfter.Some? && |f.hashAfter.value| > 0 then f.hashAfter
    else None
  }

  lemma StepRecords(prev: map<string, string>, st: State, f: WalkedFile, p: string)
    requires DistinctKeys(st.hashes) && Step(prev, st, f).Some?
    ensures LastValue(Step(prev, st, f).value.hashes, p) ==
      if p == f.path && Recorded(prev, f).Some? then Recorded(prev, f) else LastValue(st.hashes, p)
  {
    if IsPost(f) && f.hashBefore.Some? {
      if !Processed(prev, f) || f.update == Returned(false) {
        PutLookup(st.hashes, f.path, f.hashBefore.value, p);
      } else if f.hashAfter.Some? && |f.hashAfter.value| > 0 {
        PutLookup(st.hashes, f.path, f.hashAfter.value, p);
      }
    }
  }

  lemma {:induction false} WalkRecords(prev: map<string, string>, st: State, files: seq<WalkedFile>)
    requires DistinctKeys(st.hashes) && DistinctPaths(files) && Walk(prev, st, files).Some?
    ensures forall i :: 0 <= i < |files| ==>
      (LastValue(Walk(prev, st, files).value.hashes, files[i].path) ==
       if Recorded(prev, files[i]).Some? then Recorded(prev, files[i]) else LastValue(st.hashes, files[i].path))
    ensures forall p :: (forall i :: 0 <= i < |files| ==> files[i].path != p) ==>
      LastValue(Walk(prev, st, files).value.hashes, p) == LastValue(st.hashes, p)
    decreases |files|
  {
    if |files| > 0 {
      var f := files[0];
      var st' := Step(prev, st, f).value;
      var rest := files[1..];
      assert Walk(prev, st, files) == Walk(prev, st', rest);
      assert DistinctPaths(rest) by {
        assert forall i :: 0 <= i < |rest| ==> rest[i] == files[i + 1];
      }
      WalkRecords(prev, st', rest);
      var h := Walk(prev, st, files).value.hashes;
      forall i | 0 <= i < |files|
        ensures LastValue(h, files[i].path) ==
          if Recorded(prev, files[i]).Some? then Recorded(prev, files[i]) else LastValue(st.hashes, files[i].path)
      {
        StepRecords(prev, st, f, files[i].path);
        if i == 0 {
          assert forall j :: 0 <= j < |rest| ==> rest[j] == files[j + 1];
        } else {
          assert rest[i - 1] == files[i];
        }
      }
      forall p | forall i :: 0 <= i < |files| ==> files[i].path != p
        ensures LastValue(h, p) == LastValue(st.hashes, p)
      {
        StepRecords(prev, st, f, p);
        assert forall j :: 0 <= j < |rest| ==> rest[j] == files[j + 1];
      }
    }
  }

  /**
   What the new table holds for each walked file (lines 176-197): nothing for
   a file that is not a post or could not be hashed; the recorded hash, which
   is also its current hash, for an unchanged post; the current hash for a
   post the update left alone; the hash after the rewrite, when that is a
   non-empty string, for a rewritten post; and no other key.
   */
  lemma MainRecords(prev: map<string, string>, files: seq<WalkedFile>, i: nat)
    requires DistinctPaths(files) && Main(prev, files).Completed? && i < |files|
    ensures var h := Main(prev, files).hashes; var f := files[i];
      && (!IsPost(f) || f.hashBefore.None? ==> LastValue(h, f.path) == None)
      && (IsPost(f) && f.hashBefore.Some? && !Processed(prev, f) ==> LastValue(h, f.path) == Some(prev[f.path]))
      && (Processed(prev, f) && f.update == Returned(false) ==> LastValue(h, f.path) == f.hashBefore)
      && (Rewritten(prev, f) ==> LastValue(h, f.path) == if f.hashAfter.Some? && |f.hashAfter.value| > 0 then f.hashAfter else None)
    ensures forall p :: (forall j :: 0 <= j < |files| ==> files[j].path != p) ==> LastValue(Main(prev, files).hashes, p) == None
  {
    WalkRecords(prev, State([], []), files);
  }

  /** A saved table makes the next run skip a file exactly when the file still has the hash recorded for it. */
  lemma SavedTableDecides(hashes: seq<(string, string)>, absPath: string -> string, f: WalkedFile)
    requires DistinctKeys(hashes) && Savable(hashes, absPath)
    requires IsPost(f) && f.hashBefore.Some?
    ensures !Processed(Load(Some(Save(hashes)), absPath), f) <==> LastValue(hashes, f.path) == f.hashBefore
  {
    LoadSave(hashes, absPath);
    PutAllLast(map[], hashes, f.path);
  }

  /**
   The hash table is what stops the rewrites: after a completed run, the
   next run skips a post that has not changed since (its hash is the one this
   run left), and processes it again when this run recorded nothing for it,
   as happens when the rewritten file could not be hashed.
   */
  lemma NextRun(prev: map<string, string>, files: seq<WalkedFile>, absPath: string -> string, i: nat, later: WalkedFile)
    requires DistinctPaths(files) && Main(prev, files).Completed? && Savable(Main(prev, files).hashes, absPath)
    requires i < |files| && later.path == files[i].path && later.hashBefore.Some?
    ensures IsPost(later) ==>
      (Processed(Load(Some(Save(Main(prev, files).hashes)), absPath), later) <==> Recorded(prev, files[i]) != later.hashBefore)
  {
    WalkRecords(prev, State([], []), files);
    if IsPost(later) {
      SavedTableDecides(Main(prev, files).hashes, absPath, later);
    }
  }
}

=== FILE: hash_table.dfy ===
/**
 The hash file of `Automatic-Updates/update_frontmatter.py`: one
 `path<TAB>hash` line per post (`save_hashes`), read back into a map from
 absolute path to hash (`load_hashes`).
 */
module HashTable {
  import opened Options
  import opened Strings

  /** One line of the hash file, as `save_hashes` writes it (line 48). */
  function FormatLine(path: string, hash: string): string {
    path + "\t" + hash + "\n"
  }

  /** `save_hashes`: the entries' lines, in the dictionary's order. */
  function Save(entries: seq<(string, string)>): string
    decreases |entries|
  {
    if |entries| == 0 then []
    else FormatLine(entries[0].0, entries[0].1) + Save(entries[1..])
  }

  /** Text mode reads with universal newlines: `\r\n` and a lone `\r` both become `\n`. */
  function TranslateNewlines(text: string): string {
    ReplaceAll(ReplaceAll(text, "\r\n", "\n"), "\r", "\n")
  }

  /** Lines 32-36: a stripped line cut at tabs is an entry only when it has exactly two fields. */
  function ParseLine(line: string): (r: Option<(string, string)>)
    ensures r.Some? ==> Strip(line) == r.value.0 + "\t" + r.value.1
    ensures r.Some? ==> !Occurs("\t", r.value.0) && !Occurs("\t", r.value.1)
  {
    var parts := SplitAll(Strip(line), "\t");
    if |parts| != 2 then None
    else
      assert Join(parts, "\t") == parts[0] + "\t" + Join(parts[1..], "\t");
      Some((parts[0], parts[1]))
  }

  /** A line made of two tab-free fields parses back into them. */
  lemma ParseLineFields(line: string, path: string, hash: string)
    requires Strip(line) == path + "\t" + hash
    requires '\t' !in path && '\t' !in hash
    ensures ParseLine(line) == Some((path, hash))
  {
    NoCharNoOccurs(path, '\t');
    NoCharNoOccurs(hash, '\t');
    SplitAllAt(path, "\t", hash);
    SplitAllNone(hash, "\t");
  }

  /** Lines 31-38: each well-formed line sets its (absolute) path; later lines win. */
  function ApplyLines(m: map<string, string>, lines: seq<string>, absPath: string -> string): map<string, string>
    decreases |lines|
  {
    if |lines| == 0 then m
    else
      var m' := match ParseLine(lines[0])
        case None => m
        case Some((path, hash)) => m[absPath(path) := hash];
      ApplyLines(m', lines[1..], absPath)
  }

  /**
   `load_hashes`: `file` is the hash file's text, `None` when it does not
   exist, and `absPath` is `os.path.abspath`.
   */
  function Load(file: Option<string>, absPath: string -> string): map<string, string> {
    match file
    case None => map[]
    case Some(text) => ApplyLines(map[], SplitAll(TranslateNewlines(text), "\n"), absPath)
  }

  /** Assigning the entries into a dictionary one after the other. */
  function PutAll(m: map<string, string>, entries: seq<(string, string)>): (r: map<string, string>)
    ensures r.Keys == m.Keys + set e | e in entries :: e.0
    decreases |entries|
  {
    if |entries| == 0 then m
    else
      var r := PutAll(m[entries[0].0 := entries[0].1], entries[1..]);
      assert entries == [entries[0]] + entries[1..];
      r
  }

  /** An entry the file format can carry: nothing that `strip`, the tab split or the line split would cut. */
  predicate SavableEntry(path: string, hash: string, absPath: string -> string) {
    && |path| > 0 && |hash| > 0
    && !IsSpace(path[0]) && !IsSpace(hash[|hash| - 1])
    && '\t' !in path && '\t' !in hash
    && '\n' !in path && '\n' !in hash
    && '\r' !in path && '\r' !in hash
    && absPath(path) == path
  }

  predicate Savable(entries: seq<(string, string)>, absPath: string -> string) {
    forall k :: 0 <= k < |entries| ==> SavableEntry(entries[k].0, entries[k].1, absPath)
  }

  lemma NoCharNoOccurs(s: string, c: char)
    requires c !in s
    ensures !Occurs([c], s)
  {
    forall j | 0 <= j <= |s| ensures !At(s, j, [c]) {
      if j + 1 <= |s| {
        assert s[j..j + 1][0] == s[j];
      }
    }
  }

  lemma NoCharNoOccurs2(s: string, c: char, d: char)
    requires c !in s
    ensures !Occurs([c, d], s)
  {
    forall j | 0 <= j <= |s| ensures !At(s, j, [c, d]) {
      if j + 2 <= |s| {
        assert s[j..j + 2][0] == s[j];
      }
    }
  }

  /** `split` cuts at the first separator. */
  lemma SplitAllAt(x: string, sep: string, y: string)
    requires |sep| > 0 && !Occurs(sep, x) && |x| > 0 && x[|x| - 1] !in sep
    ensures SplitAll(x + sep + y, sep) == [x] + SplitAll(y, sep)
  {
    var s := x + sep + y;
    FindAfterClean(x, sep, y);
    assert s[..|x|] == x;
    assert s[|x| + |sep|..] == y;
  }

  lemma SplitAllNone(s: string, sep: string)
    requires |sep| > 0 && !Occurs(sep, s)
    ensures SplitAll(s, sep) == [s]
  {
  }

  /** The saved text holds no carriage return. */
  lemma {:induction false} SaveHasNoCarriageReturn(entries: seq<(string, string)>, absPath: string -> string)
    requires Savable(entries, absPath)
    ensures '\r' !in Save(entries)
    decreases |entries|
  {
    if |entries| > 0 {
      SavableTail(entries, absPath);
      SaveHasNoCarriageReturn(entries[1..], absPath);
      var e := entries[0];
      assert FormatLine(e.0, e.1) == e.0 + "\t" + e.1 + "\n";
    }
  }

  /** The entries' lines without their line breaks. */
  function EntryLines(entries: seq<(string, string)>): seq<string>
    decreases |entries|
  {
    if |entries| == 0 then [] else [entries[0].0 + "\t" + entries[0].1] + EntryLines(entries[1..])
  }

  /** The lines of a saved table: one per entry, then the empty rest after the last line break. */
  lemma {:induction false} SaveLines(entries: seq<(string, string)>, absPath: string -> string)
    requires Savable(entries, absPath)
    ensures SplitAll(Save(entries), "\n") == EntryLines(entries) + [[]]
    decreases |entries|
  {
    if |entries| == 0 {
      SplitAllNone([], "\n");
    } else {
      var e := entries[0];
      var line := e.0 + "\t" + e.1;
      SavableTail(entries, absPath);
      assert '\n' !in line;
      NoCharNoOccurs(line, '\n');
      SaveLines(entries[1..], absPath);
      assert Save(entries) == line + "\n" + Save(entries[1..]);
      SplitAllAt(line, "\n", Save(entries[1..]));
    }
  }

  /** Strip leaves a savable entry's line alone, so the line parses back into the entry. */
  lemma ParseSavedLine(path: string, hash: string, absPath: string -> string)
    requires SavableEntry(path, hash, absPath)
    ensures ParseLine(path + "\t" + hash) == Some((path, hash))
  {
    var line := path + "\t" + hash;
    assert line[0] == path[0] && line[|line| - 1] == hash[|hash| - 1];
    StripTrimmed(line);
    ParseLineFields(line, path, hash);
  }

  /** The empty rest after the last line break is skipped. */
  lemma ParseEmptyLine()
    ensures ParseLine([]) == None
  {
    assert Strip([]) == [];
    NoCharNoOccurs([], '\t');
    SplitAllNone([], "\t");
  }

  lemma {:induction false} ApplySavedLines(m: map<string, string>, entries: seq<(string, string)>, absPath: string -> string)
    requires Savable(entries, absPath)
    ensures ApplyLines(m, EntryLines(entries) + [[]], absPath) == PutAll(m, entries)
    decreases |entries|
  {
    if |entries| == 0 {
      ParseEmptyLine();
      assert EntryLines(entries) + [[]] == [[]];
    } else {
      var e := entries[0];
      SavableTail(entries, absPath);
      ParseSavedLine(e.0, e.1, absPath);
      EntryLinesCons(entries);
      ApplySavedLines(m[e.0 := e.1], entries[1..], absPath);
    }
  }

  lemma SavableTail(entries: seq<(string, string)>, absPath: string -> string)
    requires Savable(entries, absPath) && |entries| > 0
    ensures SavableEntry(entries[0].0, entries[0].1, absPath)
    ensures Savable(entries[1..], absPath)
  {
    assert forall k :: 0 <= k < |entries| - 1 ==> entries[1..][k] == entries[k + 1];
  }

  lemma EntryLinesCons(entries: seq<(string, string)>)
    requires |entries| > 0
    ensures (EntryLines(entries) + [[]])[0] == entries[0].0 + "\t" + entries[0].1
    ensures (EntryLines(entries) + [[]])[1..] == EntryLines(entries[1..]) + [[]]
  {
    var line := entries[0].0 + "\t" + entries[0].1;
    var rest := EntryLines(entries[1..]);
    assert EntryLines(entries) + [[]] == [line] + (rest + [[]]);
  }

  /**
   What `save_hashes` writes, `load_hashes` reads back as the same
   dictionary, for entries the format can carry.
   */
  lemma LoadSave(entries: seq<(string, string)>, absPath: string -> string)
    requires Savable(entries, absPath)
    ensures Load(Some(Save(entries)), absPath) == PutAll(map[], entries)
  {
    var text := Save(entries);
    SaveHasNoCarriageReturn(entries, absPath);
    NoCharNoOccurs2(text, '\r', '\n');
    ReplaceAllAbsent(text, "\r\n", "\n");
    NoCharNoOccurs(text, '\r');
    ReplaceAllAbsent(text, "\r", "\n");
    assert TranslateNewlines(text) == text;
    SaveLines(entries, absPath);
    ApplySavedLines(map[], entries, absPath);
  }

  /** The value a sequence of assignments leaves for `key`: the last one made to it. */
  function LastValue(entries: seq<(string, string)>, key: string): Option<string>
    decreases |entries|
  {
    if |entries| == 0 then None
    else if entries[|entries| - 1].0 == key then Some(entries[|entries| - 1].1)
    else LastValue(entries[..|entries| - 1], key)
  }

  /** Later assignments win: the dictionary holds each key's last value. */
  lemma {:induction false} PutAllLast(m: map<string, string>, entries: seq<(string, string)>, key: string)
    ensures LastValue(entries, key).Some? ==> key in PutAll(m, entries) && PutAll(m, entries)[key] == LastValue(entries, key).value
    ensures LastValue(entries, key).None? ==> (key in PutAll(m, entries) <==> key in m)
    ensures LastValue(entries, key).None? && key in m ==> PutAll(m, entries)[key] == m[key]
    decreases |entries|
  {
    if |entries| > 0 {
      var n := |entries| - 1;
      PutAllSnoc(m, entries[..n], entries[n]);
      assert entries[..n] + [entries[n]] == entries;
      PutAllLast(m, entries[..n], key);
    }
  }

  lemma {:induction false} PutAllSnoc(m: map<string, string>, entries: seq<(string, string)>, e: (string, string))
    ensures PutAll(m, entries + [e]) == PutAll(m, entries)[e.0 := e.1]
    decreases |entries|
  {
    if |entries| == 0 {
      assert [e][1..] == [];
    } else {
      assert (entries + [e])[1..] == entries[1..] + [e];
      PutAllSnoc(m[entries[0].0 := entries[0].1], entries[1..], e);
    }
  }
}

=== FILE: image_links.dfy ===
/**
 The newer image rewriter (`Automatic-Updates/images.py`): find every Obsidian
 embed `[[name.ext]]` whose name is made of word characters, whitespace, `.`
 and `-` and ends in an image extension, replace it by a Markdown link into
 `/images/`, and copy the referenced files.
 */
module ImageLinks {
  import opened Options
  import opened Strings
  import opened ImageRefs

  /** The regex class `\w`, over ASCII. */
  predicate IsWordChar(c: char) {
    ('a' <= c <= 'z') || ('A' <= c <= 'Z') || ('0' <= c <= '9') || c == '_'
  }

  /** The regex class `[\w\s.-]` of characters allowed in a name. */
  predicate IsNameChar(c: char) {
    IsWordChar(c) || IsSpace(c) || c == '.' || c == '-'
  }

  /** Equal up to ASCII letter case, the case folding `re.IGNORECASE` applies to the extension. */
  predicate EqualsIgnoreCase(a: string, b: string) {
    |a| == |b| && forall i :: 0 <= i < |a| ==> ToLower(a[i]) == ToLower(b[i])
  }

  /** `name` is at least one character, a dot, and then `ext` in any letter case. */
  predicate EndsWithExtension(name: string, ext: string) {
    && |name| >= |ext| + 2
    && name[|name| - |ext| - 1] == '.'
    && EqualsIgnoreCase(name[|name| - |ext|..], ext)
  }

  /** The alternation `\.(?:png|jpg|jpeg|gif|bmp)`, preceded by at least one name character. */
  predicate HasImageExtension(name: string) {
    || EndsWithExtension(name, "png")
    || EndsWithExtension(name, "jpg")
    || EndsWithExtension(name, "jpeg")
    || EndsWithExtension(name, "gif")
    || EndsWithExtension(name, "bmp")
  }

  /** What the capture group `([\w\s.-]+\.(?:png|jpg|jpeg|gif|bmp))` can hold. */
  predicate IsImageName(name: string) {
    && |name| > 0
    && (forall i :: 0 <= i < |name| ==> IsNameChar(name[i]))
    && HasImageExtension(name)
  }

  /** End of the longest run of name characters that starts at `k`. */
  function NameRunEnd(s: string, k: nat): (e: nat)
    requires k <= |s|
    ensures k <= e <= |s|
    ensures forall j :: k <= j < e ==> IsNameChar(s[j])
    ensures e == |s| || !IsNameChar(s[e])
    decreases |s| - k
  {
    if k < |s| && IsNameChar(s[k]) then NameRunEnd(s, k + 1) else k
  }

  /** A run of name characters closed by a non-name character ends there. */
  lemma NameRunEndAt(s: string, k: nat, e: nat)
    requires k <= e < |s|
    requires forall j :: k <= j < e ==> IsNameChar(s[j])
    requires !IsNameChar(s[e])
    ensures NameRunEnd(s, k) == e
  {
    var r := NameRunEnd(s, k);
    assert r <= e;
  }

  /**
   The pattern matched at the start of `s`. The greedy class run cannot take
   `]`, so the group is the whole name run, and it must be followed by `]]`.
   */
  function MatchAtStart(s: string): (r: Option<string>)
    ensures r.Some? ==> IsImageName(r.value) && StartsWith(s, Ref(r.value))
  {
    if StartsWith(s, "[[") then
      var e := NameRunEnd(s, 2);
      var name := s[2..e];
      if IsImageName(name) && StartsWith(s[e..], "]]") then
        assert s[..|Ref(name)|] == s[..2] + name + s[e..][..2];
        Some(name)
      else None
    else None
  }

  /** Every embed of an image name at the start of `s` is the one matched there. */
  lemma MatchAtStartComplete(s: string, name: string)
    requires IsImageName(name)
    ensures StartsWith(s, Ref(name)) ==> MatchAtStart(s) == Some(name)
  {
    if StartsWith(s, Ref(name)) {
      var e := 2 + |name|;
      var p := s[..|Ref(name)|];
      assert p == Ref(name);
      assert s[..2] == p[..2] == "[[";
      assert s[2..e] == p[2..e] == name;
      assert s[e..][..2] == p[e..] == "]]";
      assert s[e] == p[e] == ']';
      NameRunEndAt(s, 2, e);
    }
  }

  /**
   `pattern.findall(content)`: the names of the non-overlapping matches, left to
   right; after a match the search resumes behind its closing `]]`.
   */
  function FindAll(s: string): (images: seq<string>)
    ensures forall k :: 0 <= k < |images| ==> IsImageName(images[k]) && Occurs(Ref(images[k]), s)
    decreases |s|
  {
    if |s| == 0 then []
    else match MatchAtStart(s)
      case Some(name) =>
        StartsWithOccurs(s, Ref(name));
        OccursInSuffixAll(s, |Ref(name)|);
        [name] + FindAll(s[|Ref(name)|..])
      case None =>
        OccursInSuffixAll(s, 1);
        FindAll(s[1..])
  }

  /** A matched embed hides no other embed: none starts strictly inside it. */
  lemma NoRefInsideMatch(s: string, m: string, n: string, j: int)
    requires IsImageName(m) && IsImageName(n) && StartsWith(s, Ref(m))
    ensures 0 < j < |Ref(m)| ==> !At(s, j, Ref(n))
  {
    assert s[..|Ref(m)|] == Ref(m);
    if 0 < j < |Ref(m)| && j + |Ref(n)| <= |s| {
      assert s[j..j + |Ref(n)|][0] == s[j];
      if j == 1 {
        assert s[j..j + |Ref(n)|][1] == s[2] == m[0];
      } else if j < |m| + 2 {
        assert s[j] == m[j - 2];
      } else {
        assert s[j] == ']';
      }
    }
  }

  /** `findall` reports every embed of an image name that occurs in `s`. */
  lemma {:induction false} FindAllComplete(s: string, name: string)
    requires IsImageName(name) && Occurs(Ref(name), s)
    ensures name in FindAll(s)
    decreases |s|
  {
    var j :| 0 <= j <= |s| && At(s, j, Ref(name));
    AtZeroIff(s, Ref(name));
    MatchAtStartComplete(s, name);
    match MatchAtStart(s)
    case Some(m) =>
      if j > 0 {
        NoRefInsideMatch(s, m, name, j);
        var k := |Ref(m)|;
        AtSuffix(s, k, j - k, Ref(name));
        FindAllComplete(s[k..], name);
      }
    case None =>
      AtSuffix(s, 1, j - 1, Ref(name));
      FindAllComplete(s[1..], name);
  }

  /** `findall` finds nothing exactly when `s` holds no embed of an image name. */
  lemma FindAllEmptyIff(s: string)
    ensures FindAll(s) == [] <==> forall name :: IsImageName(name) ==> !Occurs(Ref(name), s)
  {
    forall name | IsImageName(name) && Occurs(Ref(name), s) ensures FindAll(s) != [] {
      FindAllComplete(s, name);
    }
    if FindAll(s) != [] {
      var n := FindAll(s)[0];
      assert IsImageName(n) && Occurs(Ref(n), s);
    }
  }

  /** What the embed is replaced with (line 68): a link, with spaces in the target written `%20`. */
  const LinkHead: string := "[Image Description]("

  function Link(name: string): string {
    LinkHead + "/images/" + EncodeSpaces(name) + ")"
  }

  /**
   The link opens with `[Image Description](`, holds no other `[`, and ends with
   `)`. In particular it starts with `[`, not `![`: it is a plain link, not an
   image embed.
   */
  lemma LinkShape(name: string)
    requires IsImageName(name)
    ensures |Link(name)| >= |LinkHead| && Link(name)[..|LinkHead|] == LinkHead
    ensures Link(name)[0] == '[' && '[' !in Link(name)[1..]
    ensures Link(name)[|Link(name)| - 1] == ')'
  {
    EncodedHasNoBracket(name);
    LinkAround(EncodeSpaces(name));
  }

  lemma LinkAround(enc: string)
    requires '[' !in enc
    ensures var l := LinkHead + "/images/" + enc + ")";
      && |l| >= |LinkHead| && l[..|LinkHead|] == LinkHead
      && l[0] == '[' && '[' !in l[1..]
      && l[|l| - 1] == ')'
  {
    var t := "Image Description](/images/";
    LinkFront(t);
    var l := LinkHead + "/images/" + enc + ")";
    assert l == "[" + (t + enc + ")");
    assert l == LinkHead + ("/images/" + enc + ")");
  }

  lemma LinkFront(t: string)
    requires t == "Image Description](/images/"
    ensures LinkHead + "/images/" == "[" + t
    ensures '[' !in t
  {
    assert LinkHead == "[" + "Image Description](";
    assert '[' !in "Image Description](" && '[' !in "/images/";
  }

  lemma EncodedHasNoBracket(name: string)
    requires IsImageName(name)
    ensures '[' !in EncodeSpaces(name)
  {
    var enc := EncodeSpaces(name);
    forall c | c in enc ensures c != '[' {
      if c in name {
        var k :| 0 <= k < |name| && name[k] == c;
        assert IsNameChar(name[k]);
      }
    }
  }

  /** No embed can be found inside a link: it holds a single `[`. */
  lemma NoRefInLink(img: string, name: string)
    requires IsImageName(img)
    ensures !Occurs(Ref(name), Link(img))
  {
    var l := Link(img);
    LinkShape(img);
    forall j | 0 <= j <= |l| ensures !At(l, j, Ref(name)) {
      if j + |Ref(name)| <= |l| {
        var w := l[j..j + |Ref(name)|];
        if j == 0 {
          assert w[1] == l[1] == "Image Description"[0];
        } else {
          assert w[0] == l[1..][j - 1];
        }
      }
    }
  }

  /** No `]` and no `)` occur in an image name. */
  lemma NameHasNoBrackets(name: string)
    requires IsImageName(name)
    ensures ']' !in name && ')' !in name && '[' !in name
  {
    forall c | c in name ensures c != ']' && c != ')' && c != '[' {
      var k :| 0 <= k < |name| && name[k] == c;
      assert IsNameChar(name[k]);
    }
  }

  /** An embed cannot start before a link and run into it. */
  lemma NoStraddleIntoLink(name: string, x: string, y: string)
    requires IsImageName(name)
    requires |y| >= |LinkHead| && y[..|LinkHead|] == LinkHead
    ensures forall i :: !StraddleAt(Ref(name), x, y, i)
  {
    var pat := Ref(name);
    NameHasNoBrackets(name);
    forall i | 0 < i < |pat| && |pat| - i <= |y| ensures y[..|pat| - i] != pat[i..] {
      var w := y[..|pat| - i];
      assert w[0] == y[0] == '[';
      if i >= 2 {
        assert pat[i..][0] == pat[i];
        if i < |name| + 2 {
          assert pat[i] == name[i - 2];
        }
      } else if |name| >= 18 {
        assert y[18] == LinkHead[18] == ']';
        assert pat[1..][18] == pat[19] == name[17];
      } else if |name| <= 16 {
        assert pat[1..][|name| + 1] == ']';
        assert y[|name| + 1] == LinkHead[|name| + 1];
        assert IsNameChar(LinkHead[|name| + 1]);
      } else {
        assert pat[1..][19] == ']';
        assert y[19] == LinkHead[19] == '(';
      }
    }
  }

  /** An embed cannot start inside a link, which ends with `)`, and run past it. */
  lemma NoStraddleOutOfLink(name: string, x: string, y: string)
    requires IsImageName(name)
    requires |x| > 0 && x[|x| - 1] == ')'
    ensures forall i :: !StraddleAt(Ref(name), x, y, i)
  {
    var pat := Ref(name);
    NameHasNoBrackets(name);
    forall i | 0 < i < |pat| && i <= |x| ensures x[|x| - i..] != pat[..i] {
      assert x[|x| - i..][i - 1] == ')';
      assert pat[..i][i - 1] == pat[i - 1];
      if 2 <= i - 1 < |name| + 2 {
        assert pat[i - 1] == name[i - 3];
      }
    }
  }

  /** Where no embed straddles the seam, an embed in `x + y` is an embed in `x` or in `y`. */
  lemma OccursSplit(pat: string, x: string, y: string)
    requires forall i :: !StraddleAt(pat, x, y, i)
    ensures Occurs(pat, x + y) ==> Occurs(pat, x) || Occurs(pat, y)
  {
    if !Occurs(pat, x) && !Occurs(pat, y) {
      NoOccursConcat(pat, x, y);
    }
  }

  /** One replacement step of the loop body (lines 63-69). */
  function Replace(content: string, image: string): string {
    if '/' in image || '\\' in image then content
    else ReplaceAll(content, Ref(image), Link(image))
  }

  /**
   Replacing the embeds of `img` by links creates no embed: every embed of an
   image name left afterwards was already there, and is not one of `img`.
   */
  lemma {:induction false} RefAfterReplace(t: string, img: string, name: string)
    requires IsImageName(img) && IsImageName(name)
    ensures Occurs(Ref(name), ReplaceAll(t, Ref(img), Link(img))) ==> name != img && Occurs(Ref(name), t)
    decreases |t|
  {
    var pat := Ref(img);
    var l := Link(img);
    match Find(t, pat)
    case None =>
      ReplaceAllAbsent(t, pat, l);
    case Some(i) =>
      FindHead(t, pat, i);
      var rest := t[i + |pat|..];
      ReplaceAllFirst(t, pat, l, i);
      RefAfterReplace(rest, img, name);
      OccursInPrefix(t, i, Ref(name));
      OccursInSuffix(t, i + |pat|, Ref(name));
      RefAroundLink(t[..i], img, ReplaceAll(rest, pat, l), name);
  }

  /** An embed in text with a link spliced in lies wholly on one side of the link. */
  lemma RefAroundLink(head: string, img: string, tail: string, name: string)
    requires IsImageName(img) && IsImageName(name)
    ensures Occurs(Ref(name), head + Link(img) + tail) ==> Occurs(Ref(name), head) || Occurs(Ref(name), tail)
  {
    var l := Link(img);
    LinkShape(img);
    NoRefInLink(img, name);
    NoStraddleOutOfLink(name, l, tail);
    OccursSplit(Ref(name), l, tail);
    assert (l + tail)[..|LinkHead|] == LinkHead;
    NoStraddleIntoLink(name, head, l + tail);
    OccursSplit(Ref(name), head, l + tail);
    assert head + l + tail == head + (l + tail);
  }

  /** The loop of lines 61-69 over the names `findall` returned, in order. */
  function RewriteAll(content: string, images: seq<string>): string
    decreases |images|
  {
    if |images| == 0 then content
    else RewriteAll(Replace(content, images[0]), images[1..])
  }

  /** The slash check of line 63 never fires: a matched name holds no `/` and no `\`. */
  lemma SlashCheckUnreachable(name: string)
    requires IsImageName(name)
    ensures '/' !in name && '\\' !in name
  {
    forall c | c in name ensures c != '/' && c != '\\' {
      var k :| 0 <= k < |name| && name[k] == c;
      assert IsNameChar(name[k]);
    }
  }

  /** After the loop, an embed of an image name is one that was there and that the loop did not handle. */
  lemma {:induction false} RewriteAllRemoves(t: string, images: seq<string>, name: string)
    requires forall k :: 0 <= k < |images| ==> IsImageName(images[k])
    requires IsImageName(name)
    ensures Occurs(Ref(name), RewriteAll(t, images)) ==> Occurs(Ref(name), t) && name !in images
    decreases |images|
  {
    if |images| > 0 {
      var img := images[0];
      SlashCheckUnreachable(img);
      assert Replace(t, img) == ReplaceAll(t, Ref(img), Link(img));
      RewriteAllRemoves(Replace(t, img), images[1..], name);
      RefAfterReplace(t, img, name);
      assert images == [img] + images[1..];
    }
  }

  /** The rewritten text holds no embed: a second run finds no image at all. */
  lemma RewriteLeavesNoRef(s: string)
    ensures FindAll(RewriteAll(s, FindAll(s))) == []
  {
    var out := RewriteAll(s, FindAll(s));
    forall name | IsImageName(name) ensures !Occurs(Ref(name), out) {
      RewriteAllRemoves(s, FindAll(s), name);
      if Occurs(Ref(name), s) {
        FindAllComplete(s, name);
      }
    }
    FindAllEmptyIff(out);
  }

  // ---------------------------------------------------------------------------
  // The rewrite as one left-to-right scan
  // ---------------------------------------------------------------------------

  /**
   What the loop of lines 61-69 does, stated directly: scanning left to right,
   every embed of an image name becomes its link, and every other character
   is kept.
   */
  function LinkEmbeds(s: string): string
    decreases |s|
  {
    if |s| == 0 then []
    else match MatchAtStart(s)
      case Some(m) => Link(m) + LinkEmbeds(s[|Ref(m)|..])
      case None => [s[0]] + LinkEmbeds(s[1..])
  }

  /**
   The scan part-way through the loop: the embeds whose name is in `names`
   have become links, and the others are kept whole.
   */
  function LinkSome(s: string, names: seq<string>): string
    decreases |s|
  {
    if |s| == 0 then []
    else match MatchAtStart(s)
      case Some(m) => (if m in names then Link(m) else Ref(m)) + LinkSome(s[|Ref(m)|..], names)
      case None => [s[0]] + LinkSome(s[1..], names)
  }

  /** A match starts with `[`. */
  lemma MatchOpens(s: string)
    ensures MatchAtStart(s).Some? ==> |s| > 0 && s[0] == '['
  {
    if MatchAtStart(s).Some? {
      var m := MatchAtStart(s).value;
      assert s[..|Ref(m)|][0] == s[0];
    }
  }

  /** The scan keeps the first character: links and embeds both open with `[`. */
  lemma LinkSomeFirst(u: string, names: seq<string>)
    requires |u| > 0
    ensures |LinkSome(u, names)| > 0 && LinkSome(u, names)[0] == u[0]
  {
    MatchOpens(u);
    match MatchAtStart(u)
    case Some(m) =>
      LinkShape(m);
    case None =>
  }

  /** A run without `[` is copied by the scan. */
  lemma {:induction false} LinkSomePlainRun(u: string, names: seq<string>, k: nat)
    requires k <= |u| && '[' !in u[..k]
    ensures LinkSome(u, names) == u[..k] + LinkSome(u[k..], names)
    decreases k
  {
    if k > 0 {
      var v := u[1..];
      assert u[..k][0] == u[0];
      LinkSomeCopy(u, names);
      PlainRunTail(u, k);
      LinkSomePlainRun(v, names, k - 1);
      ConsRun(u, k, LinkSome(u[k..], names));
    } else {
      assert u[..0] == [] && u[0..] == u;
    }
  }

  lemma PlainRunTail(u: string, k: nat)
    requires 0 < k <= |u| && '[' !in u[..k]
    ensures '[' !in u[1..][..k - 1] && u[1..][k - 1..] == u[k..]
  {
    assert u[1..][..k - 1] == u[..k][1..];
  }

  lemma ConsRun(u: string, k: nat, y: string)
    requires 0 < k <= |u|
    ensures [u[0]] + (u[1..][..k - 1] + y) == u[..k] + y
  {
    assert [u[0]] + u[1..][..k - 1] == u[..k];
  }

  /** A character other than `[` is copied by the scan. */
  lemma LinkSomeCopy(u: string, names: seq<string>)
    requires |u| > 0 && u[0] != '['
    ensures LinkSome(u, names) == [u[0]] + LinkSome(u[1..], names)
  {
    MatchOpens(u);
  }

  lemma NameCharNotOpen(c: char)
    ensures IsNameChar(c) ==> c != '[' && c != ']'
  {
  }

  /** Before the end of a name run, the scan's output cannot close an embed. */
  lemma ShortNameNoClose(u: string, names: seq<string>, n: string, k: nat)
    requires IsImageName(n) && k <= |u|
    requires forall j :: 0 <= j < k ==> IsNameChar(u[j])
    requires LinkSome(u, names) == u[..k] + LinkSome(u[k..], names)
    ensures |n| < k ==> !StartsWith(LinkSome(u, names), n + "]]")
  {
    if |n| < k {
      assert LinkSome(u, names)[|n|] == u[|n|];
      assert IsNameChar(u[|n|]);
      assert (n + "]]")[|n|] == ']';
    }
  }

  /** Past the end of a name run, the scan's output holds no name character to continue the name with. */
  lemma LongNameNoClose(u: string, names: seq<string>, n: string, k: nat)
    requires IsImageName(n) && k <= |u|
    requires k == |u| || !IsNameChar(u[k])
    requires LinkSome(u, names) == u[..k] + LinkSome(u[k..], names)
    ensures |n| > k ==> !StartsWith(LinkSome(u, names), n + "]]")
  {
    if |n| > k && k < |u| {
      LinkSomeFirst(u[k..], names);
      assert LinkSome(u, names)[k] == u[k];
      assert IsNameChar(n[k]);
      assert (n + "]]")[k] == n[k];
    }
    if |n| > k && k == |u| {
      assert u[k..] == [];
      assert |LinkSome(u, names)| == k;
    }
  }

  /** Where a name run ends, the scan's output closes an embed only if the input did. */
  lemma ExactNameClose(u: string, names: seq<string>, n: string, k: nat)
    requires IsImageName(n) && k <= |u| && |n| == k
    requires LinkSome(u, names) == u[..k] + LinkSome(u[k..], names)
    ensures StartsWith(LinkSome(u, names), n + "]]") ==> n == u[..k] && StartsWith(u[k..], "]]")
  {
    var w := LinkSome(u[k..], names);
    SplitClose(u[..k], w, n);
    ScanCloses(u[k..], names);
  }

  /** The scan's output opens with `]]` only where its input does. */
  lemma ScanCloses(v: string, names: seq<string>)
    ensures StartsWith(LinkSome(v, names), "]]") ==> StartsWith(v, "]]")
  {
    if |v| > 0 {
      LinkSomeFirst(v, names);
      var rest := LinkSome(v[1..], names);
      if v[0] == ']' {
        LinkSomeCopy(v, names);
        if |v| > 1 {
          LinkSomeFirst(v[1..], names);
        }
      }
      ClosesFromHeads(v, LinkSome(v, names), rest);
    }
  }

  /** The `]]` check on an output that copies a leading `]` and then shows the next input character first. */
  lemma ClosesFromHeads(v: string, w: string, rest: string)
    requires |v| > 0 && |w| > 0 && w[0] == v[0]
    requires v[0] == ']' ==> w == [v[0]] + rest
    requires v[0] == ']' && |v| == 1 ==> rest == []
    requires v[0] == ']' && |v| > 1 ==> |rest| > 0 && rest[0] == v[1]
    ensures StartsWith(w, "]]") ==> StartsWith(v, "]]")
  {
    if StartsWith(w, "]]") {
      assert w[0] == ']' && w[1] == ']';
      assert |v| > 1;
      assert v[..2] == [v[0], v[1]];
    }
  }

  /**
   After an opening `[[`, the scan's output shows a name closed by `]]` only
   when the input itself holds that embed there.
   */
  lemma CloseNeedsEmbed(u: string, names: seq<string>, n: string)
    requires IsImageName(n)
    ensures StartsWith(LinkSome(u, names), n + "]]") ==> MatchAtStart("[[" + u) == Some(n)
  {
    var k := NameRunEnd("[[" + u, 2) - 2;
    NameRunAfterOpen(u, k);
    LinkSomePlainRun(u, names, k);
    ShortNameNoClose(u, names, n, k);
    LongNameNoClose(u, names, n, k);
    if |n| == k {
      ExactNameClose(u, names, n, k);
      MatchAfterOpen(u, n, k);
    }
  }

  /** The name run after `[[`, read on what follows the brackets. */
  lemma NameRunAfterOpen(u: string, k: int)
    requires k == NameRunEnd("[[" + u, 2) - 2
    ensures 0 <= k <= |u|
    ensures forall j :: 0 <= j < k ==> IsNameChar(u[j])
    ensures k == |u| || !IsNameChar(u[k])
    ensures '[' !in u[..k]
  {
    var s := "[[" + u;
    assert forall j :: 0 <= j < k ==> u[j] == s[j + 2];
    assert k == |u| || u[k] == s[k + 2];
    forall j | 0 <= j < k ensures u[j] != '[' {
      NameCharNotOpen(u[j]);
    }
  }

  /** A name filling the run after `[[` and closed by `]]` is the match there. */
  lemma MatchAfterOpen(u: string, n: string, k: int)
    requires k == NameRunEnd("[[" + u, 2) - 2 && |n| == k && IsImageName(n)
    ensures n == u[..k] && StartsWith(u[k..], "]]") ==> MatchAtStart("[[" + u) == Some(n)
  {
    var s := "[[" + u;
    if n == u[..k] && StartsWith(u[k..], "]]") {
      assert s[..2] == "[[";
      assert s[2..k + 2] == u[..k];
      assert s[k + 2..] == u[k..];
    }
  }

  /** Where no match starts, the copied character and what follows it do not form an embed. */
  lemma NoRefAtScanStart(s: string, names: seq<string>, n: string)
    requires |s| > 0 && MatchAtStart(s).None? && IsImageName(n)
    ensures !StartsWith([s[0]] + LinkSome(s[1..], names), Ref(n))
  {
    var r := Ref(n);
    if s[0] != '[' || |s| == 1 {
      assert r[0] == '[' && |r| > 1;
    } else {
      assert s == "[" + s[1..];
      OpenThenScan(s[1..], names, n);
    }
  }

  /** A `[` that starts no match, followed by the scan of the rest, is no embed. */
  lemma OpenThenScan(v: string, names: seq<string>, n: string)
    requires |v| > 0 && MatchAtStart("[" + v).None? && IsImageName(n)
    ensures !StartsWith("[" + LinkSome(v, names), Ref(n))
  {
    if v[0] != '[' {
      LinkSomeFirst(v, names);
      OpenThenOther(LinkSome(v, names), n);
    } else if MatchAtStart(v).Some? {
      OpenThenMatch(v, names, n, MatchAtStart(v).value);
    } else {
      OpenThenNoMatch(v, names, n);
    }
  }

  /** `[` followed by anything but `[` is no embed. */
  lemma OpenThenOther(w: string, n: string)
    requires |w| > 0 && w[0] != '['
    ensures !StartsWith("[" + w, Ref(n))
  {
    assert ("[" + w)[1] == w[0];
    assert Ref(n)[1] == '[';
  }

  /** `[` followed by the scan at a match is no embed. */
  lemma OpenThenMatch(v: string, names: seq<string>, n: string, m: string)
    requires MatchAtStart(v) == Some(m) && IsImageName(n)
    ensures !StartsWith("[" + LinkSome(v, names), Ref(n))
  {
    ScanAtMatch(v, names, m);
    var rest := LinkSome(v[|Ref(m)|..], names);
    if m in names {
      LinkShape(m);
      OpenThenLink(Link(m) + rest, n);
    } else {
      OpenThenRef(m, rest, n);
    }
  }

  /** `[[` where no match starts, with the scan of what follows, is no embed. */
  lemma OpenThenNoMatch(v: string, names: seq<string>, n: string)
    requires |v| > 0 && v[0] == '[' && MatchAtStart(v).None? && MatchAtStart("[" + v).None? && IsImageName(n)
    ensures !StartsWith("[" + LinkSome(v, names), Ref(n))
  {
    ScanAtNoMatch(v, names);
    OpenCons(v, LinkSome(v, names), LinkSome(v[1..], names));
    OpenOpenNoMatch(v[1..], names, n);
  }

  /** After `[[` that starts no match, the scan of the rest does not complete an embed. */
  lemma OpenOpenNoMatch(u: string, names: seq<string>, n: string)
    requires MatchAtStart("[[" + u).None? && IsImageName(n)
    ensures !StartsWith("[[" + LinkSome(u, names), Ref(n))
  {
    CloseNeedsEmbed(u, names, n);
    OpenOpenThen(LinkSome(u, names), n);
  }

  /** One step of the scan where a match starts. */
  lemma ScanAtMatch(v: string, names: seq<string>, m: string)
    requires MatchAtStart(v) == Some(m)
    ensures |Ref(m)| <= |v|
    ensures LinkSome(v, names) == (if m in names then Link(m) else Ref(m)) + LinkSome(v[|Ref(m)|..], names)
  {
  }

  /** One step of the scan where no match starts. */
  lemma ScanAtNoMatch(v: string, names: seq<string>)
    requires |v| > 0 && MatchAtStart(v).None?
    ensures LinkSome(v, names) == [v[0]] + LinkSome(v[1..], names)
  {
  }

  /** `[` followed by a link is no embed. */
  lemma OpenThenLink(y: string, n: string)
    requires IsImageName(n) && |y| >= |LinkHead| && y[..|LinkHead|] == LinkHead
    ensures !StartsWith("[" + y, Ref(n))
  {
    var r := Ref(n);
    NoStraddleIntoLink(n, "[", y);
    assert !StraddleAt(r, "[", y, 1);
    if |r| <= 1 + |y| {
      assert ("[" + y)[..|r|] == "[" + y[..|r| - 1];
      assert r == [r[0]] + r[1..];
    }
  }

  /** `[` followed by an embed is no embed: a name holds no `[`. */
  lemma OpenThenRef(m: string, x: string, n: string)
    requires IsImageName(n)
    ensures !StartsWith("[" + (Ref(m) + x), Ref(n))
  {
    assert ("[" + (Ref(m) + x))[2] == '[';
    assert Ref(n)[2] == n[0] && IsNameChar(n[0]);
  }

  /** No embed starts inside a link or runs out of it. */
  lemma LinkTokenClean(m: string, n: string, x: string)
    requires IsImageName(m) && IsImageName(n)
    ensures forall j :: 0 <= j < |Link(m)| ==> !At(Link(m) + x, j, Ref(n))
  {
    var l := Link(m);
    LinkShape(m);
    NoRefInLink(m, n);
    NoStraddleOutOfLink(n, l, x);
    forall j | 0 <= j < |l| ensures !At(l + x, j, Ref(n)) {
      AtConcatCases(Ref(n), l, x, j);
    }
  }

  /** No embed of another name starts inside an embed. */
  lemma RefTokenClean(m: string, n: string, x: string)
    requires IsImageName(m) && IsImageName(n) && m != n
    ensures forall j :: 0 <= j < |Ref(m)| ==> !At(Ref(m) + x, j, Ref(n))
  {
    var t := Ref(m) + x;
    assert t[..|Ref(m)|] == Ref(m);
    MatchAtStartComplete(t, m);
    MatchAtStartComplete(t, n);
    AtZeroIff(t, Ref(n));
    forall j | 0 < j < |Ref(m)| ensures !At(t, j, Ref(n)) {
      NoRefInsideMatch(t, m, n, j);
    }
  }

  /** One `replace` of the loop turns the embeds of one more name into links. */
  lemma {:induction false} ReplaceStep(s: string, names: seq<string>, n: string)
    requires IsImageName(n)
    ensures ReplaceAll(LinkSome(s, names), Ref(n), Link(n)) == LinkSome(s, names + [n])
    decreases |s|
  {
    if |s| > 0 {
      match MatchAtStart(s)
      case Some(m) =>
        var rest := s[|Ref(m)|..];
        var x := LinkSome(rest, names);
        ReplaceStep(rest, names, n);
        if m in names {
          LinkTokenClean(m, n, x);
          ReplaceAllCleanPrefix(Link(m), x, Ref(n), Link(n));
        } else if m == n {
          ReplaceAllAtStart(x, Ref(n), Link(n));
        } else {
          RefTokenClean(m, n, x);
          ReplaceAllCleanPrefix(Ref(m), x, Ref(n), Link(n));
        }
      case None =>
        var x := LinkSome(s[1..], names);
        NoRefAtScanStart(s, names, n);
        AtZeroIff([s[0]] + x, Ref(n));
        ReplaceAllKeep([s[0]] + x, Ref(n), Link(n));
        assert ([s[0]] + x)[1..] == x;
        ReplaceStep(s[1..], names, n);
    }
  }

  /** The loop over `images` moves those names into the linked ones. */
  lemma {:induction false} RewriteAllLinkSome(s: string, names: seq<string>, images: seq<string>)
    requires forall k :: 0 <= k < |images| ==> IsImageName(images[k])
    ensures RewriteAll(LinkSome(s, names), images) == LinkSome(s, names + images)
    decreases |images|
  {
    if |images| == 0 {
      assert names + images == names;
    } else {
      var img := images[0];
      ReplaceStep(s, names, img);
      RewriteAllFirst(LinkSome(s, names), images, LinkSome(s, names + [img]));
      RewriteAllLinkSome(s, names + [img], images[1..]);
      AppendFirst(names, images);
    }
  }

  /** The first pass of the loop, for an image name, is the plain replacement. */
  lemma RewriteAllFirst(t: string, images: seq<string>, t': string)
    requires |images| > 0 && IsImageName(images[0])
    requires t' == ReplaceAll(t, Ref(images[0]), Link(images[0]))
    ensures RewriteAll(t, images) == RewriteAll(t', images[1..])
  {
    SlashCheckUnreachable(images[0]);
  }

  /** With no name handled yet, the scan gives back its input. */
  lemma {:induction false} LinkSomeNone(s: string)
    ensures LinkSome(s, []) == s
    decreases |s|
  {
    if |s| > 0 {
      match MatchAtStart(s)
      case Some(m) =>
        LinkSomeNone(s[|Ref(m)|..]);
        assert s[..|Ref(m)|] + s[|Ref(m)|..] == s;
      case None =>
        LinkSomeNone(s[1..]);
        assert [s[0]] + s[1..] == s;
    }
  }

  /** With every occurring name handled, the scan is the full rewrite. */
  lemma {:induction false} LinkSomeAll(s: string, names: seq<string>)
    requires forall m :: IsImageName(m) && Occurs(Ref(m), s) ==> m in names
    ensures LinkSome(s, names) == LinkEmbeds(s)
    decreases |s|
  {
    if |s| > 0 {
      var k := match MatchAtStart(s) case Some(m) => |Ref(m)| case None => 1;
      if MatchAtStart(s).Some? {
        StartsWithOccurs(s, Ref(MatchAtStart(s).value));
      }
      forall m | IsImageName(m) && Occurs(Ref(m), s[k..]) ensures m in names {
        OccursInSuffix(s, k, Ref(m));
      }
      LinkSomeAll(s[k..], names);
    }
  }

  /** The loop of lines 61-69 over the names `findall` returned is the one-scan rewrite. */
  lemma RewriteIsLinkEmbeds(s: string)
    ensures RewriteAll(s, FindAll(s)) == LinkEmbeds(s)
  {
    LinkSomeNone(s);
    RewriteAllLinkSome(s, [], FindAll(s));
    assert [] + FindAll(s) == FindAll(s);
    FindAllMembership(s);
    LinkSomeAll(s, FindAll(s));
  }

  /** Text without `[` is copied by the rewrite. */
  lemma {:induction false} LinkEmbedsPlain(x: string, t: string)
    requires '[' !in x
    ensures LinkEmbeds(x + t) == x + LinkEmbeds(t)
    decreases |x|
  {
    if |x| > 0 {
      MatchOpens(x + t);
      assert (x + t)[0] == x[0];
      assert (x + t)[1..] == x[1..] + t;
      LinkEmbedsPlain(x[1..], t);
      assert [x[0]] + x[1..] == x;
    } else {
      assert x + t == t;
    }
  }

  /** An embed of an image name is turned into its link. */
  lemma LinkEmbedsAtEmbed(n: string, y: string)
    requires IsImageName(n)
    ensures LinkEmbeds(Ref(n) + y) == Link(n) + LinkEmbeds(y)
  {
    assert (Ref(n) + y)[..|Ref(n)|] == Ref(n);
    MatchAtStartComplete(Ref(n) + y, n);
    assert (Ref(n) + y)[|Ref(n)|..] == y;
  }

  /** Text where `findall` finds nothing is left as it is. */
  lemma LinkEmbedsNoEmbed(s: string)
    requires FindAll(s) == []
    ensures LinkEmbeds(s) == s
  {
    FindAllMembership(s);
    LinkSomeAll(s, []);
    LinkSomeNone(s);
  }

  /**
   The images the loop copies (lines 71-86): each handled name for which
   `available` holds, that is, the exists check of line 73 and the read-access
   check of line 77 pass and the `copy2` of lines 82-86 succeeds.
   */
  function Copies(images: seq<string>, available: string -> bool): (copied: seq<string>)
    ensures forall n :: n in copied <==> n in images && available(n) && '/' !in n && '\\' !in n
    decreases |images|
  {
    if |images| == 0 then []
    else
      var n := images[0];
      var rest := Copies(images[1..], available);
      assert images == [n] + images[1..];
      if '/' in n || '\\' in n || !available(n) then rest else [n] + rest
  }

  /** What processing one post does: the text written back, if any, and the images copied. */
  datatype PostUpdate = PostUpdate(written: Option<string>, copied: seq<string>)

  /**
   One iteration of the loop over posts (lines 37-98). `content` is `None` when
   the post cannot be read, `writable` holds when the write-access check of
   line 89 passes and the write of lines 93-98 succeeds, and `available` holds
   when an attachment exists (line 73), is readable (line 77) and copies
   without error (lines 82-86).
   */
  function ProcessPost(content: Option<string>, writable: bool, available: string -> bool): (r: PostUpdate)
    ensures content.None? ==> r == PostUpdate(None, [])
    ensures content.Some? ==>
      (r.written.Some? <==> writable && exists name :: IsImageName(name) && Occurs(Ref(name), content.value))
    ensures r.written.Some? ==> FindAll(r.written.value) == []
    ensures content.Some? && r.written.Some? ==> r.written.value == LinkEmbeds(content.value)
    ensures content.Some? ==>
      forall n :: n in r.copied <==> IsImageName(n) && Occurs(Ref(n), content.value) && available(n)
  {
    match content
    case None => PostUpdate(None, [])
    case Some(text) =>
      var images := FindAll(text);
      FindAllEmptyIff(text);
      RewriteLeavesNoRef(text);
      FindAllMembership(text);
      RewriteIsLinkEmbeds(text);
      if |images| == 0 then PostUpdate(None, [])
      else
        var copied := Copies(images, available);
        PostUpdate(if writable then Some(RewriteAll(text, images)) else None, copied)
  }

  /**
   A writable post with one embed, after text without `[` and before text with
   no further embed, is written back with that embed replaced by its link.
   */
  lemma ProcessSingleEmbed(x: string, n: string, y: string, available: string -> bool)
    requires IsImageName(n) && '[' !in x && FindAll(y) == []
    ensures ProcessPost(Some(x + Ref(n) + y), true, available).written == Some(x + Link(n) + y)
  {
    SingleEmbedOccurs(x, n, y);
    LinkEmbedsSingle(x, n, y);
  }

  lemma SingleEmbedOccurs(x: string, n: string, y: string)
    ensures Occurs(Ref(n), x + Ref(n) + y)
  {
    var text := x + Ref(n) + y;
    assert text[|x|..|x| + |Ref(n)|] == Ref(n);
    assert At(text, |x|, Ref(n));
  }

  lemma LinkEmbedsSingle(x: string, n: string, y: string)
    requires IsImageName(n) && '[' !in x && FindAll(y) == []
    ensures LinkEmbeds(x + Ref(n) + y) == x + Link(n) + y
  {
    var t := Ref(n) + y;
    assert x + Ref(n) + y == x + t;
    LinkEmbedsPlain(x, t);
    LinkEmbedsAtEmbed(n, y);
    LinkEmbedsNoEmbed(y);
    ConcatAssoc(x, Link(n), y);
  }

  /** A name is in the `findall` result exactly when its embed occurs. */
  lemma FindAllMembership(s: string)
    ensures forall n :: n in FindAll(s) <==> IsImageName(n) && Occurs(Ref(n), s)
    ensures forall n :: n in FindAll(s) ==> '/' !in n && '\\' !in n
  {
    forall n | IsImageName(n) && Occurs(Ref(n), s) ensures n in FindAll(s) {
      FindAllComplete(s, n);
    }
    forall n | n in FindAll(s) ensures '/' !in n && '\\' !in n {
      SlashCheckUnreachable(n);
    }
  }

  /**
   Running the script again on what it wrote changes nothing and copies
   nothing (when it wrote nothing, there is nothing to run on).
   */
  lemma SecondRunIsNoOp(content: string, writable: bool, available: string -> bool, w2: bool, a2: string -> bool)
    ensures ProcessPost(ProcessPost(Some(content), writable, available).written, w2, a2) == PostUpdate(None, [])
  {
  }

  /** Whether a post is rewritten does not depend on which attachments exist. */
  lemma RewriteIgnoresAvailability(content: string, writable: bool, a1: string -> bool, a2: string -> bool)
    ensures ProcessPost(Some(content), writable, a1).written == ProcessPost(Some(content), writable, a2).written
  {
  }
}

=== FILE: image_refs.dfy ===
/** What both image rewriters share: the `[[name]]` reference and the `%20` space encoding. */
module ImageRefs {
  import opened Strings

  /** The Obsidian embed `[[name]]` that the scripts look for and replace. */
  function Ref(name: string): string {
    "[[" + name + "]]"
  }

  /** Python `name.replace(' ', '%20')`: the name as it appears in the link target. */
  function EncodeSpaces(name: string): (r: string)
    ensures ' ' !in r
    ensures forall c :: c in r ==> c in name || c in "%20"
    ensures |r| >= |name|
    ensures ' ' !in name ==> r == name
  {
    ReplaceCharIsMapChar(name, ' ', "%20");
    ReplaceAllChars(name, " ", "%20");
    MapCharLength(name);
    ReplaceAll(name, " ", "%20")
  }

  lemma {:induction false} MapCharLength(name: string)
    ensures |MapChar(name, ' ', "%20")| >= |name|
    decreases |name|
  {
    if |name| > 0 {
      MapCharLength(name[1..]);
    }
  }

  /**
   Decoding `%20` back to spaces gives the original name whenever the name has
   no `%` of its own: the link target names exactly the file that is copied.
   */
  lemma {:induction false} SpacesDecodeBack(name: string)
    requires '%' !in name
    ensures ReplaceAll(EncodeSpaces(name), "%20", " ") == name
    decreases |name|
  {
    ReplaceCharIsMapChar(name, ' ', "%20");
    if |name| > 0 {
      var c := name[0];
      var rest := name[1..];
      assert name == [c] + rest;
      assert '%' !in rest;
      SpacesDecodeBack(rest);
      ReplaceCharIsMapChar(rest, ' ', "%20");
      var enc := MapChar(rest, ' ', "%20");
      if c == ' ' {
        assert MapChar(name, ' ', "%20") == "%20" + enc;
        ReplaceAllAtStart(enc, "%20", " ");
      } else {
        assert MapChar(name, ' ', "%20") == [c] + enc;
        assert c != '%';
        ReplaceAllSkip(c, enc, "%20", " ");
      }
    }
  }

  /** `[[` followed by `l` is an embed of `n` only if `l` opens with the name closed by `]]`. */
  lemma OpenOpenThen(l: string, n: string)
    ensures StartsWith("[[" + l, Ref(n)) ==> StartsWith(l, n + "]]")
  {
    if StartsWith("[[" + l, Ref(n)) {
      assert ("[[" + l)[2..|Ref(n)|] == l[..|n| + 2];
      assert Ref(n)[2..] == n + "]]";
    }
  }
}

=== FILE: legacy_image_links.dfy ===
/**
 The older image rewriter (`CS-Topics/images.py`): embeds `[[...png]]` whose
 name is anything without `]`, rewritten to Markdown image embeds, with every
 post written back whether or not it changed.
 */
module LegacyImageLinks {
  import opened Options
  import opened Strings
  import opened ImageRefs

  /** What the capture group `([^]]*\.png)` can hold: no `]`, ending in `.png` (case-sensitive). */
  predicate IsLegacyName(name: string) {
    ']' !in name && EndsWith(name, ".png")
  }

  /** End of the longest run of characters other than `]` that starts at `k`. */
  function RunEnd(s: string, k: nat): (e: nat)
    requires k <= |s|
    ensures k <= e <= |s|
    ensures forall j :: k <= j < e ==> s[j] != ']'
    ensures e == |s| || s[e] == ']'
    decreases |s| - k
  {
    if k < |s| && s[k] != ']' then RunEnd(s, k + 1) else k
  }

  lemma RunEndAt(s: string, k: nat, e: nat)
    requires k <= e < |s|
    requires forall j :: k <= j < e ==> s[j] != ']'
    requires s[e] == ']'
    ensures RunEnd(s, k) == e
  {
    var r := RunEnd(s, k);
    assert r <= e;
  }

  /** The pattern matched at the start of `s`: the whole run up to the first `]`, which must open `]]`. */
  function MatchAtStart(s: string): (r: Option<string>)
    ensures r.Some? ==> IsLegacyName(r.value) && StartsWith(s, Ref(r.value))
  {
    if StartsWith(s, "[[") then
      var e := RunEnd(s, 2);
      var name := s[2..e];
      if EndsWith(name, ".png") && StartsWith(s[e..], "]]") then
        assert s[..|Ref(name)|] == s[..2] + name + s[e..][..2];
        assert ']' !in name by {
          forall c | c in name ensures c != ']' {
            var k :| 0 <= k < |name| && name[k] == c;
            assert s[2 + k] == c;
          }
        }
        Some(name)
      else None
    else None
  }

  /** Every embed of a name at the start of `s` is the one matched there. */
  lemma MatchAtStartComplete(s: string, name: string)
    requires IsLegacyName(name)
    ensures StartsWith(s, Ref(name)) ==> MatchAtStart(s) == Some(name)
  {
    if StartsWith(s, Ref(name)) {
      var e := 2 + |name|;
      var p := s[..|Ref(name)|];
      assert p == Ref(name);
      assert s[..2] == p[..2] == "[[";
      assert s[2..e] == p[2..e] == name;
      assert s[e..][..2] == p[e..] == "]]";
      assert s[e] == p[e] == ']';
      forall j | 2 <= j < e ensures s[j] != ']' {
        assert s[j] == name[j - 2];
      }
      RunEndAt(s, 2, e);
    }
  }

  /** `re.findall(r'\[\[([^]]*\.png)\]\]', content)`. */
  function FindAll(s: string): (images: seq<string>)
    ensures forall k :: 0 <= k < |images| ==> IsLegacyName(images[k]) && Occurs(Ref(images[k]), s)
    decreases |s|
  {
    if |s| == 0 then []
    else match MatchAtStart(s)
      case Some(name) =>
        StartsWithOccurs(s, Ref(name));
        OccursInSuffixAll(s, |Ref(name)|);
        [name] + FindAll(s[|Ref(name)|..])
      case None =>
        OccursInSuffixAll(s, 1);
        FindAll(s[1..])
  }

  /** `findall` finds something whenever some embed of a name occurs. */
  lemma {:induction false} FindAllFindsSome(s: string, name: string)
    requires IsLegacyName(name) && Occurs(Ref(name), s)
    ensures FindAll(s) != []
    decreases |s|
  {
    var j :| 0 <= j <= |s| && At(s, j, Ref(name));
    AtZeroIff(s, Ref(name));
    MatchAtStartComplete(s, name);
    if MatchAtStart(s).None? {
      AtSuffix(s, 1, j - 1, Ref(name));
      FindAllFindsSome(s[1..], name);
    }
  }

  /** `findall` finds nothing exactly when no embed of a name occurs. */
  lemma FindAllEmptyIff(s: string)
    ensures FindAll(s) == [] <==> forall name :: IsLegacyName(name) ==> !Occurs(Ref(name), s)
  {
    forall name | IsLegacyName(name) && Occurs(Ref(name), s) ensures FindAll(s) != [] {
      FindAllFindsSome(s, name);
    }
    if FindAll(s) != [] {
      var n := FindAll(s)[0];
      assert IsLegacyName(n) && Occurs(Ref(n), s);
    }
  }

  /** What the embed is replaced with (line 23): a Markdown image embed. */
  function Link(name: string): string {
    "![Image Description](/images/" + EncodeSpaces(name) + ")"
  }

  /** The loop of lines 21-24: every found name, in order, replaced everywhere. */
  function RewriteAll(content: string, images: seq<string>): string
    decreases |images|
  {
    if |images| == 0 then content
    else RewriteAll(ReplaceAll(content, Ref(images[0]), Link(images[0])), images[1..])
  }

  /** The images copied (lines 26-32): each found name whose source exists. */
  function Copies(images: seq<string>, exists_: string -> bool): (copied: seq<string>)
    ensures forall n :: n in copied <==> n in images && exists_(n)
    decreases |images|
  {
    if |images| == 0 then []
    else
      var rest := Copies(images[1..], exists_);
      assert images == [images[0]] + images[1..];
      if exists_(images[0]) then [images[0]] + rest else rest
  }

  // ---------------------------------------------------------------------------
  // The rewrite as one left-to-right scan
  // ---------------------------------------------------------------------------

  /**
   The intended rewrite, independent of the `replace` loop: scanning left to
   right, each embed the pattern matches becomes its image embed and every
   other character is copied.
   */
  function LinkEmbeds(s: string): string
    decreases |s|
  {
    if |s| == 0 then []
    else match MatchAtStart(s)
      case Some(m) => Link(m) + LinkEmbeds(s[|Ref(m)|..])
      case None => [s[0]] + LinkEmbeds(s[1..])
  }

  /** The same scan with only the matches named in `names` rewritten: the loop part way through. */
  function LinkSome(s: string, names: seq<string>): string
    decreases |s|
  {
    if |s| == 0 then []
    else match MatchAtStart(s)
      case Some(m) => (if m in names then Link(m) else Ref(m)) + LinkSome(s[|Ref(m)|..], names)
      case None => [s[0]] + LinkSome(s[1..], names)
  }

  /** No name `findall` returns holds `[`: no match hides the opening of another embed. */
  predicate MatchesPlain(s: string) {
    forall n :: n in FindAll(s) ==> '[' !in n
  }

  lemma ScanAtMatch(v: string, names: seq<string>, m: string)
    requires MatchAtStart(v) == Some(m)
    ensures |Ref(m)| <= |v|
    ensures LinkSome(v, names) == (if m in names then Link(m) else Ref(m)) + LinkSome(v[|Ref(m)|..], names)
    ensures FindAll(v) == [m] + FindAll(v[|Ref(m)|..])
  {
  }

  lemma ScanAtNoMatch(v: string, names: seq<string>)
    requires |v| > 0 && MatchAtStart(v).None?
    ensures LinkSome(v, names) == [v[0]] + LinkSome(v[1..], names)
    ensures FindAll(v) == FindAll(v[1..])
  {
  }

  lemma MatchesPlainAtMatch(v: string, m: string)
    requires MatchAtStart(v) == Some(m) && MatchesPlain(v)
    ensures '[' !in m && MatchesPlain(v[|Ref(m)|..])
  {
    ScanAtMatch(v, [], m);
  }

  lemma MatchesPlainAtNoMatch(v: string)
    requires |v| > 0 && MatchAtStart(v).None? && MatchesPlain(v)
    ensures MatchesPlain(v[1..])
  {
    ScanAtNoMatch(v, []);
  }

  /** The scan's first character is the input's, or the `!` of a link where an embed starts. */
  lemma LinkSomeFirst(u: string, names: seq<string>)
    requires |u| > 0
    ensures |LinkSome(u, names)| > 0
    ensures LinkSome(u, names)[0] == u[0] || (u[0] == '[' && LinkSome(u, names)[0] == '!')
  {
    match MatchAtStart(u)
    case Some(m) =>
      ScanAtMatch(u, names, m);
      assert Ref(m)[0] == '[' == u[0];
    case None =>
      ScanAtNoMatch(u, names);
  }

  /** The scan's output opens with `]]` only where its input does. */
  lemma ScanCloses(v: string, names: seq<string>)
    ensures StartsWith(LinkSome(v, names), "]]") ==> StartsWith(v, "]]")
  {
    var w := LinkSome(v, names);
    PrefixHeads(w, "]]");
    if |v| > 0 {
      LinkSomeFirst(v, names);
      if v[0] == ']' {
        MatchOpens(v);
        ScanAtNoMatch(v, names);
        if |v| > 1 {
          LinkSomeFirst(v[1..], names);
        } else {
          assert v[1..] == [];
        }
        CloseHeads(v, w, LinkSome(v[1..], names));
      }
    }
  }

  /** Only text opening with `[` can start a match. */
  lemma MatchOpens(v: string)
    ensures MatchAtStart(v).Some? ==> |v| > 0 && v[0] == '['
  {
    if MatchAtStart(v).Some? {
      PrefixHeads(v, Ref(MatchAtStart(v).value)[..2]);
      assert v[..2] == Ref(MatchAtStart(v).value)[..2];
    }
  }

  lemma CloseHeads(v: string, w: string, rest: string)
    requires |v| > 0 && v[0] == ']' && w == [v[0]] + rest
    requires |v| > 1 ==> |rest| > 0 && (rest[0] == v[1] || (v[1] == '[' && rest[0] == '!'))
    requires |v| == 1 ==> rest == []
    ensures StartsWith(w, "]]") ==> StartsWith(v, "]]")
  {
    PrefixHeads(w, "]]");
    if |v| > 1 && w[1] == ']' {
      assert w[1] == rest[0];
      assert v[..2] == "]]";
    }
  }

  /** A run of positions where nothing matches is copied as it stands. */
  lemma {:induction false} LinkSomePlainRun(u: string, names: seq<string>, k: nat)
    requires k <= |u|
    requires forall p :: 0 <= p < k ==> MatchAtStart(u[p..]).None?
    ensures LinkSome(u, names) == u[..k] + LinkSome(u[k..], names)
    decreases k
  {
    if k > 0 {
      assert u[0..] == u;
      ScanAtNoMatch(u, names);
      forall p | 0 <= p < k - 1 ensures MatchAtStart(u[1..][p..]).None? {
        assert u[1..][p..] == u[p + 1..];
      }
      LinkSomePlainRun(u[1..], names, k - 1);
      assert u[1..][k - 1..] == u[k..];
      ConsRun(u, k, LinkSome(u[k..], names));
    } else {
      assert u[..0] == [] && u[0..] == u;
    }
  }

  lemma ConsRun(u: string, k: nat, y: string)
    requires 0 < k <= |u|
    ensures [u[0]] + (u[1..][..k - 1] + y) == u[..k] + y
  {
    assert [u[0]] + u[1..][..k - 1] == u[..k];
  }

  /** `[[` before `u` matches whenever `u` opens with an embed of a name. */
  lemma OpenedEmbed(u: string, n: string)
    requires IsLegacyName(n)
    ensures StartsWith(u, n + "]]") ==> MatchAtStart("[[" + u) == Some(n)
  {
    if StartsWith(u, n + "]]") {
      assert ("[[" + u)[..|Ref(n)|] == "[[" + u[..|n| + 2];
      MatchAtStartComplete("[[" + u, n);
    }
  }

  /**
   A match starting inside the first run of `u` (before its first `]`) makes
   `[[` followed by `u` match too: both names end at that same `]`.
   */
  lemma MatchInRunLifts(u: string, p: nat)
    requires p < RunEnd(u, 0)
    ensures MatchAtStart(u[p..]).Some? ==> MatchAtStart("[[" + u).Some?
  {
    if MatchAtStart(u[p..]).Some? {
      var m := MatchAtStart(u[p..]).value;
      var e := p + 2 + |m|;
      assert u[p..][..|Ref(m)|] == Ref(m);
      forall j | 0 <= j < e ensures u[j] != ']' {
        if p <= j {
          assert u[j] == u[p..][j - p] == Ref(m)[j - p];
          if j >= p + 2 {
            assert Ref(m)[j - p] == m[j - p - 2];
          }
        }
      }
      assert u[e] == Ref(m)[|m| + 2] == ']';
      assert u[e + 1] == Ref(m)[|m| + 3] == ']';
      var name := u[..e];
      assert ']' !in name;
      assert name[|name| - 4..] == m[|m| - 4..] == Ref(m)[|m| - 2..|m| + 2];
      assert IsLegacyName(name);
      assert u[..e + 2] == name + "]]";
      OpenedEmbed(u, name);
    }
  }

  /** When `[[` before `u` does not match, no match starts in the first run of `u`. */
  lemma RunNoMatch(u: string, k: nat)
    requires MatchAtStart("[[" + u).None? && k == RunEnd(u, 0)
    ensures forall p :: 0 <= p < k ==> MatchAtStart(u[p..]).None?
  {
    forall p | 0 <= p < k ensures MatchAtStart(u[p..]).None? {
      MatchInRunLifts(u, p);
    }
  }

  lemma ShortNameNoClose(u: string, names: seq<string>, n: string, k: nat)
    requires k <= |u| && forall j :: 0 <= j < k ==> u[j] != ']'
    requires LinkSome(u, names) == u[..k] + LinkSome(u[k..], names)
    ensures |n| < k ==> !StartsWith(LinkSome(u, names), n + "]]")
  {
    if |n| < k {
      assert LinkSome(u, names)[|n|] == u[|n|];
      assert (n + "]]")[|n|] == ']';
    }
  }

  lemma LongNameNoClose(u: string, names: seq<string>, n: string, k: nat)
    requires ']' !in n && k <= |u| && (k == |u| || u[k] == ']')
    requires LinkSome(u, names) == u[..k] + LinkSome(u[k..], names)
    ensures |n| > k ==> !StartsWith(LinkSome(u, names), n + "]]")
  {
    if |n| > k {
      var w := LinkSome(u[k..], names);
      if k < |u| {
        LinkSomeFirst(u[k..], names);
        assert LinkSome(u, names)[k] == w[0] == ']';
        assert (n + "]]")[k] == n[k] != ']';
      } else {
        assert u[k..] == [];
        assert |LinkSome(u, names)| == k;
      }
    }
  }

  lemma ExactNameClose(u: string, names: seq<string>, n: string, k: nat)
    requires |n| == k <= |u|
    requires LinkSome(u, names) == u[..k] + LinkSome(u[k..], names)
    ensures StartsWith(LinkSome(u, names), n + "]]") ==> StartsWith(u, n + "]]")
  {
    ScanCloses(u[k..], names);
    ExactSplit(u, k, n, LinkSome(u, names), LinkSome(u[k..], names));
  }

  lemma ExactSplit(u: string, k: nat, n: string, l: string, w: string)
    requires |n| == k <= |u| && l == u[..k] + w
    requires StartsWith(w, "]]") ==> StartsWith(u[k..], "]]")
    ensures StartsWith(l, n + "]]") ==> StartsWith(u, n + "]]")
  {
    SplitClose(u[..k], w, n);
    if StartsWith(l, n + "]]") {
      assert u[..k + 2] == u[..k] + u[k..][..2];
    }
  }

  /** After `[[` that starts no match, the scan of the rest does not close an embed of `n`. */
  lemma CloseNeedsEmbed(u: string, names: seq<string>, n: string)
    requires MatchAtStart("[[" + u).None? && IsLegacyName(n)
    ensures !StartsWith(LinkSome(u, names), n + "]]")
  {
    var k := RunEnd(u, 0);
    RunNoMatch(u, k);
    LinkSomePlainRun(u, names, k);
    ShortNameNoClose(u, names, n, k);
    LongNameNoClose(u, names, n, k);
    if |n| == k {
      ExactNameClose(u, names, n, k);
      OpenedEmbed(u, n);
    }
  }

  lemma OpenOpenNoMatch(u: string, names: seq<string>, n: string)
    requires MatchAtStart("[[" + u).None? && IsLegacyName(n)
    ensures !StartsWith("[[" + LinkSome(u, names), Ref(n))
  {
    CloseNeedsEmbed(u, names, n);
    OpenOpenThen(LinkSome(u, names), n);
  }

  lemma OpenThenOther(w: string, n: string)
    requires |w| > 0 && w[0] != '['
    ensures !StartsWith("[" + w, Ref(n))
  {
    assert ("[" + w)[1] == w[0];
  }

  lemma OpenThenRef(m: string, x: string, n: string)
    requires |n| > 0 && '[' !in n
    ensures !StartsWith("[" + (Ref(m) + x), Ref(n))
  {
    assert ("[" + (Ref(m) + x))[2] == '[';
    assert Ref(n)[2] == n[0];
  }

  lemma OpenThenMatch(v: string, names: seq<string>, n: string, m: string)
    requires MatchAtStart(v) == Some(m) && |n| > 0 && '[' !in n
    ensures !StartsWith("[" + LinkSome(v, names), Ref(n))
  {
    ScanAtMatch(v, names, m);
    var rest := LinkSome(v[|Ref(m)|..], names);
    if m in names {
      assert (Link(m) + rest)[0] == '!';
      OpenThenOther(Link(m) + rest, n);
    } else {
      OpenThenRef(m, rest, n);
    }
  }

  lemma OpenThenNoMatch(v: string, names: seq<string>, n: string)
    requires |v| > 0 && v[0] == '[' && MatchAtStart(v).None? && MatchAtStart("[" + v).None?
    requires IsLegacyName(n)
    ensures !StartsWith("[" + LinkSome(v, names), Ref(n))
  {
    ScanAtNoMatch(v, names);
    OpenCons(v, LinkSome(v, names), LinkSome(v[1..], names));
    OpenOpenNoMatch(v[1..], names, n);
  }

  /** After a `[` that starts no match, the scan does not begin an embed of `n`. */
  lemma OpenThenScan(v: string, names: seq<string>, n: string)
    requires |v| > 0 && MatchAtStart("[" + v).None? && IsLegacyName(n) && '[' !in n
    ensures !StartsWith("[" + LinkSome(v, names), Ref(n))
  {
    if v[0] != '[' {
      LinkSomeFirst(v, names);
      OpenThenOther(LinkSome(v, names), n);
    } else if MatchAtStart(v).Some? {
      OpenThenMatch(v, names, n, MatchAtStart(v).value);
    } else {
      OpenThenNoMatch(v, names, n);
    }
  }

  /** Where nothing matches, the copied character and the scan after it do not begin an embed of `n`. */
  lemma NoRefAtScanStart(s: string, names: seq<string>, n: string)
    requires |s| > 0 && MatchAtStart(s).None? && IsLegacyName(n) && '[' !in n
    ensures !StartsWith([s[0]] + LinkSome(s[1..], names), Ref(n))
  {
    var r := Ref(n);
    if s[0] != '[' || |s| == 1 {
      assert r[0] == '[' && |r| > 1;
      assert |s| == 1 ==> s[1..] == [];
    } else {
      assert s == "[" + s[1..];
      OpenThenScan(s[1..], names, n);
    }
  }

  /** At a position of a text where an embed starts, the text continues with `[[`. */
  lemma AtOpenPair(t: string, j: nat, n: string)
    ensures At(t, j, Ref(n)) ==> j <= |t| && StartsWith(t[j..], "[[")
  {
    if At(t, j, Ref(n)) {
      assert t[j..][..2] == t[j..j + |Ref(n)|][..2] == Ref(n)[..2];
    }
  }

  /** No `[[` starts inside a link. */
  lemma LinkNoOpenPair(m: string, x: string, j: nat)
    requires '[' !in m && j < |Link(m)|
    ensures !StartsWith((Link(m) + x)[j..], "[[")
  {
    var e := EncodeSpaces(m);
    var t := Link(m) + x;
    assert t == LinkFront + (e + ")" + x);
    PrefixHeads(t[j..], "[[");
    if j < |LinkFront| {
      LinkFrontIsPlain(e + ")" + x);
    } else if j < |LinkFront| + |e| {
      assert t[j..][0] == e[j - |LinkFront|];
      assert e[j - |LinkFront|] in e;
    } else {
      assert t[j..][0] == ')';
    }
  }

  /** No embed of a name starts inside a link or runs out of it. */
  lemma LinkTokenClean(m: string, n: string, x: string)
    requires '[' !in m
    ensures forall j :: 0 <= j < |Link(m)| ==> !At(Link(m) + x, j, Ref(n))
  {
    forall j | 0 <= j < |Link(m)| ensures !At(Link(m) + x, j, Ref(n)) {
      AtOpenPair(Link(m) + x, j, n);
      LinkNoOpenPair(m, x, j);
    }
  }

  /** Past its first character, an embed of a name without `[` holds no `[[`. */
  lemma RefNoOpenPair(m: string, x: string, j: nat)
    requires '[' !in m && |m| > 0 && 0 < j < |Ref(m)|
    ensures !StartsWith((Ref(m) + x)[j..], "[[")
  {
    var t := Ref(m) + x;
    PrefixHeads(t[j..], "[[");
    if j == 1 {
      assert t[j..][1] == m[0];
    } else if j < |m| + 2 {
      assert t[j..][0] == m[j - 2];
    } else {
      assert t[j..][0] == ']';
    }
  }

  /** Inside an embed of another name, no embed of `n` starts. */
  lemma RefTokenClean(m: string, n: string, x: string)
    requires IsLegacyName(m) && IsLegacyName(n) && '[' !in m && m != n
    ensures forall j :: 0 <= j < |Ref(m)| ==> !At(Ref(m) + x, j, Ref(n))
  {
    var t := Ref(m) + x;
    AtZeroIff(t, Ref(n));
    assert t[..|Ref(m)|] == Ref(m);
    MatchAtStartComplete(t, m);
    MatchAtStartComplete(t, n);
    forall j | 0 < j < |Ref(m)| ensures !At(t, j, Ref(n)) {
      AtOpenPair(t, j, n);
      RefNoOpenPair(m, x, j);
    }
  }

  /**
   One call of `replace` (line 24) on the partly rewritten text turns the
   embeds of one more name into links, when no match hides an embed.
   */
  lemma {:induction false} ReplaceStep(s: string, names: seq<string>, n: string)
    requires MatchesPlain(s) && IsLegacyName(n) && '[' !in n
    ensures ReplaceAll(LinkSome(s, names), Ref(n), Link(n)) == LinkSome(s, names + [n])
    decreases |s|
  {
    if |s| > 0 {
      match MatchAtStart(s)
      case Some(m) =>
        var rest := s[|Ref(m)|..];
        var x := LinkSome(rest, names);
        MatchesPlainAtMatch(s, m);
        ScanAtMatch(s, names, m);
        ScanAtMatch(s, names + [n], m);
        ReplaceStep(rest, names, n);
        if m in names {
          LinkTokenClean(m, n, x);
          ReplaceAllCleanPrefix(Link(m), x, Ref(n), Link(n));
        } else if m == n {
          ReplaceAllAtStart(x, Ref(n), Link(n));
        } else {
          RefTokenClean(m, n, x);
          ReplaceAllCleanPrefix(Ref(m), x, Ref(n), Link(n));
        }
      case None =>
        var x := LinkSome(s[1..], names);
        MatchesPlainAtNoMatch(s);
        ScanAtNoMatch(s, names);
        ScanAtNoMatch(s, names + [n]);
        NoRefAtScanStart(s, names, n);
        AtZeroIff([s[0]] + x, Ref(n));
        ReplaceAllKeep([s[0]] + x, Ref(n), Link(n));
        assert ([s[0]] + x)[1..] == x;
        ReplaceStep(s[1..], names, n);
    }
  }

  /** The loop over `images` (lines 21-24) rewrites the embeds of every name in it. */
  lemma {:induction false} RewriteAllLinkSome(s: string, names: seq<string>, images: seq<string>)
    requires MatchesPlain(s)
    requires forall k :: 0 <= k < |images| ==> IsLegacyName(images[k]) && '[' !in images[k]
    ensures RewriteAll(LinkSome(s, names), images) == LinkSome(s, names + images)
    decreases |images|
  {
    if |images| == 0 {
      assert names + images == names;
    } else {
      var img := images[0];
      ReplaceStep(s, names, img);
      RewriteAllFirst(LinkSome(s, names), images, LinkSome(s, names + [img]));
      RewriteAllLinkSome(s, names + [img], images[1..]);
      AppendFirst(names, images);
    }
  }

  lemma RewriteAllFirst(t: string, images: seq<string>, t1: string)
    requires |images| > 0 && ReplaceAll(t, Ref(images[0]), Link(images[0])) == t1
    ensures RewriteAll(t, images) == RewriteAll(t1, images[1..])
  {
  }

  /** With no name handled yet, the scan gives back its input. */
  lemma {:induction false} LinkSomeNone(s: string)
    ensures LinkSome(s, []) == s
    decreases |s|
  {
    if |s| > 0 {
      match MatchAtStart(s)
      case Some(m) =>
        ScanAtMatch(s, [], m);
        LinkSomeNone(s[|Ref(m)|..]);
        assert s == s[..|Ref(m)|] + s[|Ref(m)|..];
      case None =>
        ScanAtNoMatch(s, []);
        LinkSomeNone(s[1..]);
        assert s == [s[0]] + s[1..];
    }
  }

  /** Once every name `findall` returns is handled, the scan is the whole rewrite. */
  lemma {:induction false} LinkSomeAll(s: string, names: seq<string>)
    requires forall m :: m in FindAll(s) ==> m in names
    ensures LinkSome(s, names) == LinkEmbeds(s)
    decreases |s|
  {
    if |s| > 0 {
      match MatchAtStart(s)
      case Some(m) =>
        ScanAtMatch(s, names, m);
        LinkSomeAll(s[|Ref(m)|..], names);
      case None =>
        ScanAtNoMatch(s, names);
        LinkSomeAll(s[1..], names);
    }
  }

  /**
   When no name `findall` returns holds `[`, the loop of lines 21-24 writes
   exactly the one-scan rewrite: each matched embed becomes its link and
   nothing else changes.
   */
  lemma RewriteIsLinkEmbeds(s: string)
    requires MatchesPlain(s)
    ensures RewriteAll(s, FindAll(s)) == LinkEmbeds(s)
  {
    var images := FindAll(s);
    forall k | 0 <= k < |images| ensures IsLegacyName(images[k]) && '[' !in images[k] {
      assert images[k] in images;
    }
    LinkSomeNone(s);
    RewriteAllLinkSome(s, [], images);
    assert [] + images == images;
    LinkSomeAll(s, images);
  }

  /** Text with no `[` is copied unchanged. */
  lemma {:induction false} LinkEmbedsPlain(s: string)
    requires '[' !in s
    ensures LinkEmbeds(s) == s
    decreases |s|
  {
    if |s| > 0 {
      assert MatchAtStart(s).None? by {
        assert s[0] in s;
      }
      assert '[' !in s[1..] by {
        assert forall c :: c in s[1..] ==> c in s;
      }
      LinkEmbedsPlain(s[1..]);
      assert s == [s[0]] + s[1..];
    }
  }

  /** An embed at the start becomes its link, and the scan goes on after it. */
  lemma LinkEmbedsAtEmbed(n: string, y: string)
    requires IsLegacyName(n)
    ensures LinkEmbeds(Ref(n) + y) == Link(n) + LinkEmbeds(y)
  {
    var s := Ref(n) + y;
    assert s[..|Ref(n)|] == Ref(n);
    MatchAtStartComplete(s, n);
    assert s[|Ref(n)|..] == y;
  }

  /** Where no embed is matched, the character is copied. */
  lemma LinkEmbedsNoEmbed(s: string)
    requires |s| > 0 && MatchAtStart(s).None?
    ensures LinkEmbeds(s) == [s[0]] + LinkEmbeds(s[1..])
  {
  }

  /** What processing one post does: the text written back (always) and the images copied. */
  datatype PostUpdate = PostUpdate(written: string, copied: seq<string>)

  /** One iteration of the loop over posts (lines 12-36). */
  function ProcessPost(content: string, exists_: string -> bool): (r: PostUpdate)
    ensures (forall name :: IsLegacyName(name) ==> !Occurs(Ref(name), content)) ==>
      r == PostUpdate(content, [])
    ensures forall n :: n in r.copied ==> IsLegacyName(n) && Occurs(Ref(n), content) && exists_(n)
    ensures forall n :: n in r.copied <==> n in FindAll(content) && exists_(n)
    ensures MatchesPlain(content) ==> r.written == LinkEmbeds(content)
  {
    var images := FindAll(content);
    FindAllEmptyIff(content);
    assert MatchesPlain(content) ==> RewriteAll(content, images) == LinkEmbeds(content) by {
      if MatchesPlain(content) {
        RewriteIsLinkEmbeds(content);
      }
    }
    PostUpdate(RewriteAll(content, images), Copies(images, exists_))
  }

  /**
   A post with a single embed and no other `[`: the embed becomes its link,
   the text on either side is written back as it was, and the image is
   copied exactly when it exists.
   */
  lemma ProcessSingleEmbed(x: string, n: string, y: string, exists_: string -> bool)
    requires IsLegacyName(n) && '[' !in x && '[' !in y
    ensures ProcessPost(x + Ref(n) + y, exists_) == PostUpdate(x + Link(n) + y, if exists_(n) then [n] else [])
  {
    var s := x + Ref(n) + y;
    FindAllSingle(x, n, y);
    NoBracketNoOccurs(y, n);
    assert Ref(n)[0] == '[';
    ReplaceAfterPlain(x, Ref(n), y, Link(n));
    assert [n][1..] == [];
    assert RewriteAll(s, [n]) == RewriteAll(x + Link(n) + y, []);
    assert Copies([n], exists_) == (if exists_(n) then [n] else []) by {
      assert Copies([n][1..], exists_) == [];
    }
  }

  /** Around a single embed, text without `[` adds no match. */
  lemma FindAllSingle(x: string, n: string, y: string)
    requires IsLegacyName(n) && '[' !in x && '[' !in y
    ensures FindAll(x + Ref(n) + y) == [n]
  {
    var t := Ref(n) + y;
    assert x + Ref(n) + y == x + t;
    forall k | 0 <= k < |x| ensures !StartsWith((x + t)[k..], "[[") {
      assert (x + t)[k..][0] == x[k];
    }
    FindAllSkipsPlainText(x, t);
    MatchAtStartComplete(t, n);
    assert t[|Ref(n)|..] == y;
    NoBracketNoRef(y);
  }

  /** A pattern opening with `[`, after text without `[` and before text free of it, is replaced once. */
  lemma ReplaceAfterPlain(x: string, pat: string, y: string, rep: string)
    requires |pat| > 0 && pat[0] == '[' && '[' !in x && !Occurs(pat, y)
    ensures ReplaceAll(x + pat + y, pat, rep) == x + rep + y
  {
    var s := x + pat + y;
    assert s[|x|..|x| + |pat|] == pat;
    forall j | 0 <= j < |x| ensures !At(s, j, pat) {
      if j + |pat| <= |s| {
        assert s[j..j + |pat|][0] == s[j] == x[j];
      }
    }
    ReplaceAllFirst(s, pat, rep, |x|);
    assert s[..|x|] == x && s[|x| + |pat|..] == y;
    ReplaceAllAbsent(y, pat, rep);
  }

  /** The rewrite does not look at which images exist: only the copying does. */
  lemma RewriteIgnoresExistence(content: string, e1: string -> bool, e2: string -> bool)
    ensures ProcessPost(content, e1).written == ProcessPost(content, e2).written
  {
  }

  /** The link is an image embed `![...](...)`. */
  lemma LinkIsImageEmbed(name: string)
    ensures Link(name)[..2] == "![" && Link(name)[|Link(name)| - 1] == ')'
  {
  }

  /** Text without `[` holds no embed. */
  lemma NoBracketNoOccurs(t: string, name: string)
    requires '[' !in t
    ensures !Occurs(Ref(name), t)
  {
    forall j | 0 <= j <= |t| ensures !At(t, j, Ref(name)) {
      if j + |Ref(name)| <= |t| {
        assert t[j..j + |Ref(name)|][0] == t[j];
      }
    }
  }

  lemma NoBracketNoRef(t: string)
    requires '[' !in t
    ensures FindAll(t) == []
  {
    forall name | IsLegacyName(name) ensures !Occurs(Ref(name), t) {
      NoBracketNoOccurs(t, name);
    }
    FindAllEmptyIff(t);
  }

  /** No `[[` starts in `x`: the search skips `x` entirely. */
  lemma {:induction false} FindAllSkipsPlainText(x: string, t: string)
    requires forall k :: 0 <= k < |x| ==> !StartsWith((x + t)[k..], "[[")
    ensures FindAll(x + t) == FindAll(t)
    decreases |x|
  {
    if |x| == 0 {
      assert x + t == t;
    } else {
      var s := x + t;
      assert s[0..] == s;
      assert s[1..] == x[1..] + t;
      forall k | 0 <= k < |x[1..]| ensures !StartsWith((x[1..] + t)[k..], "[[") {
        assert (x[1..] + t)[k..] == s[k + 1..];
      }
      FindAllSkipsPlainText(x[1..], t);
    }
  }

  /** The text the link puts in front of the file name. */
  const LinkFront: string := "![Image Description](/images/"

  lemma LinkFrontIsPlain(t: string)
    ensures forall k :: 0 <= k < |LinkFront| ==> !StartsWith((LinkFront + t)[k..], "[[")
  {
    forall k | 0 <= k < |LinkFront| ensures !StartsWith((LinkFront + t)[k..], "[[") {
      var w := (LinkFront + t)[k..];
      assert w[0] == LinkFront[k];
      if k + 1 < |LinkFront| {
        assert w[1] == LinkFront[k + 1];
      }
    }
  }

  /** A `.png` name with no brackets and no spaces, such as `y.png`. */
  predicate IsPlainName(x: string) {
    EndsWith(x, ".png") && '[' !in x && ']' !in x && ' ' !in x
  }

  /** On `[[[[a]]b]]`, `findall` returns the one name `[[a`: its match swallows the inner `[[`. */
  lemma FindAllOnNestedEmbed(a: string, b: string)
    requires IsPlainName(a) && IsPlainName(b)
    ensures IsLegacyName("[[" + a)
    ensures FindAll(Ref("[[" + a) + b + "]]") == ["[[" + a]
  {
    var n1 := "[[" + a;
    var tail := b + "]]";
    var s0 := Ref(n1) + tail;
    assert s0 == Ref(n1) + b + "]]";
    assert IsLegacyName(n1) by {
      assert n1[|n1| - 4..] == a[|a| - 4..];
    }
    MatchAtStartComplete(s0, n1);
    assert s0[..|Ref(n1)|] == Ref(n1);
    assert s0[|Ref(n1)|..] == tail;
    NoBracketNoRef(tail);
  }

  /**
   The first run on `[[[[a]]b]]` (`a`, `b` plain names) finds the name `[[a`
   and rewrites its embed; what it writes ends in `[[a)b]]`.
   */
  lemma FirstRunOnNestedEmbed(a: string, b: string, exists_: string -> bool)
    requires IsPlainName(a) && IsPlainName(b)
    ensures FindAll(Ref("[[" + a) + b + "]]") == ["[[" + a]
    ensures ProcessPost(Ref("[[" + a) + b + "]]", exists_).written == LinkFront + Ref(a + ")" + b)
  {
    FindAllOnNestedEmbed(a, b);
    FirstRunRewrite(a, b);
    ProcessPostWrites(Ref("[[" + a) + b + "]]", exists_);
  }

  lemma FirstRunRewrite(a: string, b: string)
    requires IsPlainName(a) && IsPlainName(b)
    ensures RewriteAll(Ref("[[" + a) + b + "]]", ["[[" + a]) == LinkFront + Ref(a + ")" + b)
  {
    var n1 := "[[" + a;
    var tail := b + "]]";
    var s0 := Ref(n1) + tail;
    assert s0 == Ref(n1) + b + "]]";
    ReplaceAllAtStart(tail, Ref(n1), Link(n1));
    NoBracketNoOccurs(tail, n1);
    ReplaceAllAbsent(tail, Ref(n1), Link(n1));
    assert EncodeSpaces(n1) == n1;
    assert [n1][1..] == [];
    calc {
      RewriteAll(s0, [n1]);
      RewriteAll(ReplaceAll(s0, Ref(n1), Link(n1)), []);
      Link(n1) + tail;
      (LinkFront + n1 + ")") + (b + "]]");
      { ConcatNested(LinkFront, a, b); }
      LinkFront + Ref(a + ")" + b);
    }
  }

  lemma ProcessPostWrites(content: string, exists_: string -> bool)
    ensures ProcessPost(content, exists_).written == RewriteAll(content, FindAll(content))
  {
  }

  /**
   `findall` is not complete: in `[[[[a]]b]]` the embed `[[a]]` of the valid
   name `a` occurs, but the match of `[[a` swallows it and `a` is not found.
   */
  lemma FindAllMissesInnerEmbed(a: string, b: string)
    requires IsPlainName(a) && IsPlainName(b)
    ensures IsLegacyName(a)
    ensures Occurs(Ref(a), Ref("[[" + a) + b + "]]")
    ensures a !in FindAll(Ref("[[" + a) + b + "]]")
  {
    InnerEmbedOccurs(a, b);
    FindAllOnNestedEmbed(a, b);
    assert |a| != |"[[" + a|;
  }

  /** The embed of `a` sits at index 2 of `[[[[a]]b]]`. */
  lemma InnerEmbedOccurs(a: string, b: string)
    ensures Occurs(Ref(a), Ref("[[" + a) + b + "]]")
  {
    var s0 := Ref("[[" + a) + b + "]]";
    assert s0 == "[[" + Ref(a) + b + "]]";
    assert s0[2..2 + |Ref(a)|] == Ref(a);
    assert At(s0, 2, Ref(a));
  }

  /** `[[a` closed by `)`, followed by `b]]`, reads as the embed of `a)b`. */
  lemma ConcatNested(front: string, a: string, b: string)
    ensures (front + ("[[" + a) + ")") + (b + "]]") == front + Ref(a + ")" + b)
  {
  }

  /** In what the first run wrote, the link's tail `[[a)` and the old text form the embed of `a)b`. */
  lemma RewrittenNestedEmbedHoldsNewEmbed(a: string, b: string)
    requires IsPlainName(a) && IsPlainName(b)
    ensures FindAll(LinkFront + Ref(a + ")" + b)) == [a + ")" + b]
  {
    var n2 := a + ")" + b;
    var t := Ref(n2);
    assert IsLegacyName(n2) by {
      assert n2[|n2| - 4..] == b[|b| - 4..];
    }
    MatchAtStartComplete(t, n2);
    assert t[..|Ref(n2)|] == t;
    assert t[|Ref(n2)|..] == [];
    assert FindAll(t) == [n2];
    LinkFrontIsPlain(t);
    FindAllSkipsPlainText(LinkFront, t);
  }

  /** An embed right after the plain link front is the first occurrence, and the only one. */
  lemma ReplaceAfterFront(t: string, rep: string)
    requires StartsWith(t, "[[")
    ensures ReplaceAll(LinkFront + t, t, rep) == LinkFront + rep
  {
    var first := LinkFront + t;
    var i := |LinkFront|;
    assert first[i..i + |t|] == t;
    LinkFrontIsPlain(t);
    forall j | 0 <= j < i ensures !At(first, j, t) {
      NotAtWithoutOpening(first, j, t);
    }
    ReplaceAllFirst(first, t, rep, i);
    assert first[i + |t|..] == [];
    assert first[..i] == LinkFront;
  }

  lemma NotAtWithoutOpening(s: string, j: nat, t: string)
    requires StartsWith(t, "[[") && j <= |s| && !StartsWith(s[j..], "[[")
    ensures !At(s, j, t)
  {
    if j + |t| <= |s| {
      assert s[j..j + |t|][..2] == s[j..][..2];
    }
  }

  /** The second run rewrites that new embed. */
  lemma SecondRunOnNestedEmbed(a: string, b: string, exists_: string -> bool)
    requires IsPlainName(a) && IsPlainName(b)
    ensures ProcessPost(LinkFront + Ref(a + ")" + b), exists_).written == LinkFront + Link(a + ")" + b)
  {
    var n2 := a + ")" + b;
    var t := Ref(n2);
    var first := LinkFront + t;
    RewrittenNestedEmbedHoldsNewEmbed(a, b);
    assert t[..2] == "[[";
    ReplaceAfterFront(t, Link(n2));
    assert [n2][1..] == [];
    calc {
      ProcessPost(first, exists_).written;
      RewriteAll(first, [n2]);
      RewriteAll(ReplaceAll(first, t, Link(n2)), []);
      LinkFront + Link(n2);
    }
  }

  /**
   Running the script twice is not the same as running it once: for the post
   `[[[[a]]b]]` the first run rewrites the embed `[[[[a]]`, and the link it
   leaves ends in `[[a)` which, with the text after it, forms a new embed
   `[[a)b]]` that the second run rewrites again.
   */
  lemma SecondRunRewritesAgain(a: string, b: string, exists_: string -> bool)
    requires IsPlainName(a) && IsPlainName(b)
    ensures var first := ProcessPost(Ref("[[" + a) + b + "]]", exists_).written;
      ProcessPost(first, exists_).written != first
  {
    FirstRunOnNestedEmbed(a, b, exists_);
    SecondRunOnNestedEmbed(a, b, exists_);
    var n2 := a + ")" + b;
    assert |Ref(n2)| < |Link(n2)|;
  }

  /** An instance: `y.png` and `z.png`. */
  lemma SecondRunRewritesAgainExample()
    ensures var first := ProcessPost("[[[[y.png]]z.png]]", _ => false).written;
      ProcessPost(first, _ => false).written != first
  {
    var a, b := "y.png", "z.png";
    assert IsPlainName(a) by {
      assert a[|a| - 4..] == ".png";
    }
    assert IsPlainName(b) by {
      assert b[|b| - 4..] == ".png";
    }
    assert Ref("[[" + a) + b + "]]" == "[[[[y.png]]z.png]]";
    SecondRunRewritesAgain(a, b, _ => false);
  }

  // ---------------------------------------------------------------------------
  // Without the condition on the names, the loop and the scan part ways
  // ---------------------------------------------------------------------------

  /** `[[a]] [[[[a]]`: an embed of `a`, then an embed of the name `[[a`. */
  function EmbedThenNested(a: string): string {
    Ref(a) + " [[" + Ref(a)
  }

  /** At a position where `pat` occurs, the text holds the characters of `pat`. */
  lemma AtChar(t: string, j: int, pat: string, i: int)
    ensures At(t, j, pat) && 0 <= i < |pat| ==> t[j + i] == pat[i]
  {
    if At(t, j, pat) && 0 <= i < |pat| {
      assert t[j..j + |pat|][i] == t[j + i];
    }
  }

  /** On `[[a]] [[[[a]]`, `findall` returns `a` and then `[[a`. */
  lemma EmbedThenNestedFindAll(a: string)
    requires IsPlainName(a)
    ensures FindAll(EmbedThenNested(a)) == [a, "[[" + a]
  {
    var s := EmbedThenNested(a);
    var rest := " [[" + Ref(a);
    assert s == Ref(a) + rest;
    FindAllAtEmbed(a, rest);
    NestedAfterSpace(a);
  }

  /** An embed at the start is found first, and `findall` goes on after it. */
  lemma FindAllAtEmbed(n: string, y: string)
    requires IsLegacyName(n)
    ensures FindAll(Ref(n) + y) == [n] + FindAll(y)
  {
    var s := Ref(n) + y;
    assert s[..|Ref(n)|] == Ref(n);
    MatchAtStartComplete(s, n);
    ScanAtMatch(s, [], n);
    assert s[|Ref(n)|..] == y;
  }

  lemma NestedName(a: string)
    requires IsPlainName(a)
    ensures IsLegacyName(a) && IsLegacyName("[[" + a)
  {
    var n := "[[" + a;
    assert n[|n| - 4..] == a[|a| - 4..];
  }

  lemma NestedAfterSpace(a: string)
    requires IsPlainName(a)
    ensures FindAll(" [[" + Ref(a)) == ["[[" + a]
  {
    var n := "[[" + a;
    assert " [[" + Ref(a) == [' '] + (Ref(n) + []);
    AfterPlainChar(' ', Ref(n) + []);
    NestedName(a);
    FindAllAtEmbed(n, []);
  }

  /** A character other than `[` starts no match: it is copied and skipped. */
  lemma AfterPlainChar(c: char, t: string)
    requires c != '['
    ensures FindAll([c] + t) == FindAll(t)
    ensures LinkEmbeds([c] + t) == [c] + LinkEmbeds(t)
  {
    MatchOpens([c] + t);
    ScanAtNoMatch([c] + t, []);
    LinkEmbedsNoEmbed([c] + t);
    assert ([c] + t)[1..] == t;
  }

  /** Replacing `[[a]]` first also rewrites the inside of the embed of `[[a`. */
  lemma EmbedThenNestedFirstReplace(a: string)
    requires IsPlainName(a)
    ensures ReplaceAll(EmbedThenNested(a), Ref(a), Link(a)) == Link(a) + (" [[" + Link(a))
  {
    var x := " [[";
    var t := x + Ref(a);
    assert EmbedThenNested(a) == Ref(a) + t;
    ReplaceAllAtStart(t, Ref(a), Link(a));
    OpenBeforeEmbedClean(a);
    ReplaceAllCleanPrefix(x, Ref(a), Ref(a), Link(a));
    assert Ref(a) + [] == Ref(a);
    ReplaceAllAtStart([], Ref(a), Link(a));
    assert Link(a) + [] == Link(a);
  }

  /** In ` [[[[a]]`, no embed of `a` starts before the last `[[`. */
  lemma OpenBeforeEmbedClean(a: string)
    requires IsPlainName(a)
    ensures forall j :: 0 <= j < 3 ==> !At(" [[" + Ref(a), j, Ref(a))
  {
    var t := " [[" + Ref(a);
    forall j | 0 <= j < 3 ensures !At(t, j, Ref(a)) {
      AtChar(t, j, Ref(a), 0);
      AtChar(t, j, Ref(a), 2);
      assert Ref(a)[2] == a[0] && a[0] in a;
    }
  }

  /** In ` [[` followed by a link, no embed starts before the link. */
  lemma OpenBeforeLinkClean(a: string, n: string)
    requires |n| > 0 && n[0] == '['
    ensures forall j :: 0 <= j < 3 ==> !At(" [[" + Link(a), j, Ref(n))
  {
    var t := " [[" + Link(a);
    forall j | 0 <= j < 3 ensures !At(t, j, Ref(n)) {
      AtChar(t, j, Ref(n), 0);
      AtChar(t, j, Ref(n), 3 - j);
      assert t[3] == Link(a)[0] == '!';
      assert Ref(n)[2] == n[0];
    }
  }

  /** What is left after the first replacement holds no embed of `[[a`. */
  lemma EmbedThenNestedSecondReplace(a: string)
    requires IsPlainName(a)
    ensures ReplaceAll(Link(a) + (" [[" + Link(a)), Ref("[[" + a), Link("[[" + a)) == Link(a) + (" [[" + Link(a))
  {
    var n := "[[" + a;
    var x := " [[";
    var t := x + Link(a);
    LinkTokenClean(a, n, t);
    ReplaceAllCleanPrefix(Link(a), t, Ref(n), Link(n));
    OpenBeforeLinkClean(a, n);
    ReplaceAllCleanPrefix(x, Link(a), Ref(n), Link(n));
    LinkTokenClean(a, n, []);
    assert Link(a) + [] == Link(a);
    assert !At(Link(a), |Link(a)|, Ref(n));
    ReplaceAllAbsent(Link(a), Ref(n), Link(n));
  }

  /** The loop of lines 21-24 leaves `[[` in front of the second link. */
  lemma EmbedThenNestedLoop(a: string)
    requires IsPlainName(a)
    ensures RewriteAll(EmbedThenNested(a), [a, "[[" + a]) == Link(a) + " [[" + Link(a)
  {
    var n := "[[" + a;
    var t1 := Link(a) + (" [[" + Link(a));
    EmbedThenNestedFirstReplace(a);
    EmbedThenNestedSecondReplace(a);
    RewriteAllFirst(EmbedThenNested(a), [a, n], t1);
    assert [a, n][1..] == [n];
    RewriteAllFirst(t1, [n], t1);
    assert [n][1..] == [];
  }

  /** The scan turns both matches into links. */
  lemma EmbedThenNestedScan(a: string)
    requires IsPlainName(a)
    ensures LinkEmbeds(EmbedThenNested(a)) == Link(a) + " " + Link("[[" + a)
  {
    var n := "[[" + a;
    var rest := [' '] + (Ref(n) + []);
    assert EmbedThenNested(a) == Ref(a) + rest;
    NestedName(a);
    LinkEmbedsAtEmbed(a, rest);
    AfterPlainChar(' ', Ref(n) + []);
    LinkEmbedsAtEmbed(n, []);
    assert Link(n) + LinkEmbeds([]) == Link(n);
  }

  /**
   The condition of `RewriteIsLinkEmbeds` is needed: on `[[a]] [[[[a]]` the
   name `[[a` holds `[`, and the text written differs from the scan's at
   the character after the first link and its space.
   */
  lemma LoopDiffersFromScan(a: string, exists_: string -> bool)
    requires IsPlainName(a)
    ensures !MatchesPlain(EmbedThenNested(a))
    ensures ProcessPost(EmbedThenNested(a), exists_).written != LinkEmbeds(EmbedThenNested(a))
  {
    var n := "[[" + a;
    EmbedThenNestedFindAll(a);
    assert n in FindAll(EmbedThenNested(a)) && n[0] == '[';
    EmbedThenNestedLoop(a);
    EmbedThenNestedScan(a);
    ProcessPostWrites(EmbedThenNested(a), exists_);
    var k := |Link(a)| + 1;
    assert (Link(a) + " [[" + Link(a))[k] == '[';
    assert (Link(a) + " " + Link(n))[k] == Link(n)[0] == '!';
  }
}

=== FILE: options.dfy ===
/** An optional value: Python's `None` or a present value. */
module Options {

  datatype Option<+T> = None | Some(value: T)
}

=== FILE: strings.dfy ===
/**
 Python `str` primitives used by the blog scripts, over `seq<char>`:
 `isspace`/`strip`, `startswith`/`endswith`, `find`, `split(sep, maxsplit)`,
 `sep.join(parts)` and `replace(old, new)`.
 */
module Strings {
  import opened Options

  /** ASCII upper-casing: `a`-`z` to `A`-`Z`, every other character kept. */
  function ToUpper(c: char): char {
    if 'a' <= c <= 'z' then (c as int - 32) as char else c
  }

  /** ASCII lower-casing: `A`-`Z` to `a`-`z`, every other character kept. */
  function ToLower(c: char): char {
    if 'A' <= c <= 'Z' then (c as int + 32) as char else c
  }

  /** Python's `str.isspace()` character set (also what `\s` matches in a `str` regex). */
  predicate IsSpace(c: char) {
    || ('\t' <= c <= '\r')
    || ('\U{1c}' <= c <= ' ')
    || c == '\U{85}' || c == '\U{a0}' || c == '\U{1680}'
    || ('\U{2000}' <= c <= '\U{200a}')
    || c == '\U{2028}' || c == '\U{2029}' || c == '\U{202f}' || c == '\U{205f}' || c == '\U{3000}'
  }

  predicate StartsWith(s: string, prefix: string) {
    |prefix| <= |s| && s[..|prefix|] == prefix
  }

  predicate EndsWith(s: string, suffix: string) {
    |suffix| <= |s| && s[|s| - |suffix|..] == suffix
  }

  /** Python `s.lstrip()`: drop leading whitespace. */
  function LStrip(s: string): (r: string)
    ensures |r| <= |s| && r == s[|s| - |r|..]
    ensures forall i :: 0 <= i < |s| - |r| ==> IsSpace(s[i])
    ensures |r| > 0 ==> !IsSpace(r[0])
  {
    if |s| > 0 && IsSpace(s[0]) then LStrip(s[1..]) else s
  }

  /** Python `s.rstrip()`: drop trailing whitespace. */
  function RStrip(s: string): (r: string)
    ensures |r| <= |s| && r == s[..|r|]
    ensures forall i :: |r| <= i < |s| ==> IsSpace(s[i])
    ensures |r| > 0 ==> !IsSpace(r[|r| - 1])
  {
    if |s| > 0 && IsSpace(s[|s| - 1]) then RStrip(s[..|s| - 1]) else s
  }

  /** Python `s.strip()`. */
  function Strip(s: string): string {
    RStrip(LStrip(s))
  }

  /** `s.strip()` is empty exactly when every character of `s` is whitespace. */
  lemma StripEmptyIff(s: string)
    ensures Strip(s) == [] <==> forall i :: 0 <= i < |s| ==> IsSpace(s[i])
  {
    var l := LStrip(s);
    if Strip(s) != [] {
      var r := Strip(s);
      assert r[0] == l[0] == s[|s| - |l|];
    }
  }

  /** A string that neither starts nor ends with whitespace is its own strip. */
  lemma StripTrimmed(s: string)
    requires |s| > 0 && !IsSpace(s[0]) && !IsSpace(s[|s| - 1])
    ensures Strip(s) == s
  {
  }

  /** `pat` occurs in `s` starting at index `i`. */
  predicate At(s: string, i: int, pat: string) {
    0 <= i && i + |pat| <= |s| && s[i..i + |pat|] == pat
  }

  /** Python `pat in s`. */
  predicate Occurs(pat: string, s: string) {
    exists i :: 0 <= i <= |s| && At(s, i, pat)
  }

  lemma AtSuffix(s: string, k: nat, j: int, pat: string)
    requires k <= |s| && 0 <= j
    ensures At(s[k..], j, pat) <==> At(s, j + k, pat)
  {
    if j + |pat| <= |s| - k {
      assert s[k..][j..j + |pat|] == s[j + k..j + k + |pat|];
    }
  }

  lemma AtPrefix(s: string, k: nat, j: int, pat: string)
    requires k <= |s|
    ensures At(s[..k], j, pat) ==> At(s, j, pat)
  {
    if At(s[..k], j, pat) {
      assert s[..k][j..j + |pat|] == s[j..j + |pat|];
    }
  }

  lemma OccursInSuffix(s: string, k: nat, pat: string)
    requires k <= |s|
    ensures Occurs(pat, s[k..]) ==> Occurs(pat, s)
  {
    if Occurs(pat, s[k..]) {
      var j :| 0 <= j <= |s[k..]| && At(s[k..], j, pat);
      AtSuffix(s, k, j, pat);
    }
  }

  lemma OccursInPrefix(s: string, k: nat, pat: string)
    requires k <= |s|
    ensures Occurs(pat, s[..k]) ==> Occurs(pat, s)
  {
    if Occurs(pat, s[..k]) {
      var j :| 0 <= j <= k && At(s[..k], j, pat);
      AtPrefix(s, k, j, pat);
    }
  }

  /** An occurrence of `pat` in `x + y` that starts in `x` (its first `i` characters) and ends in `y`. */
  predicate StraddleAt(pat: string, x: string, y: string, i: int) {
    && 0 < i < |pat| && i <= |x| && |pat| - i <= |y|
    && x[|x| - i..] == pat[..i] && y[..|pat| - i] == pat[i..]
  }

  /** An occurrence in a concatenation lies in one part or straddles the seam. */
  lemma AtConcatCases(pat: string, x: string, y: string, j: int)
    ensures At(x + y, j, pat) ==>
      At(x, j, pat) || At(y, j - |x|, pat) || StraddleAt(pat, x, y, |x| - j)
  {
    var s := x + y;
    if At(s, j, pat) {
      if j + |pat| <= |x| {
        assert x[j..j + |pat|] == s[j..j + |pat|];
      } else if j >= |x| {
        assert y[j - |x|..j - |x| + |pat|] == s[j..j + |pat|];
      } else {
        var i := |x| - j;
        assert x[|x| - i..] == s[j..j + i];
        assert s[j..j + i] == pat[..i];
        assert y[..|pat| - i] == s[|x|..j + |pat|];
        assert s[|x|..j + |pat|] == pat[i..];
      }
    }
  }

  lemma NoOccursConcat(pat: string, x: string, y: string)
    requires !Occurs(pat, x) && !Occurs(pat, y)
    requires forall i :: !StraddleAt(pat, x, y, i)
    ensures !Occurs(pat, x + y)
  {
    forall j | 0 <= j <= |x + y| ensures !At(x + y, j, pat) {
      AtConcatCases(pat, x, y, j);
    }
  }

  /** Every occurrence in a suffix is an occurrence in the whole string. */
  lemma OccursInSuffixAll(s: string, k: nat)
    requires k <= |s|
    ensures forall pat :: Occurs(pat, s[k..]) ==> Occurs(pat, s)
  {
    forall pat | Occurs(pat, s[k..]) ensures Occurs(pat, s) {
      OccursInSuffix(s, k, pat);
    }
  }

  lemma StartsWithOccurs(s: string, prefix: string)
    requires StartsWith(s, prefix)
    ensures At(s, 0, prefix) && Occurs(prefix, s)
  {
    assert s[0..|prefix|] == s[..|prefix|];
    assert 0 <= 0 <= |s| && At(s, 0, prefix);
  }

  lemma AtZeroIff(s: string, pat: string)
    ensures At(s, 0, pat) <==> StartsWith(s, pat)
  {
    if |pat| <= |s| {
      assert s[0..|pat|] == s[..|pat|];
    }
  }

  /** An occurrence in either part is an occurrence in the concatenation. */
  lemma OccursConcat(pat: string, x: string, y: string)
    ensures Occurs(pat, x) || Occurs(pat, y) ==> Occurs(pat, x + y)
  {
    assert x == (x + y)[..|x|];
    assert y == (x + y)[|x|..];
    OccursInPrefix(x + y, |x|, pat);
    OccursInSuffix(x + y, |x|, pat);
  }

  /** A character absent from `pat` splits every occurrence search in two. */
  lemma NoOccursAroundForeignChar(pat: string, x: string, c: char, y: string)
    requires |pat| > 0 && c !in pat
    requires !Occurs(pat, x) && !Occurs(pat, y)
    ensures !Occurs(pat, x + [c] + y)
  {
    ForeignCharAlone(pat, c);
    forall i ensures !StraddleAt(pat, [c], y, i) {
      StraddleLast(pat, [c], y, i);
      if 0 < i < |pat| {
        assert pat[i - 1] in pat;
      }
    }
    NoOccursConcat(pat, [c], y);
    forall i ensures !StraddleAt(pat, x, [c] + y, i) {
      StraddleFirst(pat, x, [c] + y, i);
      if 0 < i < |pat| {
        assert pat[i] in pat;
      }
    }
    NoOccursConcat(pat, x, [c] + y);
    assert x + [c] + y == x + ([c] + y);
  }

  lemma ForeignCharAlone(pat: string, c: char)
    requires |pat| > 0 && c !in pat
    ensures !Occurs(pat, [c])
  {
    assert pat[0] != c;
    forall j | 0 <= j <= 1 ensures !At([c], j, pat) {
      if j == 0 && |pat| == 1 {
        assert [c][0..1][0] == c;
      }
    }
  }

  /** A straddling occurrence continues with the first character after the seam. */
  lemma StraddleFirst(pat: string, x: string, y: string, i: int)
    ensures StraddleAt(pat, x, y, i) ==> y[0] == pat[i]
  {
    if StraddleAt(pat, x, y, i) {
      assert y[..|pat| - i][0] == y[0];
      assert pat[i..][0] == pat[i];
    }
  }

  /** A straddling occurrence holds the last character before the seam. */
  lemma StraddleLast(pat: string, x: string, y: string, i: int)
    ensures StraddleAt(pat, x, y, i) ==> x[|x| - 1] == pat[i - 1]
  {
    if StraddleAt(pat, x, y, i) {
      assert x[|x| - i..][i - 1] == x[|x| - 1];
      assert pat[..i][i - 1] == pat[i - 1];
    }
  }

  /** Python `s.find(pat, start)` as an option: the least index at or after `start` where `pat` occurs. */
  function FindFrom(s: string, pat: string, start: nat): (r: Option<nat>)
    requires |pat| > 0
    ensures r.Some? ==> start <= r.value && At(s, r.value, pat)
    ensures r.Some? ==> forall j :: start <= j < r.value ==> !At(s, j, pat)
    ensures r.None? ==> forall j :: start <= j ==> !At(s, j, pat)
    decreases |s| - start
  {
    if start + |pat| > |s| then None
    else if s[start..start + |pat|] == pat then Some(start)
    else FindFrom(s, pat, start + 1)
  }

  /** Python `s.find(pat)`: the first occurrence of `pat` in `s`, if any. */
  function Find(s: string, pat: string): (r: Option<nat>)
    requires |pat| > 0
    ensures r.None? <==> !Occurs(pat, s)
    ensures r.Some? ==> At(s, r.value, pat) && forall j :: 0 <= j < r.value ==> !At(s, j, pat)
  {
    FindFrom(s, pat, 0)
  }

  /** Nothing before the first occurrence: the text up to it holds no occurrence. */
  lemma NothingBeforeFind(s: string, pat: string, i: nat)
    requires |pat| > 0 && Find(s, pat) == Some(i)
    ensures !Occurs(pat, s[..i + |pat| - 1])
  {
    var p := s[..i + |pat| - 1];
    if Occurs(pat, p) {
      var j :| 0 <= j <= |p| && At(p, j, pat);
      AtPrefix(s, |p|, j, pat);
    }
  }

  /** Any leftmost occurrence is the one `Find` reports. */
  lemma FindLeast(s: string, pat: string, i: nat)
    requires |pat| > 0 && At(s, i, pat)
    requires forall j :: 0 <= j < i ==> !At(s, j, pat)
    ensures Find(s, pat) == Some(i)
  {
    assert i <= |s|;
  }

  /** The first occurrence in `x + pat + y` is right after `x` when `x` has none and ends outside `pat`. */
  lemma FindAfterClean(x: string, pat: string, y: string)
    requires |pat| > 0 && !Occurs(pat, x)
    requires |x| > 0 && x[|x| - 1] !in pat
    ensures Find(x + pat + y, pat) == Some(|x|)
  {
    var s := x + pat + y;
    assert s[|x|..|x| + |pat|] == pat;
    forall j | 0 <= j < |x| ensures !At(s, j, pat) {
      if j + |pat| <= |x| {
        assert s[j..j + |pat|] == x[j..j + |pat|];
        assert !At(x, j, pat);
      } else if j + |pat| <= |s| {
        assert s[j..j + |pat|][|x| - 1 - j] == x[|x| - 1];
      }
    }
    FindLeast(s, pat, |x|);
  }

  /** Python `sep.join(parts)`. */
  function Join(parts: seq<string>, sep: string): string
    decreases |parts|
  {
    if |parts| == 0 then []
    else if |parts| == 1 then parts[0]
    else parts[0] + sep + Join(parts[1..], sep)
  }

  /**
   Python `s.split(sep, maxsplit)` for a non-empty separator: at most `maxsplit`
   cuts, each at the leftmost remaining occurrence of `sep`.
   */
  function SplitN(s: string, sep: string, maxsplit: nat): (parts: seq<string>)
    requires |sep| > 0
    ensures 1 <= |parts| <= maxsplit + 1
    ensures Join(parts, sep) == s
    ensures forall i :: 0 <= i < |parts| - 1 ==> !Occurs(sep, parts[i])
    ensures |parts| <= maxsplit ==> !Occurs(sep, parts[|parts| - 1])
    ensures forall k :: 0 <= k < |parts| - 1 ==> Find(Join(parts[k..], sep), sep) == Some(|parts[k]|)
    decreases maxsplit
  {
    if maxsplit == 0 then [s]
    else match Find(s, sep)
      case None => [s]
      case Some(i) =>
        FindHead(s, sep, i);
        var tail := SplitN(s[i + |sep|..], sep, maxsplit - 1);
        JoinCons(s[..i], tail, sep);
        JoinConsSuffixes(s[..i], tail, sep);
        [s[..i]] + tail
  }

  /** Python `s.split(sep)` for a non-empty separator: cut at every occurrence, left to right. */
  function SplitAll(s: string, sep: string): (parts: seq<string>)
    requires |sep| > 0
    ensures |parts| >= 1
    ensures Join(parts, sep) == s
    ensures forall i :: 0 <= i < |parts| ==> !Occurs(sep, parts[i])
    ensures forall k :: 0 <= k < |parts| - 1 ==> Find(Join(parts[k..], sep), sep) == Some(|parts[k]|)
    decreases |s|
  {
    match Find(s, sep)
    case None => [s]
    case Some(i) =>
      FindHead(s, sep, i);
      var tail := SplitAll(s[i + |sep|..], sep);
      JoinCons(s[..i], tail, sep);
      JoinConsSuffixes(s[..i], tail, sep);
      [s[..i]] + tail
  }

  /** The text before the first separator holds none, and the string is put back around it. */
  lemma FindHead(s: string, sep: string, i: nat)
    requires |sep| > 0 && Find(s, sep) == Some(i)
    ensures i + |sep| <= |s|
    ensures !Occurs(sep, s[..i])
    ensures s == s[..i] + sep + s[i + |sep|..]
  {
    NothingBeforeFind(s, sep, i);
    OccursInPrefix(s[..i + |sep| - 1], i, sep);
    assert s[..i + |sep| - 1][..i] == s[..i];
  }

  lemma JoinCons(head: string, tail: seq<string>, sep: string)
    requires |tail| >= 1
    ensures Join([head] + tail, sep) == head + sep + Join(tail, sep)
    ensures forall k :: 1 <= k < |tail| + 1 ==> ([head] + tail)[k] == tail[k - 1]
  {
    assert ([head] + tail)[1..] == tail;
  }

  /** The remainders after the first piece of `[head] + tail` are those of `tail`. */
  lemma JoinConsSuffixes(head: string, tail: seq<string>, sep: string)
    requires |tail| >= 1
    ensures forall k :: 1 <= k < |tail| + 1 ==> ([head] + tail)[k..] == tail[k - 1..]
    ensures ([head] + tail)[0..] == [head] + tail
  {
    forall k | 1 <= k < |tail| + 1 ensures ([head] + tail)[k..] == tail[k - 1..] {
      assert ([head] + tail)[k..] == ([head] + tail)[1..][k - 1..];
      assert ([head] + tail)[1..] == tail;
    }
  }

  /**
   Python `s.replace(pat, rep)` for a non-empty `pat`: scan left to right, and
   wherever `pat` starts, emit `rep` and resume after the occurrence.
   */
  function ReplaceAll(s: string, pat: string, rep: string): string
    requires |pat| > 0
    decreases |s|
  {
    if StartsWith(s, pat) then rep + ReplaceAll(s[|pat|..], pat, rep)
    else if |s| == 0 then []
    else [s[0]] + ReplaceAll(s[1..], pat, rep)
  }

  /** A first character that does not start an occurrence is copied. */
  lemma ReplaceAllKeep(s: string, pat: string, rep: string)
    requires |pat| > 0 && |s| > 0 && !At(s, 0, pat)
    ensures ReplaceAll(s, pat, rep) == [s[0]] + ReplaceAll(s[1..], pat, rep)
  {
  }

  /** The first occurrence of `pat` in `s`, seen from `s[1..]`. */
  lemma FirstAtShift(s: string, pat: string, i: nat)
    requires |pat| > 0 && 0 < i && At(s, i, pat)
    requires forall j :: 0 <= j < i ==> !At(s, j, pat)
    ensures At(s[1..], i - 1, pat)
    ensures forall j :: 0 <= j < i - 1 ==> !At(s[1..], j, pat)
  {
    AtSuffix(s, 1, i - 1, pat);
    forall j | 0 <= j < i - 1 ensures !At(s[1..], j, pat) {
      AtSuffix(s, 1, j, pat);
    }
  }

  /** The text before the first occurrence is kept verbatim, the occurrence becomes `rep`. */
  lemma {:induction false} ReplaceAllFirst(s: string, pat: string, rep: string, i: nat)
    requires |pat| > 0 && At(s, i, pat)
    requires forall j :: 0 <= j < i ==> !At(s, j, pat)
    ensures ReplaceAll(s, pat, rep) == s[..i] + rep + ReplaceAll(s[i + |pat|..], pat, rep)
    decreases i
  {
    var tail := ReplaceAll(s[i + |pat|..], pat, rep);
    if i == 0 {
      assert StartsWith(s, pat) by {
        assert s[..|pat|] == pat;
      }
      assert s[..i] + rep + tail == rep + tail;
    } else {
      calc {
        ReplaceAll(s, pat, rep);
      == { ReplaceAllKeep(s, pat, rep); }
        [s[0]] + ReplaceAll(s[1..], pat, rep);
      == { FirstAtShift(s, pat, i);
           ReplaceAllFirst(s[1..], pat, rep, i - 1);
           assert s[1..][i - 1 + |pat|..] == s[i + |pat|..]; }
        [s[0]] + (s[1..][..i - 1] + rep + tail);
      == { assert s[..i] == [s[0]] + s[1..][..i - 1]; }
        s[..i] + rep + tail;
      }
    }
  }

  /** With no occurrence, `replace` returns its input. */
  lemma {:induction false} ReplaceAllAbsent(s: string, pat: string, rep: string)
    requires |pat| > 0 && !Occurs(pat, s)
    ensures ReplaceAll(s, pat, rep) == s
    decreases |s|
  {
    if |s| > 0 {
      assert !At(s, 0, pat);
      OccursInSuffix(s, 1, pat);
      ReplaceAllKeep(s, pat, rep);
      ReplaceAllAbsent(s[1..], pat, rep);
    }
  }

  /** A leading character that cannot start `pat` is copied and the scan goes on after it. */
  lemma ReplaceAllSkip(c: char, x: string, pat: string, rep: string)
    requires |pat| > 0 && pat[0] != c
    ensures ReplaceAll([c] + x, pat, rep) == [c] + ReplaceAll(x, pat, rep)
  {
    var s := [c] + x;
    assert s[1..] == x;
    assert !StartsWith(s, pat) by {
      if |pat| <= |s| {
        assert s[..|pat|][0] == c;
      }
    }
  }

  /** A prefix in which no occurrence starts is copied as it is. */
  lemma {:induction false} ReplaceAllCleanPrefix(x: string, y: string, pat: string, rep: string)
    requires |pat| > 0
    requires forall j :: 0 <= j < |x| ==> !At(x + y, j, pat)
    ensures ReplaceAll(x + y, pat, rep) == x + ReplaceAll(y, pat, rep)
    decreases |x|
  {
    if |x| > 0 {
      var s := x + y;
      assert !At(s, 0, pat);
      ReplaceAllKeep(s, pat, rep);
      assert s[1..] == x[1..] + y;
      forall j | 0 <= j < |x[1..]| ensures !At(x[1..] + y, j, pat) {
        AtSuffix(s, 1, j, pat);
      }
      ReplaceAllCleanPrefix(x[1..], y, pat, rep);
      assert [s[0]] + x[1..] == x;
    } else {
      assert x + y == y;
    }
  }

  /** An occurrence at the very start is replaced first. */
  lemma ReplaceAllAtStart(x: string, pat: string, rep: string)
    requires |pat| > 0
    ensures ReplaceAll(pat + x, pat, rep) == rep + ReplaceAll(x, pat, rep)
  {
    var s := pat + x;
    assert s[..|pat|] == pat;
    assert s[|pat|..] == x;
  }

  /**
   `s.replace(a, b) == b.join(s.split(a))`: the scan agrees with cutting at every
   leftmost occurrence and gluing the pieces back with `rep`.
   */
  lemma {:induction false} ReplaceAllIsJoinOfSplit(s: string, pat: string, rep: string)
    requires |pat| > 0
    ensures ReplaceAll(s, pat, rep) == Join(SplitAll(s, pat), rep)
    decreases |s|
  {
    match Find(s, pat)
    case None =>
      ReplaceAllAbsent(s, pat, rep);
    case Some(i) =>
      var rest := s[i + |pat|..];
      ReplaceAllFirst(s, pat, rep, i);
      ReplaceAllIsJoinOfSplit(rest, pat, rep);
      var tail := SplitAll(rest, pat);
      assert SplitAll(s, pat) == [s[..i]] + tail;
      assert Join([s[..i]] + tail, rep) == s[..i] + rep + Join(tail, rep);
  }

  /** Every character of `s.replace(pat, rep)` comes from `s` or from `rep`. */
  lemma {:induction false} ReplaceAllChars(s: string, pat: string, rep: string)
    requires |pat| > 0
    ensures forall c :: c in ReplaceAll(s, pat, rep) ==> c in s || c in rep
    decreases |s|
  {
    if StartsWith(s, pat) {
      ReplaceAllChars(s[|pat|..], pat, rep);
      forall c | c in s[|pat|..] ensures c in s {
        var k :| 0 <= k < |s[|pat|..]| && s[|pat|..][k] == c;
        assert s[|pat| + k] == c;
      }
    } else if |s| > 0 {
      ReplaceAllChars(s[1..], pat, rep);
      forall c | c in s[1..] ensures c in s {
        var k :| 0 <= k < |s[1..]| && s[1..][k] == c;
        assert s[1 + k] == c;
      }
    }
  }

  /** Replace every `a` by `rep`, character by character. */
  function MapChar(s: string, a: char, rep: string): (r: string)
    ensures a !in s ==> r == s
    ensures a !in rep ==> a !in r
    decreases |s|
  {
    if |s| == 0 then []
    else (if s[0] == a then rep else [s[0]]) + MapChar(s[1..], a, rep)
  }

  /** Replacing a one-character pattern is a per-character substitution. */
  lemma {:induction false} ReplaceCharIsMapChar(s: string, a: char, rep: string)
    ensures ReplaceAll(s, [a], rep) == MapChar(s, a, rep)
    decreases |s|
  {
    if |s| > 0 {
      ReplaceCharIsMapChar(s[1..], a, rep);
      assert StartsWith(s, [a]) <==> s[0] == a by {
        assert s[..1] == [s[0]];
      }
    }
  }

  // Small concatenation facts the rewriters' proofs share.

  lemma OpenCons(v: string, w: string, rest: string)
    requires |v| > 0 && v[0] == '[' && w == [v[0]] + rest
    ensures "[" + v == "[[" + v[1..] && "[" + w == "[[" + rest
  {
  }

  lemma SplitClose(a: string, w: string, n: string)
    requires |n| == |a|
    ensures StartsWith(a + w, n + "]]") ==> n == a && StartsWith(w, "]]")
  {
    if StartsWith(a + w, n + "]]") {
      assert (a + w)[..|a|] == a;
      assert (n + "]]")[..|n|] == n;
      assert w[..2] == (a + w)[|a|..|a| + 2] == (n + "]]")[|n|..];
    }
  }

  lemma ConcatAssoc(x: string, l: string, y: string)
    ensures x + (l + y) == x + l + y
  {
  }

  lemma AppendFirst(names: seq<string>, images: seq<string>)
    requires |images| > 0
    ensures names + [images[0]] + images[1..] == names + images
  {
  }

  lemma PrefixHeads(w: string, p: string)
    requires |p| == 2
    ensures StartsWith(w, p) ==> w[0] == p[0] && w[1] == p[1]
  {
    if StartsWith(w, p) {
      assert w[..2][0] == w[0] && w[..2][1] == w[1];
    }
  }
}
